=== FILE: README.md ===
# NFL quant analysis — a Dafny model of its data pipeline

This project models the core of an NFL analytics codebase. Two parts are
modelled:

- The data collection side:
  - digitising Next Gen Stats route charts into field coordinates, including
    the crude removal of touchdown annotations;
  - scraping contract and salary-cap tables from HTML pages;
  - the small season-data helpers.
- The analyses built on the collected data:
  - player percentiles;
  - tendencies of the 3x1 bunch formation;
  - fourth-down decision and success tables;
  - errors of receiver projections;
  - the value obtained per contract dollar, split by draft status.

Every operation is a pure function over immutable data. The pandas
operations are written out explicitly:

- a null is `None`;
- a boolean mask keeps rows in order;
- `groupby` drops null keys;
- `mean` skips nulls and gives NaN (`None`) over no values.

Two conventions are the model's own, not pandas' (see "Left out"):

- groups are listed in order of first appearance, where pandas sorts the keys;
- a column division is null when either side is null or the divisor is 0,
  where pandas gives ±inf or NaN for a zero divisor.

Image decoding, colour masking and skeletonisation, the field cleaner, the
pairwise distance and the optimal assignment, the HTTP fetches and the dataset
downloads cannot be seen from here. They are parameters ("oracles") of the
functions that use them.

Modules, one file each:

- `Common`: Option/Result, masks, counting, means, distinct values.
- `Text`: Python string and path helpers on ASCII text.
- `Grouping`: `value_counts` and grouped shares.
- `FieldGeometry`: the pixel-to-yard transform.
- `TouchdownSearch`: the annotation removal.
- `NextGenData`: route mapping, image cleaning and the chart loop.
- `Contracts`: the scrapers.
- `NflData`: the season-data helpers.
- `PlayerQuality`, `OffensiveTendencies`, `FourthDown`, `WrProjection` and `AcquisitionValue`: one module per analysis.

## Model

| member | source | states |
|---|---|---|
| FieldGeometry.LayoutConstants | src/features/next_gen_data.py:152-167 | Charts wider than 1370 px use line of scrimmage 596 with the 75-yard line at row 0; narrower charts use 572 with the 55-yard line at row 5. One yard across is (width − 80)/53.33 px. |
| FieldGeometry.ToFieldInverse | src/features/next_gen_data.py:169-175 | The pixel→field transform and its inverse undo each other, in both directions, for every chart width whose x-scale is non-zero. |
| FieldGeometry.ReferencePixels | src/features/next_gen_data.py:152-175 | The line of scrimmage at the centre column maps to (0, 0). The reference yard line maps to 75 or 55 yards downfield. The two sidelines map to ±53.33/2 yards. |
| FieldGeometry.Monotone | src/features/next_gen_data.py:169-175 | Moving right in the image moves right on the field. Moving down the image moves back toward the line of scrimmage. |
| FieldGeometry.CloudToField | src/features/next_gen_data.py:170-175 | Converting a pixel trace gives one field point per pixel, and each field point maps back exactly onto its pixel. |
| TouchdownSearch.Search | src/features/next_gen_data.py:182-195 | The 275×275 scan keeps the first offset, in row-major order, whose cost is strictly below 20 and strictly below every earlier cost. When no cost is below 20, the result is "none". |
| TouchdownSearch.FirstMinimumUnique | src/features/next_gen_data.py:185-195 | The selection rule determines at most one offset, so the scan's answer is the only one possible. |
| TouchdownSearch.ConstantCostSearch | src/features/next_gen_data.py:192-195 | Under a uniform cost the scan keeps offset (0, 0) when the cost is below 20, and nothing otherwise. |
| TouchdownSearch.Nearest | src/features/next_gen_data.py:190-191 | The nearest-point distance is at most the distance to every cloud point, and is attained by one of them. |
| TouchdownSearch.SurvivorsSpec | src/features/next_gen_data.py:204-206 | After masking, the remaining indices are exactly the in-range indices that were not marked, in increasing order. |
| TouchdownSearch.DeleteRows | src/features/next_gen_data.py:203-206 | Masking fails exactly when a marked index is out of range. Otherwise it keeps exactly the unmarked points, in their original order: the result is a subsequence of the cloud. |
| TouchdownSearch.DeleteRowsCount | src/features/next_gen_data.py:203-206 | Masking removes one point per distinct marked index. |
| TouchdownSearch.MaskedSubsequence | src/features/next_gen_data.py:203-206 | The points a mask keeps are a subsequence of the cloud. |
| TouchdownSearch.RemoveTouchdowns | src/features/next_gen_data.py:181-206 | With no touchdowns the cloud is unchanged. A successful removal is a subsequence of the cloud: points are only deleted, and the survivors keep their order. Only a run with touchdowns pending can fail. |
| TouchdownSearch.FailedPassKeepsCloud | src/features/next_gen_data.py:196-201 | A pass that finds no placement below the threshold ends the removal and leaves the cloud as it was. |
| TouchdownSearch.RemovalPass | src/features/next_gen_data.py:185-206 | A pass that finds a placement deletes the matched rows, shrinking the cloud by the number of distinct matched rows, and the remaining passes run on what is left. An out-of-range matched row ends the removal with an error. |
| TouchdownSearch.RemoveTouchdownsAsWritten | src/features/next_gen_data.py:181-206 | The removal loop as written also leaves the cloud unchanged when there are no touchdowns, and a successful run is a subsequence of the cloud. Only a run with touchdowns pending can fail. |
| TouchdownSearch.StaleRowsPass | src/features/next_gen_data.py:196-206 | As written, a pass that finds no placement after an earlier pass matched deletes the earlier pass's rows again and carries on. |
| TouchdownSearch.AsWrittenFirstPassStops | src/features/next_gen_data.py:196-201 | As written, a first pass that finds no placement stops the loop with the cloud unchanged. |
| TouchdownSearch.StaleRowsCounterexample | src/features/next_gen_data.py:196-206 | On a two-point cloud with two touchdowns, the second pass finds nothing. The loop as written still deletes the last point by reusing the first pass's indices; the corrected loop keeps it. |
| NextGenData.MapRouteLocations | src/features/next_gen_data.py:152-234 | A chart whose width is exactly 80 px is an error. Otherwise the rows come in three blocks: the points of the COMPLETE trace with some deleted and the rest in their original order, then one YAC row per YAC pixel, then one INCOMPLETE row per INCOMPLETE pixel, each drawn back onto its pixel. With no touchdowns every COMPLETE pixel is kept, in order. |
| NextGenData.AssembleLayout | src/features/next_gen_data.py:208-232 | The combined table holds the COMPLETE block, then the YAC block, then the INCOMPLETE block. Each row carries its block's route type and its point. |
| NextGenData.Crop | src/features/next_gen_data.py:84-85 | The crop keeps the first 680 rows of a 1200×1200 image. |
| NextGenData.CleanChartImage | src/features/next_gen_data.py:80-101 | An image is skipped exactly when it is not 1200×1200. Otherwise the mirrored directory is created, and a file is written exactly when the cleaner returns an image. That file sits at the mirrored path with the image's base name. |
| NextGenData.MirroredPath | src/features/next_gen_data.py:244-251 | For plain folder names, the file the cleaner writes for a chart's raw image is the path that is later looked up for that chart. |
| NextGenData.TagChart | src/features/next_gen_data.py:254-263 | Every route row of a chart gains that chart's game id, team, week, "first last" name and position. The rows keep their count and points. |
| NextGenData.ProcessChart | src/features/next_gen_data.py:240-264 | Files are only ever added. Every row produced belongs to the chart being processed. A chart contributes rows exactly when its cleaned image exists, and they are the chart's tagged route rows of that image. A digitised chart with no route row is an error, because concatenating zero copies of the chart columns raises. |
| NextGenData.EmptyRouteTableFails | src/features/next_gen_data.py:254-262 | A chart whose cleaned image exists but whose three skeletons are empty, with no touchdown to remove, ends the run with the empty-route-table error. |
| NextGenData.ChartBlocks | src/features/next_gen_data.py:240-265 | One block per chart, in chart order, and every row of block i belongs to chart i. |
| NextGenData.ProcessNextGenData | src/features/next_gen_data.py:236-267 | Every output row belongs to one of the input charts, and no charts give an empty table. The run succeeds exactly when every chart does. The output is the per-chart blocks joined in chart order, and a failed run reports the first chart's error. |
| Contracts.FirstMatching | src/features/contracts.py:14-16 | Chooses the first table whose headers include all required names. The result is "none" exactly when no table does. |
| Contracts.KeptRows | src/features/contracts.py:17-22 | Keeps exactly the body rows that have cells. Contract histories are cut to the header count; the other pages are not. |
| Contracts.ScrapeTable | src/features/contracts.py:24-26 | The frame constructor fails on a width mismatch exactly when some row is wider than the header, or every row is narrower. Otherwise each frame has the headers as columns and one row per kept row, short rows padded with nulls, and the money columns stripped of '$' and ','. |
| Contracts.HistoryNeverTooWide | src/features/contracts.py:21-24 | Because history rows are truncated, the only shape error left for a contract history is a table whose rows are all shorter than its header. |
| Contracts.ScrapePage | src/features/contracts.py:6-30 | A failed request is an error. "No frame" comes back exactly when no table matches, and that covers a page without tables. Otherwise the result is the first matching table's frame. |
| Contracts.ScrapedHasRequired | src/features/contracts.py:14-28 | A scraped frame is well formed, has distinct columns, and contains every header the scraper looked for. |
| Contracts.GetPlayerContractHistory | src/features/contracts.py:6-30 | A contract history frame has Year, Age and Base Salary columns. |
| Contracts.GetCurrentContracts | src/features/contracts.py:32-56 | A cash-flow frame has Player, Team and Position columns. |
| Contracts.GetSalaryCapData | src/features/contracts.py:58-82 | A cap-space frame has Team and Cap Space columns. |
| Contracts.PlayerNameFromUrl | src/features/contracts.py:91 | A name exists exactly when the URL contains '/'. It holds no '-' and no '/'. |
| Contracts.NameFromPlayerUrl | src/features/contracts.py:91 | For a URL `…/slug/id` the name is the slug with dashes turned into spaces, in title case. |
| Contracts.WithColumn | src/features/contracts.py:92 | Setting a column fills every row with the value and leaves the other columns as they were. It adds the column only when it is new. |
| Contracts.Concat | src/features/contracts.py:100 | Concatenation takes the union of the columns, each once. Row `TotalRows(frames[..j]) + i` of the result is row i of frame j laid out over the new columns, so the frames' rows appear in frame order and each frame's rows in their own order. |
| Contracts.StackRowsBlocks | src/features/contracts.py:100 | Frame j's rows sit in the stacked rows right after the rows of the frames before it, each laid out over the common columns. |
| Contracts.StackKeepsLabels | src/features/contracts.py:92-100 | When every frame is labelled, each stacked row's Player cell is one of the labels. |
| Contracts.SelectedPlayersHistory | src/features/contracts.py:84-105 | The result is "none" exactly when no URL yields a frame. Otherwise it has a Player column, each row's Player is the name of one of the URLs, and the result is the concatenation of the found histories: one per URL that yields one, in URL order. |
| Common.FilterMapSources | src/features/contracts.py:87-96 | The collected (URL, history) pairs come from exactly the URLs that yield a history, in URL order, each once. |
| Text.Split | src/features/next_gen_data.py:81 | The pieces of a split contain no separator, and joining them gives back the text. |
| Text.SplitJoin | src/features/next_gen_data.py:92 | Splitting a join of separator-free pieces gives back those pieces. |
| Text.PathJoinPlain | src/features/next_gen_data.py:246-249 | Joining plain path components is a '/'-join. |
| Text.TitleCharacters | src/features/contracts.py:91 | Title case keeps the length and which characters are letters. It upper-cases exactly the letters that start a word and lower-cases the others. |
| Text.TitleIdempotent | src/features/contracts.py:91 | Title-casing twice changes nothing more. |
| Text.StripMoney | src/features/contracts.py:26 | Stripping removes exactly the '$' and ',' characters and keeps the others in order. |
| Text.StripMoneyIdempotent | src/features/contracts.py:26 | Stripping twice removes nothing more. |
| NflData.ReorderColumns | src/features/nfl_data.py:17-18 | The reorder puts the last column first, then every column but the last two. Exactly the second-to-last column is lost. |
| NflData.ReorderDropsSecondToLast | src/features/nfl_data.py:17-18 | With distinct names, the second-to-last column is missing and every other column is present. |
| NflData.FilterReceivers | src/features/nfl_data.py:24-29 | Keeps exactly the seasons with receptions, receiving yards and targets present and receptions above 0, in order. Each such season is kept once: the count equals the number of qualifying seasons. |
| NflData.WithAvailability | src/features/nfl_data.py:38-39 | Each season with an apy is kept once, in its original order, with availability games/17. Seasons without an apy are dropped. |
| NflData.AvailabilityBounds | src/features/nfl_data.py:38 | A season of 0 to 17 games has availability between 0 and 1. |
| NflData.FilterQbsEarlyCareer | src/features/nfl_data.py:102-105 | Keeps exactly the quarterbacks with season − draft year at most `years`, in order. |
| NflData.EarlyCareerWidens | src/features/nfl_data.py:102-105 | A wider career window keeps everything a narrower one keeps, in the same order. |
| NflData.CalculateRoi | src/features/nfl_data.py:107-110 | cap_pct · Cap Space = value and roi · value = passing yards wherever both sides are defined. |
| NflData.RoiChain | src/features/nfl_data.py:107-110 | cap_pct times roi is passing yards per dollar of cap space. |
| PlayerQuality.Percentile | src/analysis/player_quality.py:9 | The percentile lies in [0, 100] and is the share of group values strictly below the player's. An empty group gives NaN. |
| PlayerQuality.PercentileExtremes | src/analysis/player_quality.py:9 | The percentile is 0 exactly when no group value is below the player's, and 100 exactly when all are. |
| PlayerQuality.AtMinimumScoresZero | src/analysis/player_quality.py:9 | A player at or under every group value scores 0. |
| PlayerQuality.PercentileMonotone | src/analysis/player_quality.py:9 | A higher player value never gets a lower percentile. |
| PlayerQuality.ScoreStats | src/analysis/player_quality.py:6-10 | The scored statistics are exactly the listed ones present in both inputs, in list order, each with its percentile. When the list has no repeats, no statistic is scored twice, as the keys of the result dict are unique. |
| PlayerQuality.AssessPlayerQuality | src/analysis/player_quality.py:3-12 | Player data with no rows is an error. Otherwise the result lists, in the order of the five statistics, exactly those present in both the first player row and the position data, each once and with its percentile. |
| OffensiveTendencies.BunchPlays | src/analysis/offensive_tendencies.py:6 | Keeps exactly the plays in "1 RB, 1 TE, 3 WR" personnel, in order, each once: the count equals the number of such plays. |
| OffensiveTendencies.Percentage | src/analysis/offensive_tendencies.py:12-15 | The percentage is NaN over no plays; otherwise it lies in [0, 100] and is the matching plays out of all plays as a percentage. |
| OffensiveTendencies.PercentOf | src/analysis/offensive_tendencies.py:12-15 | c out of n as a percentage lies in [0, 100] when c <= n. |
| OffensiveTendencies.PercentOfScales | src/analysis/offensive_tendencies.py:12-15 | n times the percentage of c out of n is 100 times c, so the percentage is the mean of the indicator times 100. |
| OffensiveTendencies.OverallTendencies | src/analysis/offensive_tendencies.py:11-16 | With no plays the run, pass and success percentages are NaN. Otherwise each is 100 times the number of runs, passes or plays with success 1 over the number of plays, and run plus pass is at most 100. The average yardage is the mean of the non-null yardages, NaN exactly when every yardage is null. |
| OffensiveTendencies.Analyze3x1BunchFormation | src/analysis/offensive_tendencies.py:4-23 | The run, pass and success percentages are NaN exactly when no play is in the formation. Otherwise each is 100 times the number of formation plays that are runs, passes or successes over the number of formation plays. The average yardage is NaN exactly when every formation play's yardage is null. The per-down table has one row per down, at most once each, and a row for every down of a formation play with a known play type. Each share in it is the number of formation plays of that down and type over the number of that down's formation plays with a known type. The per-situation table is the same, keyed by (down, yardline_100). |
| OffensiveTendencies.DownTableShares | src/analysis/offensive_tendencies.py:19 | Grouping the formation plays by down gives each down once. Each play-type share is that down-and-type count over the down's count of plays with a known type. |
| OffensiveTendencies.DownTableCovers | src/analysis/offensive_tendencies.py:19 | Every formation play with a down and a play type has its down's row and, in it, its play type's share. |
| OffensiveTendencies.SituationTableShares | src/analysis/offensive_tendencies.py:21 | Grouping the formation plays by (down, yardline_100) gives each situation once. Each play-type share is that situation-and-type count over the situation's count of plays with a known type. |
| OffensiveTendencies.SituationTableCovers | src/analysis/offensive_tendencies.py:21 | Every formation play with a down, a yard line and a play type has its situation's row and, in it, its play type's share. |
| OffensiveTendencies.DownMembers | src/analysis/offensive_tendencies.py:19 | A down's group holds one play type per play of that down with a known type. |
| OffensiveTendencies.DownTypeMembers | src/analysis/offensive_tendencies.py:19 | A down's group holds a play type as often as there are plays of that down and type. |
| OffensiveTendencies.SituationMembers | src/analysis/offensive_tendencies.py:21 | A situation's group holds one play type per play in that situation with a known type. |
| OffensiveTendencies.SituationTypeMembers | src/analysis/offensive_tendencies.py:21 | A situation's group holds a play type as often as there are plays in that situation of that type. |
| OffensiveTendencies.SharesSumToOne | src/analysis/offensive_tendencies.py:19-21 | The play-type shares of each down and of each (down, yard line) situation add up to 1. |
| OffensiveTendencies.BunchCounts | src/analysis/offensive_tendencies.py:6-15 | Counting runs, passes or successes among the formation plays gives the number of input plays that are both in the formation and runs, passes or successes. |
| OffensiveTendencies.BunchYardsNull | src/analysis/offensive_tendencies.py:6-14 | The formation's yardage column has no value exactly when every formation play's yardage is null. |
| OffensiveTendencies.DownRowsFromBunch | src/analysis/offensive_tendencies.py:19 | Every per-down row is the down of some play in the formation. |
| OffensiveTendencies.OtherPersonnelIgnored | src/analysis/offensive_tendencies.py:6 | Adding a play in another personnel grouping changes no result. |
| Grouping.ValueCountsTotal | src/analysis/offensive_tendencies.py:19 | The counts of the distinct values add up to the number of rows. |
| Grouping.Normalize | src/analysis/offensive_tendencies.py:19 | Each distinct value gets its share of the rows, which is in (0, 1]. The shares add up to 1. |
| Grouping.GroupShares | src/analysis/offensive_tendencies.py:19-21 | One group per key of the rows, in order of first appearance, no key twice. Each group holds the normalized value counts of its key's rows (see Grouping.Normalize). |
| Grouping.GroupsHaveRows | src/analysis/offensive_tendencies.py:19-21 | Every group's key has at least one row. |
| Grouping.GroupShareEntry | src/analysis/offensive_tendencies.py:19-21 | Each share in a group is the number of the group's rows with that value over the group's size, and the value occurs in the group. |
| Grouping.GroupSharesCover | src/analysis/offensive_tendencies.py:19-21 | Every (key, value) row gives its key a group and its value a share in that group. |
| Grouping.GroupSharesAddUp | src/analysis/offensive_tendencies.py:19-21 | Within every group the shares are in (0, 1] and add up to 1. |
| FourthDown.FourthDownPlays | src/analysis/fourth_down_analysis.py:4 | Keeps exactly the plays on fourth down, in order, each once: the count equals the number of fourth-down plays. |
| FourthDown.Decisions | src/analysis/fourth_down_analysis.py:5 | One row per season with a grouped play, in order of first appearance, no season twice. Column j is the j-th play type, holding the number of the season's group rows of that type (0 when none). The total is the number of the season's group rows. |
| FourthDown.DecisionCounts | src/analysis/fourth_down_analysis.py:5-6 | In the corrected table each cell counts the fourth-down plays of its season and play type. Each total counts the season's plays. |
| FourthDown.DecisionsCountPlays | src/analysis/fourth_down_analysis.py:4-6 | Counting within the fourth-down plays: each cell is the number of input plays on fourth down of its season and play type, and each total the number of the season's fourth-down plays. |
| FourthDown.DecisionsAsWritten | src/analysis/fourth_down_analysis.py:6 | The total as written is the season number plus the season's play count. |
| FourthDown.TotalIncludesSeason | src/analysis/fourth_down_analysis.py:5-6 | A single fourth-down play in season s gets total s + 1 as written, and 1 once corrected. |
| FourthDown.SuccessCell | src/analysis/fourth_down_analysis.py:7 | An absent (season, type) combination is filled with 0. A present group whose successes are all null is NaN. Otherwise the cell is the mean of the group's non-null successes. |
| FourthDown.SuccessRates | src/analysis/fourth_down_analysis.py:7 | The same seasons as the count table, no season twice. Column j is the j-th play type, holding the success cell of that season and type (see FourthDown.SuccessCell). |
| FourthDown.SuccessCellBounds | src/analysis/fourth_down_analysis.py:7 | When every success is null or in [0, 1], so is every cell. |
| FourthDown.LabelsCollide | src/analysis/fourth_down_analysis.py:8-9 | Two columns get the same label exactly when their names differ only in letter case. |
| FourthDown.AnalyzeFourthDownDecisions | src/analysis/fourth_down_analysis.py:3-10 | Both tables have the same seasons in the same order, no season twice, and the same play-type columns in the same order, no type twice. The count table has one more column, its total. Each count cell is the number of input plays on fourth down of its season and play type; each total is the number of the season's fourth-down plays. Each success cell is the success cell of the fourth-down plays of its row's season and its column's play type. |
| FourthDown.TablesAgree | src/analysis/fourth_down_analysis.py:5-7 | The success table has the count table's seasons and play-type columns, position by position, and no play type is a column twice. |
| FourthDown.PairOfPlay | src/analysis/fourth_down_analysis.py:5 | Every play with a season and a play type is one of the grouped (season, type) rows. |
| FourthDown.DecisionsCover | src/analysis/fourth_down_analysis.py:4-5 | Every fourth-down play with a season and a play type has its season's row in the report and, in it, its play type's column. |
| FourthDown.ReportLabels | src/analysis/fourth_down_analysis.py:8-9 | Both header rows start with "Season". Every play-type column is labelled `Capitalized (%)`, and the count table's last column is "Total (%)". |
| FourthDown.OtherDownsIgnored | src/analysis/fourth_down_analysis.py:4 | Adding a play that is not on fourth down changes neither table. |
| WrProjection.Join | src/analysis/wr_projection.py:11 | Every joined pair takes its left row from the projections and its right row from the actuals, and the two have matching player id and season. |
| WrProjection.JoinCopies | src/analysis/wr_projection.py:11 | A pair (a, b) with matching keys occurs in the join as many times as a occurs on the left times b on the right. A pair without matching keys never occurs. |
| WrProjection.JoinComplete | src/analysis/wr_projection.py:11 | Every pair of rows with matching keys appears in the join. |
| WrProjection.PairWithCopies | src/analysis/wr_projection.py:11 | One left row paired with its matches holds each pair as often as the match occurs on the right. |
| WrProjection.EvaluatedIffShared | src/analysis/wr_projection.py:11-24 | When no input column already carries a suffix, a metric is evaluated exactly when both frames have that column. |
| WrProjection.MeanAbsoluteError | src/analysis/wr_projection.py:26 | The MAE is non-negative, is 0 exactly when predictions equal actuals, and times n is the sum of absolute errors. |
| WrProjection.MeanSquaredError | src/analysis/wr_projection.py:27 | The MSE is non-negative, is 0 exactly when predictions equal actuals, and times n is the sum of squared errors. |
| WrProjection.MaeBound | src/analysis/wr_projection.py:26 | When every absolute error is at most b, so is the MAE. |
| WrProjection.ErrorsSymmetric | src/analysis/wr_projection.py:26-27 | Swapping actuals and predictions changes neither error. |
| WrProjection.ScoreOutcome | src/analysis/wr_projection.py:26-28 | Scoring fails with no samples exactly when the join is empty. It fails on a null exactly when there are samples and some value is null. Otherwise it gives the MAE and MSE of the two columns. |
| WrProjection.EvaluateMetricsOutcome | src/analysis/wr_projection.py:19-30 | Succeeds exactly when every evaluated metric scores, and each result is that metric's score. A failure names a metric that failed. |
| WrProjection.EvaluatedKeys | src/analysis/wr_projection.py:19-28 | The result keys are exactly the evaluated metrics, in list order. |
| WrProjection.EvaluateWrProjections | src/analysis/wr_projection.py:5-30 | Succeeds exactly when every listed metric whose `_proj` and `_actual` columns both exist after the merge can be scored over the joined rows. Its keys are exactly those metrics, in list order, and each value is that metric's MAE and MSE over the joined rows. A failure is the scoring error of one listed metric. When no input column already carries a suffix, "both columns exist" means the metric is present in both inputs. |
| AcquisitionValue.MergeRowContracts | src/features/acquisition_value.py:22 | A seasonal row becomes one row per contract of the same player signed that season, row j carrying contract j's year signed and value, or one row with null contract columns when there is none. |
| AcquisitionValue.Contracts | src/features/acquisition_value.py:22 | The contracts a seasonal row matches are those of the same player signed in that season, in contract order, each once. |
| AcquisitionValue.LeftMerge | src/features/acquisition_value.py:22 | At least one row per seasonal row. Each merged row carries a contract of the same player signed that season, or null contract columns when its seasonal row has no such contract; value_per_dollar is not yet set. |
| AcquisitionValue.LeftMergeMultiplicity | src/features/acquisition_value.py:22 | Each seasonal row appears in the merge once per matching contract, and once when it has none, times the number of times it is in the input. |
| AcquisitionValue.LeftMergeKeepsRows | src/features/acquisition_value.py:22 | The left merge drops no seasonal row. |
| AcquisitionValue.LeftMergeRowsFromSeasons | src/features/acquisition_value.py:22 | Conversely, every row of the left merge carries one of the seasonal rows. |
| AcquisitionValue.MergeWithoutContracts | src/features/acquisition_value.py:22 | Without contracts, every seasonal row stays a single row with null contract columns. |
| AcquisitionValue.WithValuePerDollar | src/features/acquisition_value.py:23 | value_per_dollar is defined exactly when approximate value and a non-zero contract value are present, and then times value it gives approximate value. |
| AcquisitionValue.AnalyzeAcquisitionValue | src/features/acquisition_value.py:4-31 | An argument that is neither a list nor a range is an error. Missing salary data or missing salary columns return the two downloads unchanged. A split separates drafted from undrafted seasons: every seasonal row is the row of some element of the split, and every element carries a seasonal row. |
| AcquisitionValue.SalaryStepKeepsSeasons | src/features/acquisition_value.py:22-31 | After the merge, the merged seasons returned on failure are at least as many as the seasonal rows. A split holds every seasonal row and only seasonal rows. |
| AcquisitionValue.SplitCoversSeasons | src/features/acquisition_value.py:22-29 | After the merge and the split, every seasonal row is the row of some drafted or undrafted element, and every element carries a seasonal row. |
| AcquisitionValue.SalaryStep | src/features/acquisition_value.py:11-31 | Covers the early returns and the exception after the merge, which returns the merged seasons. A missing draft_number column is an error. Otherwise the result is the split of the merged seasons with value_per_dollar. |
| AcquisitionValue.SplitByDraft | src/features/acquisition_value.py:28-29 | The drafted and undrafted rows partition the input: together they are a permutation of it, each is in input order, and the draft number decides which side each row is on. |

## Left out

- The colour masks, skeletonisation, `cv2` reading and writing, and the field cleaner are oracles. The model starts from the pixel traces of a chart, and a cleaned image is an opaque value.
- `cdist` and `linear_sum_assignment` are oracles: a distance function and a matcher. The cost of a placement, the scan order, the strict-minimum rule, the threshold 20 and the masking are modelled.
- The touchdown marker points (`td_points`) are never defined in next_gen_data.py, so the marker template is a parameter of the removal.
- Floating point: coordinates and statistics are exact reals. Rounding and `float()` casts are not modelled.
- NaN and infinity are `None` wherever the source would produce them: an empty mean, or a division by zero or by a null. pandas gives ±inf for a non-zero value divided by zero; the model does not tell that apart from NaN.
- FieldGeometry.ToField: a chart exactly 80 px wide makes the x-scale `_1_yd_x` 0.0 (next_gen_data.py lines 160 and 166). numpy then gives infinite or NaN x coordinates at line 173, and nothing raises. Here such a chart is an error (`DegenerateScale`), and the transform requires a non-zero scale.
- WrProjection.MeanSquaredError: RMSE is the square root of the MSE. Square roots of reals are not modelled, so the model reports the MSE; the RMSE is 0 exactly when the MSE is.
- WrProjection.ScoreOutcome: scikit-learn raises on empty or NaN input. That is modelled as an error result, and the whole evaluation fails with it, as the raise would.
- WrProjection.MergedValue: the model reads a merged column from the projections frame first. Column names that collide after suffixing are not modelled.
- The HTTP requests and HTML parsing are left out. A page is the list of its tables (header texts and body cell texts), or `None` when the request raised.
- `astype(float, errors='ignore')` is left out. Cleaned money cells stay text.
- Contracts.ScrapeTable: a table whose headers repeat a name is an error (`DuplicateHeaders`). pandas accepts repeated labels and the money clean-up runs without raising, so this error is the model's own: its frames look a column up by name and need distinct names.
- `time.sleep(1)` and the printed diagnostics are left out.
- The file-system effects of cleaning are the set of existing files. Only the written cleaned image is tracked; the temporary crop file is created and removed within the call.
- pandas sort orders are left out: group keys and unstacked columns are taken in order of first appearance rather than sorted, and so is `sort_values('name')`.
- The `get_seasonal_data`, `get_combined_data` and `get_wr_data` merges with `import_ids` are not modelled. Rows carry the columns the helpers read.
- The duplicate `get_salary_cap_data` in nfl_data.py (lines 63-87) is the same code as contracts.py lines 58-82 and is modelled once, as Contracts.GetSalaryCapData.
- The thin `import_*` wrappers of nfl_data.py (lines 48-61), the module-level example calls, `load_next_gen_data` and the web app are left out: they only fetch or print.
- AcquisitionValue.AnalyzeAcquisitionValue: the draft picks are an opaque value. A seasonal column named `value` stands for the merge suffixing the contract value away.
- Text.Title: case mapping covers ASCII letters only. Python's `str.title()` and `str.capitalize()` also change the case of other Unicode letters, so for example "ñuñez" titles to "Ñuñez" in Python but not here.
- TouchdownSearch.RemoveTouchdowns: an empty cloud with touchdowns pending is an error (`EmptyCloud`), where numpy would fail on the empty minimum.
- NextGenData.ProcessChart: an unreadable raw image (`cv2.imread` returning None) is an error that ends the run.
- NextGenData.MapRouteLocations: uses the corrected removal, TouchdownSearch.RemoveTouchdowns. On the stale-rows input of the Findings table the source loses point B and the model keeps it; the loop as written is TouchdownSearch.RemoveTouchdownsAsWritten.
- FourthDown.AnalyzeFourthDownDecisions: reports the corrected total, the number of the season's fourth-down plays. The source's total also adds the season number, as FourthDown.DecisionsAsWritten states.
- TouchdownSearch.RemoveTouchdowns: which rows a pass deletes is decided by the matcher oracle, so the contract states the order and that points are only deleted, not which points go.
- TouchdownSearch.RemoveTouchdownsAsWritten: as for the corrected loop, which rows go is the matcher's decision and is not stated.
- NextGenData.ChartBlocks: a block's rows are stated only to belong to their chart; which rows they are is stated per chart by NextGenData.ProcessChart.

## Findings

| source | as written | input that shows it | evidently intended | confidence | as-written member | corrected member |
|---|---|---|---|---|---|---|
| src/features/next_gen_data.py:196-206 | `td_row` survives from an earlier pass, so a pass that finds no placement does not reach the `break`. It deletes the rows matched by the earlier pass again, from the already shortened cloud. | Two COMPLETE points A, B; two touchdowns; the marker fits A only. Pass 1 deletes A; pass 2 finds nothing but deletes row 0 again, losing B. | A pass that finds no placement stops the removal. | not executed | TouchdownSearch.RemoveTouchdownsAsWritten, TouchdownSearch.StaleRowsCounterexample | TouchdownSearch.RemoveTouchdowns, TouchdownSearch.FailedPassKeepsCloud |
| src/analysis/fourth_down_analysis.py:5-6 | `decisions.sum(axis=1)` runs after `reset_index()`, so the season column is part of the row sum. | One fourth-down play in season 2023: total 2024 instead of 1. | The total is the number of fourth-down plays of the season. | not executed | FourthDown.DecisionsAsWritten, FourthDown.TotalIncludesSeason | FourthDown.Decisions, FourthDown.DecisionCounts |

=== FILE: acquisition_value.dfy ===
/** Acquisition value: seasonal player data joined with the contracts
    signed in the same season, the value obtained per contract dollar, and
    the split of the seasons into drafted and undrafted players. The
    dataset downloads are inputs here; a failed contracts download is an
    absent contracts frame. */
module AcquisitionValue {
  import opened Common

  /** The `years` argument: only a list or a range is accepted. */
  datatype YearsArg = YearList(years: seq<int>) | YearRange(start: int, stop: int) | OtherYears

  /** The seasonal columns read here; `None` is a null. */
  datatype SeasonRow = SeasonRow(
    player: Option<string>,
    season: Option<int>,
    approximateValue: Option<real>,
    draftNumber: Option<real>)

  /** The contract columns kept for the merge. */
  datatype SalaryRow = SalaryRow(player: Option<string>, yearSigned: Option<int>, value: Option<real>)

  /** A frame: the names of its columns and its rows. */
  datatype Frame<R> = Frame(columns: set<string>, rows: seq<R>)

  /** A seasonal row after the left merge, with the contract columns (null
      when no contract matched) and `value_per_dollar`. */
  datatype MergedRow = MergedRow(row: SeasonRow, yearSigned: Option<int>, value: Option<real>, valuePerDollar: Option<real>)

  datatype AcquisitionError =
    | YearsNotListOrRange   // the `ValueError` of the input guard
    | NoDraftNumber         // `draft_number` missing after the merge

  /** What the analysis returns: the two downloads untouched when the salary
      step is skipped or fails before the merge; the draft data and the
      merged seasons when it fails after the merge; otherwise the drafted
      and undrafted seasons. */
  datatype Acquisition<D> =
    | SalarySkipped(draft: D, seasonal: Frame<SeasonRow>)
    | SalaryFailedAfterMerge(draft: D, merged: seq<MergedRow>)
    | Split(drafted: seq<MergedRow>, undrafted: seq<MergedRow>)

  /** The contract columns the merge needs. */
  predicate HasSalaryColumns(cols: set<string>)
  {
    "year_signed" in cols && "player" in cols && "value" in cols
  }

  /** The contracts a seasonal row matches: same player, signed in that
      season. pandas matches null keys with each other, as `==` on
      `Option` does. */
  predicate Signed(l: SeasonRow, s: SalaryRow)
  {
    s.player == l.player && s.yearSigned == l.season
  }

  function SignedBy(l: SeasonRow): SalaryRow -> bool
  {
    (s: SalaryRow) => Signed(l, s)
  }

  /** The contracts a seasonal row matches, in contract order, each once. */
  function Contracts(l: SeasonRow, salary: seq<SalaryRow>): (ms: seq<SalaryRow>)
    ensures forall s :: s in ms ==> s in salary && Signed(l, s)
    ensures forall k :: 0 <= k < |salary| && Signed(l, salary[k]) ==> salary[k] in ms
    ensures IsSubsequence(ms, salary)
    ensures |ms| == Count(salary, SignedBy(l))
  {
    Filter(salary, SignedBy(l))
  }

  /** The rows a seasonal row becomes in the left merge: one per matching
      contract, or one with null contract columns when none matches. */
  function MergeRow(l: SeasonRow, salary: seq<SalaryRow>): (out: seq<MergedRow>)
    ensures |out| >= 1
    ensures forall j :: 0 <= j < |out| ==> out[j].row == l && out[j].valuePerDollar.None?
  {
    var ms := Contracts(l, salary);
    if |ms| == 0 then [MergedRow(l, None, None, None)]
    else seq(|ms|, j requires 0 <= j < |ms| => MergedRow(l, ms[j].yearSigned, ms[j].value, None))
  }

  /** The rows of a seasonal row after the merge: one per contract signed by
      that player in that season, carrying its columns, or a single row with
      null contract columns when there is none. */
  lemma MergeRowContracts(l: SeasonRow, salary: seq<SalaryRow>)
    ensures |Contracts(l, salary)| == 0 ==> MergeRow(l, salary) == [MergedRow(l, None, None, None)]
    ensures |Contracts(l, salary)| > 0 ==> |MergeRow(l, salary)| == |Contracts(l, salary)|
    ensures |Contracts(l, salary)| > 0 ==> forall j :: 0 <= j < |MergeRow(l, salary)| ==>
      exists s :: s in salary && Signed(l, s)
        && MergeRow(l, salary)[j].yearSigned == s.yearSigned && MergeRow(l, salary)[j].value == s.value
    ensures |Contracts(l, salary)| > 0 ==> forall j :: 0 <= j < |MergeRow(l, salary)| ==>
      MergeRow(l, salary)[j] == MergedRow(l, Contracts(l, salary)[j].yearSigned, Contracts(l, salary)[j].value, None)
  {
    var ms := Contracts(l, salary);
    var out := MergeRow(l, salary);
    if |ms| > 0 {
      forall j | 0 <= j < |out|
        ensures exists s :: s in salary && Signed(l, s) && out[j].yearSigned == s.yearSigned && out[j].value == s.value
      {
        assert ms[j] in ms;
      }
    }
  }

  /** `pd.merge(seasonal, salary, ..., how='left')`: every seasonal row, in
      order, each followed by its contracts. */
  function LeftMerge(seasonal: seq<SeasonRow>, salary: seq<SalaryRow>): (m: seq<MergedRow>)
    ensures |m| >= |seasonal|
    ensures forall j :: 0 <= j < |m| ==> MergedFrom(m[j], salary)
  {
    if |seasonal| == 0 then []
    else
      var head := MergeRow(seasonal[0], salary);
      var rest := LeftMerge(seasonal[1..], salary);
      MergeRowSources(seasonal[0], salary);
      head + rest
  }

  /** A merged row carries one of its seasonal row's contracts, or null
      contract columns when that row has none; `value_per_dollar` is not
      yet computed. */
  predicate MergedFrom(r: MergedRow, salary: seq<SalaryRow>)
  {
    && r.valuePerDollar.None?
    && (|| (SalaryRow(r.row.player, r.yearSigned, r.value) in salary && r.yearSigned == r.row.season)
        || (Count(salary, SignedBy(r.row)) == 0 && r.yearSigned.None? && r.value.None?))
  }

  lemma MergeRowSources(l: SeasonRow, salary: seq<SalaryRow>)
    ensures forall j :: 0 <= j < |MergeRow(l, salary)| ==> MergedFrom(MergeRow(l, salary)[j], salary)
  {
    var ms := Contracts(l, salary);
    var out := MergeRow(l, salary);
    MergeRowContracts(l, salary);
    forall j | 0 <= j < |out|
      ensures MergedFrom(out[j], salary)
    {
      if |ms| > 0 {
        assert ms[j] in ms;
        assert SalaryRow(l.player, out[j].yearSigned, out[j].value) == ms[j];
      } else {
        assert Count(salary, SignedBy(l)) == 0;
      }
    }
  }

  /** The seasonal row of every merged row. */
  function MergedSeasons(m: seq<MergedRow>): (rows: seq<SeasonRow>)
    ensures |rows| == |m|
    ensures forall j :: 0 <= j < |m| ==> rows[j] == m[j].row
  {
    seq(|m|, j requires 0 <= j < |m| => m[j].row)
  }

  /** How many rows a seasonal row becomes: one per matching contract, at
      least one. */
  function Copies(l: SeasonRow, salary: seq<SalaryRow>): nat
  {
    if |Contracts(l, salary)| == 0 then 1 else |Contracts(l, salary)|
  }

  /** The left merge repeats each seasonal row once per matching contract,
      and keeps a row without a contract once. */
  lemma {:induction false} LeftMergeMultiplicity(seasonal: seq<SeasonRow>, salary: seq<SalaryRow>, l: SeasonRow)
    ensures multiset(MergedSeasons(LeftMerge(seasonal, salary)))[l] == multiset(seasonal)[l] * Copies(l, salary)
  {
    if |seasonal| > 0 {
      var b := if seasonal[0] == l then 1 else 0;
      LeftMergeMultiplicity(seasonal[1..], salary, l);
      MergeRowCopies(seasonal[0], salary, l);
      LeftMergeSplit(seasonal, salary, l);
      MultisetCons(seasonal, l);
      AddCopies(b, multiset(seasonal[1..])[l], Copies(l, salary));
    }
  }

  lemma LeftMergeSplit(seasonal: seq<SeasonRow>, salary: seq<SalaryRow>, l: SeasonRow)
    requires |seasonal| > 0
    ensures multiset(MergedSeasons(LeftMerge(seasonal, salary)))[l]
      == multiset(MergedSeasons(MergeRow(seasonal[0], salary)))[l] + multiset(MergedSeasons(LeftMerge(seasonal[1..], salary)))[l]
  {
    var head := MergeRow(seasonal[0], salary);
    var rest := LeftMerge(seasonal[1..], salary);
    assert LeftMerge(seasonal, salary) == head + rest;
    MergedSeasonsAppend(head, rest);
  }

  lemma MultisetCons<T>(s: seq<T>, x: T)
    requires |s| > 0
    ensures multiset(s)[x] == (if s[0] == x then 1 else 0) + multiset(s[1..])[x]
  {
    assert s == [s[0]] + s[1..];
  }

  lemma AddCopies(b: nat, n: nat, c: nat)
    ensures b * c + n * c == (b + n) * c
  {
  }

  lemma MergedSeasonsAppend(a: seq<MergedRow>, b: seq<MergedRow>)
    ensures MergedSeasons(a + b) == MergedSeasons(a) + MergedSeasons(b)
  {
    assert forall j :: 0 <= j < |a| + |b| ==> (a + b)[j].row == (MergedSeasons(a) + MergedSeasons(b))[j];
  }

  lemma MergeRowCopies(l0: SeasonRow, salary: seq<SalaryRow>, l: SeasonRow)
    ensures multiset(MergedSeasons(MergeRow(l0, salary)))[l] == if l == l0 then Copies(l0, salary) else 0
  {
    var rows := MergedSeasons(MergeRow(l0, salary));
    MergeRowContracts(l0, salary);
    assert |rows| == Copies(l0, salary);
    ConstantMultiset(rows, l0, l);
  }

  lemma {:induction false} ConstantMultiset<T>(s: seq<T>, x: T, y: T)
    requires forall j :: 0 <= j < |s| ==> s[j] == x
    ensures multiset(s)[y] == if y == x then |s| else 0
  {
    if |s| > 0 {
      ConstantMultiset(s[1..], x, y);
      assert s == [s[0]] + s[1..];
    }
  }

  /** Every merged row comes from a seasonal row. */
  lemma {:induction false} LeftMergeRowsFromSeasons(seasonal: seq<SeasonRow>, salary: seq<SalaryRow>, j: int)
    requires 0 <= j < |LeftMerge(seasonal, salary)|
    ensures LeftMerge(seasonal, salary)[j].row in seasonal
  {
    var head := MergeRow(seasonal[0], salary);
    var rest := LeftMerge(seasonal[1..], salary);
    assert LeftMerge(seasonal, salary) == head + rest;
    if j < |head| {
      assert LeftMerge(seasonal, salary)[j] == head[j];
    } else {
      assert rest[j - |head|].row in seasonal[1..] by {
        LeftMergeRowsFromSeasons(seasonal[1..], salary, j - |head|);
      }
      assert LeftMerge(seasonal, salary)[j] == rest[j - |head|];
    }
  }

  /** The left merge drops no seasonal row. */
  lemma {:induction false} LeftMergeKeepsRows(seasonal: seq<SeasonRow>, salary: seq<SalaryRow>, k: int)
    requires 0 <= k < |seasonal|
    ensures exists j :: 0 <= j < |LeftMerge(seasonal, salary)| && LeftMerge(seasonal, salary)[j].row == seasonal[k]
  {
    var j := KeptAt(seasonal, salary, k);
  }

  lemma {:induction false} KeptAt(seasonal: seq<SeasonRow>, salary: seq<SalaryRow>, k: int) returns (j: int)
    requires 0 <= k < |seasonal|
    ensures 0 <= j < |LeftMerge(seasonal, salary)| && LeftMerge(seasonal, salary)[j].row == seasonal[k]
  {
    var head := MergeRow(seasonal[0], salary);
    var rest := LeftMerge(seasonal[1..], salary);
    assert LeftMerge(seasonal, salary) == head + rest;
    if k == 0 {
      j := 0;
    } else {
      var i := KeptAt(seasonal[1..], salary, k - 1);
      j := |head| + i;
      assert (head + rest)[j] == rest[i];
    }
  }

  /** Without contracts every seasonal row stays a single row with null
      contract columns. */
  lemma {:induction false} MergeWithoutContracts(seasonal: seq<SeasonRow>)
    ensures |LeftMerge(seasonal, [])| == |seasonal|
    ensures forall k :: 0 <= k < |seasonal| ==> LeftMerge(seasonal, [])[k] == MergedRow(seasonal[k], None, None, None)
  {
    if |seasonal| > 0 {
      MergeWithoutContracts(seasonal[1..]);
      assert |Contracts(seasonal[0], [])| == 0;
      assert forall k :: 1 <= k < |seasonal| ==> seasonal[k] == seasonal[1..][k - 1];
    }
  }

  /** `value_per_dollar = approximate_value / value` on every merged row. */
  function WithValuePerDollar(m: seq<MergedRow>): (r: seq<MergedRow>)
    ensures |r| == |m|
    ensures forall k :: 0 <= k < |m| ==>
      r[k].row == m[k].row && r[k].yearSigned == m[k].yearSigned && r[k].value == m[k].value
    ensures forall k :: 0 <= k < |m| ==>
      (r[k].valuePerDollar.Some? <==> m[k].row.approximateValue.Some? && m[k].value.Some? && m[k].value.value != 0.0)
    ensures forall k :: 0 <= k < |m| && r[k].valuePerDollar.Some? ==>
      r[k].valuePerDollar.value * m[k].value.value == m[k].row.approximateValue.value
  {
    seq(|m|, k requires 0 <= k < |m| => m[k].(valuePerDollar := Divide(m[k].row.approximateValue, m[k].value)))
  }

  predicate Drafted(r: MergedRow)
  {
    r.row.draftNumber.Some?
  }

  /** `analyze_acquisition_value`. */
  function AnalyzeAcquisitionValue<D>(years: YearsArg, draft: D, seasonal: Frame<SeasonRow>, salary: Option<Frame<SalaryRow>>):
    (r: Result<Acquisition<D>, AcquisitionError>)
    ensures r == Err(YearsNotListOrRange) <==> years.OtherYears?
    ensures !years.OtherYears? && (salary.None? || !HasSalaryColumns(salary.value.columns)) ==>
      r == Ok(SalarySkipped(draft, seasonal))
    ensures r.Ok? && r.value.SalaryFailedAfterMerge? ==>
      r.value.draft == draft && |r.value.merged| >= |seasonal.rows|
      && ("approximate_value" !in seasonal.columns || "value" in seasonal.columns)
    ensures r.Ok? && r.value.Split? ==>
      && (forall x :: x in r.value.drafted ==> Drafted(x))
      && (forall x :: x in r.value.undrafted ==> !Drafted(x))
      && |r.value.drafted| + |r.value.undrafted| >= |seasonal.rows|
    ensures r.Ok? && r.value.Split? ==>
      && (forall k :: 0 <= k < |seasonal.rows| ==>
            exists x :: (x in r.value.drafted || x in r.value.undrafted) && x.row == seasonal.rows[k])
      && (forall x :: x in r.value.drafted || x in r.value.undrafted ==> x.row in seasonal.rows)
  {
    if years.OtherYears? then Err(YearsNotListOrRange)
    else
      SalaryStepKeepsSeasons(draft, seasonal, salary);
      SalaryStep(draft, seasonal, salary)
  }

  /** Whatever the salary step returns after the merge still holds every
      seasonal row, and nothing else. */
  lemma SalaryStepKeepsSeasons<D>(draft: D, seasonal: Frame<SeasonRow>, salary: Option<Frame<SalaryRow>>)
    ensures var r := SalaryStep(draft, seasonal, salary);
      && (r.Ok? && r.value.SalaryFailedAfterMerge? ==> |r.value.merged| >= |seasonal.rows|)
      && (r.Ok? && r.value.Split? ==>
            && |r.value.drafted| + |r.value.undrafted| >= |seasonal.rows|
            && (forall k :: 0 <= k < |seasonal.rows| ==>
                  exists x :: (x in r.value.drafted || x in r.value.undrafted) && x.row == seasonal.rows[k])
            && (forall x :: x in r.value.drafted || x in r.value.undrafted ==> x.row in seasonal.rows))
  {
    if salary.Some? {
      SplitCoversSeasons<D>(seasonal.rows, salary.value.rows);
    }
  }

  /** After the merge and the split, every seasonal row is the row of some
      drafted or undrafted element, and every element carries a seasonal
      row. */
  lemma SplitCoversSeasons<D>(rows: seq<SeasonRow>, salary: seq<SalaryRow>)
    ensures var a := SplitByDraft<D>(WithValuePerDollar(LeftMerge(rows, salary)));
      && (forall k :: 0 <= k < |rows| ==> exists x :: (x in a.drafted || x in a.undrafted) && x.row == rows[k])
      && (forall x :: x in a.drafted || x in a.undrafted ==> x.row in rows)
  {
    var m := LeftMerge(rows, salary);
    var v := WithValuePerDollar(m);
    var a := SplitByDraft<D>(v);
    forall k | 0 <= k < |rows|
      ensures exists x :: (x in a.drafted || x in a.undrafted) && x.row == rows[k]
    {
      LeftMergeKeepsRows(rows, salary, k);
      var j :| 0 <= j < |m| && m[j].row == rows[k];
      assert v[j] in multiset(a.drafted) + multiset(a.undrafted);
      assert v[j].row == rows[k];
    }
    forall x | x in a.drafted || x in a.undrafted
      ensures x.row in rows
    {
      var j :| 0 <= j < |v| && v[j] == x;
      LeftMergeRowsFromSeasons(rows, salary, j);
    }
  }

  /** The body after the input guard: the salary step, then the split. */
  function SalaryStep<D>(draft: D, seasonal: Frame<SeasonRow>, salary: Option<Frame<SalaryRow>>):
    (r: Result<Acquisition<D>, AcquisitionError>)
    ensures r != Err(YearsNotListOrRange)
    ensures salary.None? || !HasSalaryColumns(salary.value.columns) ==> r == Ok(SalarySkipped(draft, seasonal))
    ensures salary.Some? && HasSalaryColumns(salary.value.columns) && !("player" in seasonal.columns && "season" in seasonal.columns) ==>
      r == Ok(SalarySkipped(draft, seasonal))
    ensures r.Ok? && r.value.SalaryFailedAfterMerge? ==>
      r.value.draft == draft && salary.Some?
      && r.value.merged == LeftMerge(seasonal.rows, salary.value.rows)
      && ("approximate_value" !in seasonal.columns || "value" in seasonal.columns)
    ensures r == Err(NoDraftNumber) <==>
      && salary.Some? && HasSalaryColumns(salary.value.columns)
      && "player" in seasonal.columns && "season" in seasonal.columns
      && "approximate_value" in seasonal.columns && "value" !in seasonal.columns
      && "draft_number" !in seasonal.columns
    ensures r.Ok? && r.value.Split? ==>
      salary.Some? && r.value == SplitByDraft(WithValuePerDollar(LeftMerge(seasonal.rows, salary.value.rows)))
  {
    match salary
    case None => Ok(SalarySkipped(draft, seasonal))   // the download raised
    case Some(contracts) =>
      if !HasSalaryColumns(contracts.columns) then Ok(SalarySkipped(draft, seasonal))
      // a merge key missing from the seasonal data raises inside the try
      else if !("player" in seasonal.columns && "season" in seasonal.columns) then Ok(SalarySkipped(draft, seasonal))
      else
        var merged := LeftMerge(seasonal.rows, contracts.rows);
        // `approximate_value` missing, or `value` suffixed away by a
        // seasonal column of the same name, raises after the merge
        if "approximate_value" !in seasonal.columns || "value" in seasonal.columns then
          Ok(SalaryFailedAfterMerge(draft, merged))
        else if "draft_number" !in seasonal.columns then Err(NoDraftNumber)
        else Ok(SplitByDraft(WithValuePerDollar(merged)))
  }

  /** Lines 28-29: the rows with a draft number, and the rest. */
  function SplitByDraft<D>(rows: seq<MergedRow>): (a: Acquisition<D>)
    ensures a.Split?
    ensures forall x :: x in a.drafted ==> x in rows && Drafted(x)
    ensures forall x :: x in a.undrafted ==> x in rows && !Drafted(x)
    ensures IsSubsequence(a.drafted, rows) && IsSubsequence(a.undrafted, rows)
    ensures |a.drafted| + |a.undrafted| == |rows|
    ensures multiset(a.drafted) + multiset(a.undrafted) == multiset(rows)
  {
    FilterPartition(rows, Drafted);
    var undrafted := Filter(rows, Not(Drafted));
    assert forall x :: x in undrafted ==> !Drafted(x);
    Split(Filter(rows, Drafted), undrafted)
  }
}

=== FILE: common.dfy ===
/** Shared vocabulary of the model: optional values and results, and the
    sequence helpers (counts, order-preserving filters, sums and means) that
    every pandas-style row filter and aggregate is built from. A missing or
    non-finite pandas value (NaN, an infinity from a division by zero) is
    modelled as `None`. */
module Common {

  datatype Option<+T> = None | Some(value: T)

  datatype Result<+T, +E> = Ok(value: T) | Err(error: E)

  /** Negation of a row predicate, as a named function so that two uses of
      it with the same predicate are the same value. */
  function Not<T>(p: T -> bool): T -> bool
  {
    x => !p(x)
  }

  /** Conjunction of two row predicates. */
  function And<T>(p: T -> bool, q: T -> bool): T -> bool
  {
    x => p(x) && q(x)
  }

  /** Number of elements of `s` that satisfy `p`. */
  function Count<T>(s: seq<T>, p: T -> bool): (n: nat)
    ensures n <= |s|
  {
    if |s| == 0 then 0 else (if p(s[0]) then 1 else 0) + Count(s[1..], p)
  }

  /** `sub` is `s` with some elements deleted and the rest kept in order. */
  ghost predicate IsSubsequence<T>(sub: seq<T>, s: seq<T>)
  {
    if |sub| == 0 then true
    else if |s| == 0 then false
    else if sub[0] == s[0] then IsSubsequence(sub[1..], s[1..])
    else IsSubsequence(sub, s[1..])
  }

  /** A boolean-mask row selection: the rows of `s` satisfying `p`, in order. */
  function Filter<T>(s: seq<T>, p: T -> bool): (r: seq<T>)
    ensures |r| == Count(s, p)
    ensures forall x :: x in r ==> x in s && p(x)
    ensures forall k :: 0 <= k < |s| && p(s[k]) ==> s[k] in r
    ensures IsSubsequence(r, s)
  {
    if |s| == 0 then []
    else if p(s[0]) then
      var rest := Filter(s[1..], p);
      assert ([s[0]] + rest)[1..] == rest;
      [s[0]] + rest
    else Filter(s[1..], p)
  }

  /** A subsequence whose elements all satisfy `p` has at most `Count(s, p)`
      elements. */
  lemma {:induction false} SubsequenceCountBound<T>(r: seq<T>, s: seq<T>, p: T -> bool)
    requires IsSubsequence(r, s)
    requires forall x :: x in r ==> p(x)
    ensures |r| <= Count(s, p)
  {
    if |r| == 0 {
    } else if |s| == 0 {
    } else if r[0] == s[0] {
      assert forall x :: x in r[1..] ==> x in r;
      SubsequenceCountBound(r[1..], s[1..], p);
      assert r[0] in r;
    } else {
      SubsequenceCountBound(r, s[1..], p);
    }
  }

  /** Putting an element in front keeps a subsequence a subsequence. */
  lemma {:induction false} SubsequenceCons<T>(sub: seq<T>, x: T, t: seq<T>)
    requires IsSubsequence(sub, t)
    ensures IsSubsequence(sub, [x] + t)
    decreases |t|, 1
  {
    assert ([x] + t)[1..] == t;
    if |sub| > 0 && sub[0] == x {
      SubsequenceDropHead(sub, t);
    }
  }

  /** Dropping the first element keeps a subsequence a subsequence. */
  lemma {:induction false} SubsequenceDropHead<T>(sub: seq<T>, t: seq<T>)
    requires |sub| > 0 && IsSubsequence(sub, t)
    ensures IsSubsequence(sub[1..], t)
    decreases |t|, 0
  {
    assert t == [t[0]] + t[1..];
    if sub[0] == t[0] {
      SubsequenceCons(sub[1..], t[0], t[1..]);
    } else {
      SubsequenceDropHead(sub, t[1..]);
      SubsequenceCons(sub[1..], t[0], t[1..]);
    }
  }

  /** Every sequence is a subsequence of itself. */
  lemma {:induction false} SubsequenceRefl<T>(s: seq<T>)
    ensures IsSubsequence(s, s)
  {
    if |s| > 0 {
      SubsequenceRefl(s[1..]);
    }
  }

  /** Keeping elements in order twice keeps them in order. */
  lemma {:induction false} SubsequenceTrans<T>(a: seq<T>, b: seq<T>, c: seq<T>)
    requires IsSubsequence(a, b) && IsSubsequence(b, c)
    ensures IsSubsequence(a, c)
    decreases |c|
  {
    if |a| == 0 {
    } else if b[0] == c[0] && a[0] == b[0] {
      SubsequenceTrans(a[1..], b[1..], c[1..]);
    } else {
      if b[0] == c[0] {
        SubsequenceTrans(a, b[1..], c[1..]);
      } else {
        SubsequenceTrans(a, b, c[1..]);
      }
      SubsequenceCons(a, c[0], c[1..]);
      assert c == [c[0]] + c[1..];
    }
  }

  /** Appending an element to the longer sequence keeps a subsequence. */
  lemma {:induction false} SubsequenceAppendRight<T>(a: seq<T>, b: seq<T>, x: T)
    requires IsSubsequence(a, b)
    ensures IsSubsequence(a, b + [x])
  {
    if |a| > 0 {
      assert (b + [x])[1..] == b[1..] + [x];
      if a[0] == b[0] {
        SubsequenceAppendRight(a[1..], b[1..], x);
      } else {
        SubsequenceAppendRight(a, b[1..], x);
      }
    }
  }

  /** Appending the same element to both sides keeps a subsequence. */
  lemma {:induction false} SubsequenceSnoc<T>(a: seq<T>, b: seq<T>, x: T)
    requires IsSubsequence(a, b)
    ensures IsSubsequence(a + [x], b + [x])
    decreases |b|
  {
    if |a| == 0 {
      SubsequenceSingleton(b, x);
      assert a + [x] == [x];
    } else {
      assert (a + [x])[0] == a[0] && (a + [x])[1..] == a[1..] + [x];
      assert (b + [x])[0] == b[0] && (b + [x])[1..] == b[1..] + [x];
      if a[0] == b[0] {
        SubsequenceSnoc(a[1..], b[1..], x);
      } else {
        SubsequenceSnoc(a, b[1..], x);
      }
    }
  }

  /** The last element alone is a subsequence. */
  lemma {:induction false} SubsequenceSingleton<T>(b: seq<T>, x: T)
    ensures IsSubsequence([x], b + [x])
  {
    if |b| > 0 {
      assert (b + [x])[1..] == b[1..] + [x];
      SubsequenceSingleton(b[1..], x);
    } else {
      assert b + [x] == [x];
    }
  }

  /** A subsequence is no longer than the sequence it is taken from. */
  lemma {:induction false} SubsequenceLength<T>(a: seq<T>, b: seq<T>)
    requires IsSubsequence(a, b)
    ensures |a| <= |b|
  {
    if |a| > 0 {
      if a[0] == b[0] {
        SubsequenceLength(a[1..], b[1..]);
      } else {
        SubsequenceLength(a, b[1..]);
      }
    }
  }

  /** Every element of a subsequence occurs in the sequence. */
  lemma {:induction false} SubsequenceMembers<T>(a: seq<T>, b: seq<T>)
    requires IsSubsequence(a, b)
    ensures forall x :: x in a ==> x in b
  {
    if |a| > 0 {
      if a[0] == b[0] {
        SubsequenceMembers(a[1..], b[1..]);
        assert forall x :: x in a ==> x == a[0] || x in a[1..];
      } else {
        SubsequenceMembers(a, b[1..]);
      }
      assert forall x :: x in b[1..] ==> x in b;
    }
  }

  /** The blocks of `s` joined end to end, in order. */
  function Flatten<T>(s: seq<seq<T>>): seq<T>
  {
    if |s| == 0 then [] else s[0] + Flatten(s[1..])
  }

  /** `Filter` is the only order-preserving selection of the rows satisfying
      `p` that misses none of them: its contract determines it. */
  lemma {:induction false} FilterIsUnique<T>(s: seq<T>, p: T -> bool, r: seq<T>)
    requires IsSubsequence(r, s)
    requires forall x :: x in r ==> p(x)
    requires |r| == Count(s, p)
    ensures r == Filter(s, p)
  {
    if |s| == 0 {
    } else if p(s[0]) {
      assert |r| > 0;
      if r[0] != s[0] {
        SubsequenceCountBound(r, s[1..], p);
        assert false;
      }
      assert forall x :: x in r[1..] ==> x in r;
      FilterIsUnique(s[1..], p, r[1..]);
      assert r == [r[0]] + r[1..];
    } else {
      if |r| > 0 {
        assert r[0] in r;
        assert r[0] != s[0];
      }
      FilterIsUnique(s[1..], p, r);
    }
  }

  /** Selecting the rows that satisfy `p` and the rows that do not splits
      the table: together the two parts hold every row exactly once. */
  lemma {:induction false} FilterPartition<T>(s: seq<T>, p: T -> bool)
    ensures |Filter(s, p)| + |Filter(s, Not(p))| == |s|
    ensures multiset(Filter(s, p)) + multiset(Filter(s, Not(p))) == multiset(s)
    ensures forall x :: x in Filter(s, p) ==> x !in Filter(s, Not(p))
  {
    if |s| == 0 {
    } else {
      FilterPartition(s[1..], p);
      assert s == [s[0]] + s[1..];
      assert Not(p)(s[0]) == !p(s[0]);
    }
  }

  /** The present results of `f` over `s`, in order, each paired with the
      element it came from. */
  function FilterMap<T, U>(s: seq<T>, f: T -> Option<U>): (r: seq<(T, U)>)
    ensures |r| <= |s|
    ensures |r| == 0 <==> forall k :: 0 <= k < |s| ==> f(s[k]).None?
    ensures forall j :: 0 <= j < |r| ==> r[j].0 in s && f(r[j].0) == Some(r[j].1)
  {
    if |s| == 0 then []
    else
      var rest := FilterMap(s[1..], f);
      assert forall k :: 1 <= k < |s| ==> s[k] == s[1..][k - 1];
      match f(s[0])
      case None => rest
      case Some(y) => [(s[0], y)] + rest
  }

  function Sum(s: seq<real>): real
  {
    if |s| == 0 then 0.0 else s[0] + Sum(s[1..])
  }

  /** The present values of a column, in order (pandas `mean` skips nulls). */
  function Present(vals: seq<Option<real>>): (r: seq<real>)
    ensures |r| <= |vals|
  {
    if |vals| == 0 then []
    else (if vals[0].Some? then [vals[0].value] else []) + Present(vals[1..])
  }

  /** Every present value comes from the column, and nothing is present
      exactly when every entry is null. */
  lemma {:induction false} PresentFrom(vals: seq<Option<real>>)
    ensures forall j :: 0 <= j < |Present(vals)| ==> Some(Present(vals)[j]) in vals
    ensures |Present(vals)| == 0 <==> forall k :: 0 <= k < |vals| ==> vals[k].None?
  {
    if |vals| > 0 {
      PresentFrom(vals[1..]);
      assert forall k :: 1 <= k < |vals| ==> vals[k] == vals[1..][k - 1];
    }
  }

  /** pandas `mean()` of a column: NaN (here `None`) for an empty column. */
  function Mean(s: seq<real>): (m: Option<real>)
    ensures m.None? <==> |s| == 0
    ensures m.Some? ==> m.value * (|s| as real) == Sum(s)
  {
    if |s| == 0 then None else Some(Sum(s) / (|s| as real))
  }

  /** A pandas column division `a / b`: missing when either side is
      missing, and when the divisor is 0 (the infinity or NaN pandas
      produces there is not a finite value). */
  function Divide(a: Option<real>, b: Option<real>): (q: Option<real>)
    ensures q.Some? <==> a.Some? && b.Some? && b.value != 0.0
    ensures q.Some? ==> q.value * b.value == a.value
  {
    if a.Some? && b.Some? && b.value != 0.0 then Some(a.value / b.value) else None
  }

  /** A sum of values that all lie in [lo, hi] lies in [n*lo, n*hi]. */
  lemma {:induction false} SumBounds(s: seq<real>, lo: real, hi: real)
    requires forall k :: 0 <= k < |s| ==> lo <= s[k] <= hi
    ensures (|s| as real) * lo <= Sum(s) <= (|s| as real) * hi
  {
    if |s| > 0 {
      SumBounds(s[1..], lo, hi);
    }
  }

  /** The mean of a non-empty column lies between any bounds of its values. */
  lemma MeanBounds(s: seq<real>, lo: real, hi: real)
    requires |s| > 0
    requires forall k :: 0 <= k < |s| ==> lo <= s[k] <= hi
    ensures Mean(s).Some? && lo <= Mean(s).value <= hi
  {
    SumBounds(s, lo, hi);
    var n := |s| as real;
    var m := Mean(s).value;
    assert m * n == Sum(s);
    assert n * lo <= m * n <= n * hi;
  }

  /** `s` lists distinct values. */
  predicate NoDuplicates<T(==)>(s: seq<T>)
  {
    forall a, b :: 0 <= a < b < |s| ==> s[a] != s[b]
  }

  /** Selecting from a list without repeats gives a list without repeats. */
  lemma {:induction false} FilterNoDuplicates<T>(s: seq<T>, p: T -> bool)
    ensures NoDuplicates(s) ==> NoDuplicates(Filter(s, p))
  {
    if |s| > 0 && NoDuplicates(s) {
      assert NoDuplicates(s[1..]) by {
        forall a, b | 0 <= a < b < |s| - 1
          ensures s[1..][a] != s[1..][b]
        {
          assert s[1..][a] == s[a + 1] && s[1..][b] == s[b + 1];
        }
      }
      FilterNoDuplicates(s[1..], p);
      var rest := Filter(s[1..], p);
      if p(s[0]) {
        assert s[0] !in s[1..] by {
          forall k | 0 <= k < |s| - 1
            ensures s[1..][k] != s[0]
          {
            assert s[1..][k] == s[k + 1];
          }
        }
        var r := [s[0]] + rest;
        forall a, b | 0 <= a < b < |r|
          ensures r[a] != r[b]
        {
          assert r[b] == rest[b - 1] && rest[b - 1] in rest;
          if a > 0 {
            assert r[a] == rest[a - 1];
          }
        }
      }
    }
  }

  /** The distinct values of `s` in order of first appearance. */
  function Distinct<T(==)>(s: seq<T>): (d: seq<T>)
    ensures NoDuplicates(d)
    ensures forall x :: x in d ==> x in s
    ensures forall k :: 0 <= k < |s| ==> s[k] in d
  {
    if |s| == 0 then []
    else
      var rest := Distinct(s[..|s| - 1]);
      assert forall k :: 0 <= k < |s| - 1 ==> s[k] == s[..|s| - 1][k];
      if s[|s| - 1] in rest then rest else rest + [s[|s| - 1]]
  }

  /** Position of the first occurrence of `x` in `s`. */
  function IndexOf<T(==)>(s: seq<T>, x: T): (i: nat)
    requires x in s
    ensures i < |s| && s[i] == x
    ensures forall j :: 0 <= j < i ==> s[j] != x
  {
    if s[0] == x then 0 else 1 + IndexOf(s[1..], x)
  }

  /** Total number of occurrences in `s` of the values listed in `keys`. */
  function CountsOver<T(==)>(keys: seq<T>, s: seq<T>): nat
  {
    if |keys| == 0 then 0
    else CountsOver(keys[..|keys| - 1], s) + multiset(s)[keys[|keys| - 1]]
  }

  lemma {:induction false} CountsOverAppendRow<T>(keys: seq<T>, s: seq<T>, x: T)
    requires NoDuplicates(keys)
    ensures CountsOver(keys, s + [x]) == CountsOver(keys, s) + (if x in keys then 1 else 0)
  {
    if |keys| > 0 {
      var init := keys[..|keys| - 1];
      assert NoDuplicates(init);
      CountsOverAppendRow(init, s, x);
      assert x in keys <==> x in init || x == keys[|keys| - 1];
      assert x == keys[|keys| - 1] ==> x !in init;
    }
  }

  /** Counting every occurrence of every listed value counts each element of
      `s` once, when every element is listed and no value is listed twice. */
  lemma {:induction false} CountsOverCovering<T>(keys: seq<T>, s: seq<T>)
    requires NoDuplicates(keys)
    requires forall k :: 0 <= k < |s| ==> s[k] in keys
    ensures CountsOver(keys, s) == |s|
  {
    if |s| == 0 {
      CountsOverEmpty(keys, s);
    } else {
      var init := s[..|s| - 1];
      assert forall k :: 0 <= k < |init| ==> init[k] == s[k];
      CountsOverCovering(keys, init);
      assert s == init + [s[|s| - 1]];
      CountsOverAppendRow(keys, init, s[|s| - 1]);
    }
  }

  lemma {:induction false} CountsOverEmpty<T>(keys: seq<T>, s: seq<T>)
    requires |s| == 0
    ensures CountsOver(keys, s) == 0
  {
    if |keys| > 0 {
      CountsOverEmpty(keys[..|keys| - 1], s);
    }
  }

  /** Appending a row the predicate rejects leaves the filtered rows as they
      were. */
  lemma {:induction false} FilterAppendRejected<T>(s: seq<T>, p: T -> bool, x: T)
    requires !p(x)
    ensures Filter(s + [x], p) == Filter(s, p)
  {
    if |s| == 0 {
      assert [x][1..] == [];
    } else {
      assert (s + [x])[1..] == s[1..] + [x];
      FilterAppendRejected(s[1..], p, x);
    }
  }

  /** Counting among the selected rows is counting the rows that pass both
      tests. */
  lemma {:induction false} CountFiltered<T>(s: seq<T>, p: T -> bool, q: T -> bool)
    ensures Count(Filter(s, p), q) == Count(s, And(p, q))
  {
    if |s| > 0 {
      CountFiltered(s[1..], p, q);
      if p(s[0]) {
        assert ([s[0]] + Filter(s[1..], p))[1..] == Filter(s[1..], p);
      }
    }
  }

  /** Selection keeps every copy of a row that passes and none of a row
      that fails. */
  lemma {:induction false} FilterMultiplicity<T>(s: seq<T>, p: T -> bool, x: T)
    ensures multiset(Filter(s, p))[x] == if p(x) then multiset(s)[x] else 0
  {
    if |s| > 0 {
      FilterMultiplicity(s[1..], p, x);
      assert s == [s[0]] + s[1..];
      if p(s[0]) {
        assert Filter(s, p) == [s[0]] + Filter(s[1..], p);
      }
    }
  }

  /** The elements on which `f` has a result. */
  function Defined<T, U>(f: T -> Option<U>): T -> bool
  {
    x => f(x).Some?
  }

  /** The first components of a sequence of pairs, in order. */
  function Firsts<T, U>(r: seq<(T, U)>): (xs: seq<T>)
    ensures |xs| == |r|
    ensures forall j :: 0 <= j < |r| ==> xs[j] == r[j].0
  {
    seq(|r|, j requires 0 <= j < |r| => r[j].0)
  }

  lemma FirstsCons<T, U>(x: (T, U), r: seq<(T, U)>)
    ensures Firsts([x] + r) == [x.0] + Firsts(r)
  {
    var a := Firsts([x] + r);
    var b := [x.0] + Firsts(r);
    assert |a| == |b|;
    forall j | 0 <= j < |a|
      ensures a[j] == b[j]
    {
      if j > 0 {
        assert ([x] + r)[j] == r[j - 1];
      }
    }
  }

  /** The pairs of `FilterMap` come from the elements with a result, in
      their order in `s`, each exactly once. */
  lemma {:induction false} FilterMapSources<T, U>(s: seq<T>, f: T -> Option<U>)
    ensures Firsts(FilterMap(s, f)) == Filter(s, Defined(f))
  {
    if |s| > 0 {
      FilterMapSources(s[1..], f);
      var rest := FilterMap(s[1..], f);
      if f(s[0]).Some? {
        assert FilterMap(s, f) == [(s[0], f(s[0]).value)] + rest;
        FirstsCons((s[0], f(s[0]).value), rest);
      }
    }
  }
}

=== FILE: contracts.dfy ===
/** The contract scrapers: from the HTML tables of a fetched page, pick the
    first table whose header cells name the wanted columns, turn its body
    rows into a frame, and strip '$' and ',' from the money columns; and for
    a list of player pages, label each scraped history with the player's
    name taken from the URL and stack the histories. Fetching and HTML
    parsing are oracles: a page is the list of its tables, or `None` when
    the request raised. */
module Contracts {
  import opened Common
  import opened Text

  /** One `<table>`: the stripped text of all its `th` cells, and for every
      `tr` after the first, the stripped text of that row's `td` cells. */
  datatype HtmlTable = HtmlTable(headers: seq<string>, bodyRows: seq<seq<string>>)

  /** A frame cell: text, or the `None` pandas pads short rows with. */
  datatype Cell = Missing | Text(text: string)

  datatype Frame = Frame(columns: seq<string>, rows: seq<seq<Cell>>)

  /** Every row has one cell per column. */
  predicate WellFormed(f: Frame)
  {
    forall i :: 0 <= i < |f.rows| ==> |f.rows[i]| == |f.columns|
  }

  /** What distinguishes the three scrapers: the header names a table must
      contain, whether body rows are cut to the header count, and the first
      column index that is cleaned as money. */
  datatype TableKind = TableKind(required: seq<string>, truncate: bool, firstMoneyColumn: nat)

  const HistoryKind := TableKind(["Year", "Age", "Base Salary"], true, 1)
  const CurrentKind := TableKind(["Player", "Team", "Position"], false, 3)
  const CapKind := TableKind(["Team", "Cap Space"], false, 1)

  predicate Matches(t: HtmlTable, kind: TableKind)
  {
    forall k :: 0 <= k < |kind.required| ==> kind.required[k] in t.headers
  }

  /** The first table of the page that names all required headers. */
  function FirstMatching(tables: seq<HtmlTable>, kind: TableKind): (i: Option<nat>)
    ensures i.Some? ==> i.value < |tables| && Matches(tables[i.value], kind)
    ensures i.Some? ==> forall j :: 0 <= j < i.value ==> !Matches(tables[j], kind)
    ensures i.None? <==> forall j :: 0 <= j < |tables| ==> !Matches(tables[j], kind)
  {
    if |tables| == 0 then None
    else if Matches(tables[0], kind) then Some(0)
    else
      match FirstMatching(tables[1..], kind)
      case None =>
        assert forall j :: 1 <= j < |tables| ==> tables[j] == tables[1..][j - 1];
        None
      case Some(i) =>
        assert forall j :: 1 <= j < |tables| ==> tables[j] == tables[1..][j - 1];
        Some(i + 1)
  }

  /** `if row:` keeps a body row only when it has `td` cells. */
  predicate NonEmptyRow(row: seq<string>)
  {
    |row| > 0
  }

  /** `row[:n]`. */
  function Take<T>(row: seq<T>, n: nat): (r: seq<T>)
    ensures |r| == if |row| <= n then |row| else n
    ensures forall k :: 0 <= k < |r| ==> r[k] == row[k]
  {
    if |row| <= n then row else row[..n]
  }

  /** The body rows that reach the frame constructor. */
  function KeptRows(t: HtmlTable, kind: TableKind): (rows: seq<seq<string>>)
    ensures |rows| == Count(t.bodyRows, NonEmptyRow)
    ensures forall i :: 0 <= i < |rows| ==>
      rows[i] == (if kind.truncate then Take(Filter(t.bodyRows, NonEmptyRow)[i], |t.headers|)
                  else Filter(t.bodyRows, NonEmptyRow)[i])
  {
    var kept := Filter(t.bodyRows, NonEmptyRow);
    seq(|kept|, i requires 0 <= i < |kept| => if kind.truncate then Take(kept[i], |t.headers|) else kept[i])
  }

  /** The widest row (0 for no rows). */
  function MaxWidth<T>(rows: seq<seq<T>>): (w: nat)
    ensures forall i :: 0 <= i < |rows| ==> |rows[i]| <= w
    ensures |rows| > 0 ==> exists i :: 0 <= i < |rows| && |rows[i]| == w
    ensures |rows| == 0 ==> w == 0
  {
    if |rows| == 0 then 0
    else
      var rest := MaxWidth(rows[1..]);
      assert forall i :: 1 <= i < |rows| ==> rows[i] == rows[1..][i - 1];
      if |rows[0]| >= rest then |rows[0]| else rest
  }

  datatype ScrapeError =
    | RequestFailed                           // the request raised
    | ShapeMismatch(columns: nat, width: nat) // pandas: column count differs from the data width
    | DuplicateHeaders                        // a header name occurs twice

  /** The cell written for the text at column `k`. */
  function CleanCell(s: string, k: nat, kind: TableKind): Cell
  {
    if k >= kind.firstMoneyColumn then Text(StripMoney(s)) else Text(s)
  }

  function BuildRow(row: seq<string>, n: nat, kind: TableKind): (cells: seq<Cell>)
    ensures |cells| == n
  {
    seq(n, k requires 0 <= k < n => if k < |row| then CleanCell(row[k], k, kind) else Missing)
  }

  /** The frame built from one table, with its money columns cleaned. */
  function ScrapeTable(t: HtmlTable, kind: TableKind): (r: Result<Frame, ScrapeError>)
    ensures r.Err? ==> r.error.ShapeMismatch? || r.error.DuplicateHeaders?
    ensures (r.Err? && r.error.ShapeMismatch?) <==>
      (exists i :: 0 <= i < |KeptRows(t, kind)| && |KeptRows(t, kind)[i]| > |t.headers|)
      || (|KeptRows(t, kind)| > 0 && forall i :: 0 <= i < |KeptRows(t, kind)| ==> |KeptRows(t, kind)[i]| < |t.headers|)
    ensures r.Ok? ==> NoDuplicates(t.headers) && r.value.columns == t.headers && WellFormed(r.value)
    ensures r.Ok? ==> |r.value.rows| == Count(t.bodyRows, NonEmptyRow)
    ensures r.Ok? ==> forall i, k :: 0 <= i < |r.value.rows| && 0 <= k < |t.headers| ==>
      var src := KeptRows(t, kind)[i];
      && (k >= |src| ==> r.value.rows[i][k] == Missing)
      && (k < |src| && k < kind.firstMoneyColumn ==> r.value.rows[i][k] == Text(src[k]))
      && (k < |src| && k >= kind.firstMoneyColumn ==> r.value.rows[i][k] == Text(StripMoney(src[k])))
  {
    var rows := KeptRows(t, kind);
    var n := |t.headers|;
    if |rows| > 0 && MaxWidth(rows) != n then Err(ShapeMismatch(n, MaxWidth(rows)))
    else if !NoDuplicates(t.headers) then Err(DuplicateHeaders)
    else Ok(Frame(t.headers, seq(|rows|, i requires 0 <= i < |rows| => BuildRow(rows[i], n, kind))))
  }

  /** Money columns of a scraped frame hold no '$' and no ','. */
  lemma MoneyColumnsStripped(t: HtmlTable, kind: TableKind)
    requires ScrapeTable(t, kind).Ok?
    ensures var f := ScrapeTable(t, kind).value;
      forall i, k :: 0 <= i < |f.rows| && kind.firstMoneyColumn <= k < |f.columns| && f.rows[i][k].Text? ==>
        '$' !in f.rows[i][k].text && ',' !in f.rows[i][k].text
  {
  }

  /** Contract histories cut every row to the header count, so the data is
      never wider than the header: the only shape error left is a table
      whose kept rows are all shorter than its header. */
  lemma HistoryNeverTooWide(t: HtmlTable)
    ensures var r := ScrapeTable(t, HistoryKind);
      r.Err? && r.error.ShapeMismatch? ==>
        forall i :: 0 <= i < |KeptRows(t, HistoryKind)| ==> |KeptRows(t, HistoryKind)[i]| < |t.headers|
  {
    var rows := KeptRows(t, HistoryKind);
    assert forall i :: 0 <= i < |rows| ==> |rows[i]| <= |t.headers|;
  }

  /** A fetched page scraped for one kind of table: `Ok(None)` when no
      table matches, which includes a page without tables. */
  function ScrapePage(page: Option<seq<HtmlTable>>, kind: TableKind): (r: Result<Option<Frame>, ScrapeError>)
    ensures page.None? <==> r == Err(RequestFailed)
    ensures r == Ok(None) <==> page.Some? && forall j :: 0 <= j < |page.value| ==> !Matches(page.value[j], kind)
    ensures r.Ok? && r.value.Some? ==>
      exists j :: 0 <= j < |page.value| && Matches(page.value[j], kind)
        && (forall j' :: 0 <= j' < j ==> !Matches(page.value[j'], kind))
        && ScrapeTable(page.value[j], kind) == Ok(r.value.value)
  {
    match page
    case None => Err(RequestFailed)
    case Some(tables) =>
      match FirstMatching(tables, kind)
      case None => Ok(None)
      case Some(i) =>
        match ScrapeTable(tables[i], kind)
        case Err(e) => Err(e)
        case Ok(f) => Ok(Some(f))
  }

  /** Every column the scraper looked for is a column of its frame. */
  lemma ScrapedHasRequired(page: Option<seq<HtmlTable>>, kind: TableKind)
    ensures var r := ScrapePage(page, kind);
      r.Ok? && r.value.Some? ==>
        && WellFormed(r.value.value) && NoDuplicates(r.value.value.columns)
        && forall k :: 0 <= k < |kind.required| ==> kind.required[k] in r.value.value.columns
  {
    var r := ScrapePage(page, kind);
    if r.Ok? && r.value.Some? {
      var f := r.value.value;
      var j :| 0 <= j < |page.value| && Matches(page.value[j], kind) && ScrapeTable(page.value[j], kind) == Ok(f);
    }
  }

  function GetPlayerContractHistory(page: Option<seq<HtmlTable>>): (r: Result<Option<Frame>, ScrapeError>)
    ensures r.Ok? && r.value.Some? ==>
      var f := r.value.value;
      "Year" in f.columns && "Age" in f.columns && "Base Salary" in f.columns && WellFormed(f)
      && NoDuplicates(f.columns)
  {
    ScrapedHasRequired(page, HistoryKind);
    assert HistoryKind.required[0] == "Year" && HistoryKind.required[1] == "Age" && HistoryKind.required[2] == "Base Salary";
    ScrapePage(page, HistoryKind)
  }

  function GetCurrentContracts(page: Option<seq<HtmlTable>>): (r: Result<Option<Frame>, ScrapeError>)
    ensures r.Ok? && r.value.Some? ==>
      var f := r.value.value;
      "Player" in f.columns && "Team" in f.columns && "Position" in f.columns && WellFormed(f)
  {
    ScrapedHasRequired(page, CurrentKind);
    assert CurrentKind.required[0] == "Player" && CurrentKind.required[1] == "Team" && CurrentKind.required[2] == "Position";
    ScrapePage(page, CurrentKind)
  }

  function GetSalaryCapData(page: Option<seq<HtmlTable>>): (r: Result<Option<Frame>, ScrapeError>)
    ensures r.Ok? && r.value.Some? ==>
      var f := r.value.value;
      "Team" in f.columns && "Cap Space" in f.columns && WellFormed(f)
  {
    ScrapedHasRequired(page, CapKind);
    assert CapKind.required[0] == "Team" && CapKind.required[1] == "Cap Space";
    ScrapePage(page, CapKind)
  }

  /** `url.split('/')[-2].replace('-', ' ').title()`; `None` where the
      index raises, that is for a URL without '/'. */
  function PlayerNameFromUrl(url: string): (name: Option<string>)
    ensures name.Some? <==> '/' in url
    ensures name.Some? ==> '-' !in name.value && '/' !in name.value
  {
    var parts := Split(url, '/');
    if |parts| < 2 then
      assert Join(parts, '/') == parts[0];
      None
    else
      var slug := ReplaceChar(parts[|parts| - 2], '-', ' ');
      TitleCharacters(slug);
      assert '/' !in parts[|parts| - 2];
      assert url == parts[0] + ['/'] + Join(parts[1..], '/');
      Some(Title(slug))
  }

  /** A leading separator opens an empty first part. */
  lemma SplitSepHead(s: string, sep: char)
    requires |s| > 0 && s[0] == sep
    ensures Split(s, sep) == [""] + Split(s[1..], sep)
  {
  }

  /** Any other leading character joins the first part of the rest. */
  lemma SplitCharHead(s: string, sep: char)
    requires |s| > 0 && s[0] != sep
    ensures Split(s, sep) == [[s[0]] + Split(s[1..], sep)[0]] + Split(s[1..], sep)[1..]
  {
  }

  /** Adding a character to the first part commutes with appending parts. */
  lemma ExtendFirstPart(c: char, left: seq<string>, right: seq<string>)
    requires |left| >= 1
    ensures [[c] + (left + right)[0]] + (left + right)[1..] == ([[c] + left[0]] + left[1..]) + right
  {
    assert (left + right)[0] == left[0];
    assert (left + right)[1..] == left[1..] + right;
  }

  /** Prepending a part commutes with appending parts. */
  lemma PrependPart(part: string, left: seq<string>, right: seq<string>)
    ensures [part] + (left + right) == ([part] + left) + right
  {
  }

  /** Two texts that both open with the separator, and whose tails split
      into `tail` and `tail + more`, split into `parts` and `parts + more`. */
  lemma SplitSameSepHead(s: string, a: string, sep: char, more: seq<string>)
    requires |s| > 0 && |a| > 0 && s[0] == sep && a[0] == sep
    requires Split(s[1..], sep) == Split(a[1..], sep) + more
    ensures Split(s, sep) == Split(a, sep) + more
  {
    SplitSepHead(s, sep);
    SplitSepHead(a, sep);
    PrependPart("", Split(a[1..], sep), more);
  }

  /** The same for two texts opening with the same other character. */
  lemma SplitSameCharHead(s: string, a: string, sep: char, more: seq<string>)
    requires |s| > 0 && |a| > 0 && s[0] == a[0] && a[0] != sep
    requires Split(s[1..], sep) == Split(a[1..], sep) + more
    ensures Split(s, sep) == Split(a, sep) + more
  {
    SplitCharHead(s, sep);
    SplitCharHead(a, sep);
    ExtendFirstPart(a[0], Split(a[1..], sep), more);
  }

  /** A split at a separator is the concatenation of the splits of the two
      sides. */
  lemma {:induction false} SplitConcat(a: string, sep: char, b: string)
    ensures Split(a + [sep] + b, sep) == Split(a, sep) + Split(b, sep)
  {
    var s := a + [sep] + b;
    if |a| == 0 {
      assert s[0] == sep && s[1..] == b;
      SplitSepHead(s, sep);
    } else {
      assert s[0] == a[0] && s[1..] == a[1..] + [sep] + b;
      SplitConcat(a[1..], sep, b);
      if a[0] == sep {
        SplitSameSepHead(s, a, sep, Split(b, sep));
      } else {
        SplitSameCharHead(s, a, sep, Split(b, sep));
      }
    }
  }

  /** For a player URL `…/slug/id`, the name is the title-cased slug with
      its hyphens turned into spaces. */
  lemma NameFromPlayerUrl(prefix: string, slug: string, id: string)
    requires '/' !in slug && '/' !in id
    ensures PlayerNameFromUrl(prefix + "/" + slug + "/" + id) == Some(Title(ReplaceChar(slug, '-', ' ')))
  {
    SplitAtFirst(slug, '/', id);
    SplitPlain(id, '/');
    assert prefix + "/" + slug + "/" + id == prefix + ['/'] + (slug + ['/'] + id);
    SplitConcat(prefix, '/', slug + ['/'] + id);
    var parts := Split(prefix + "/" + slug + "/" + id, '/');
    assert parts == Split(prefix, '/') + [slug, id];
    assert parts[|parts| - 2] == slug;
  }

  /** `df[name] = v`: overwrite the column when it exists, else append it. */
  function WithColumn(f: Frame, name: string, v: Cell): (g: Frame)
    requires WellFormed(f)
    ensures WellFormed(g) && |g.rows| == |f.rows| && |g.columns| >= |f.columns|
    ensures name in g.columns
    ensures forall i :: 0 <= i < |g.rows| ==> g.rows[i][IndexOf(g.columns, name)] == v
    ensures forall c :: c in f.columns ==> c in g.columns
    ensures NoDuplicates(f.columns) ==> NoDuplicates(g.columns)
    ensures forall c :: c in g.columns ==> c in f.columns || c == name
    ensures forall i, k :: 0 <= i < |f.rows| && 0 <= k < |f.columns| && f.columns[k] != name ==>
      g.columns[k] == f.columns[k] && g.rows[i][k] == f.rows[i][k]
  {
    if name in f.columns then
      var at := IndexOf(f.columns, name);
      Frame(f.columns, seq(|f.rows|, i requires 0 <= i < |f.rows| => f.rows[i][at := v]))
    else
      var g := Frame(f.columns + [name], seq(|f.rows|, i requires 0 <= i < |f.rows| => f.rows[i] + [v]));
      assert IndexOf(g.columns, name) == |f.columns|;
      g
  }

  /** One URL's labelled history, or `None` when scraping it raised, found
      no table, or the name could not be taken from the URL. */
  function PlayerFrame(url: string, fetch: string -> Option<seq<HtmlTable>>): (f: Option<Frame>)
    ensures f.Some? ==> PlayerNameFromUrl(url).Some? && LabelledWith(f.value, Text(PlayerNameFromUrl(url).value))
  {
    match GetPlayerContractHistory(fetch(url))
    case Err(_) => None
    case Ok(None) => None
    case Ok(Some(f)) =>
      match PlayerNameFromUrl(url)
      case None => None
      case Some(name) => Some(WithColumn(f, "Player", Text(name)))
  }

  /** A well-formed frame with a "Player" column whose every cell is `v`. */
  predicate LabelledWith(f: Frame, v: Cell)
  {
    && WellFormed(f)
    && "Player" in f.columns
    && forall i :: 0 <= i < |f.rows| ==> f.rows[i][IndexOf(f.columns, "Player")] == v
  }

  /** All column names of the frames, in order, repeats included. */
  function AllColumns(frames: seq<Frame>): (cols: seq<string>)
    ensures forall j, c :: 0 <= j < |frames| && c in frames[j].columns ==> c in cols
    ensures forall c :: c in cols ==> exists j :: 0 <= j < |frames| && c in frames[j].columns
  {
    if |frames| == 0 then []
    else
      var init := frames[..|frames| - 1];
      var rest := AllColumns(init);
      assert forall j :: 0 <= j < |init| ==> init[j] == frames[j];
      rest + frames[|frames| - 1].columns
  }

  /** A row of `f` laid out over `cols`: its cell for each column it has,
      `Missing` for the others. */
  function ReindexRow(f: Frame, row: seq<Cell>, cols: seq<string>): (r: seq<Cell>)
    requires |row| == |f.columns|
    ensures |r| == |cols|
    ensures forall k :: 0 <= k < |cols| && cols[k] in f.columns ==> r[k] == row[IndexOf(f.columns, cols[k])]
    ensures forall k :: 0 <= k < |cols| && cols[k] !in f.columns ==> r[k] == Missing
  {
    seq(|cols|, k requires 0 <= k < |cols| =>
      if cols[k] in f.columns then row[IndexOf(f.columns, cols[k])] else Missing)
  }

  function Reindex(f: Frame, cols: seq<string>): (rows: seq<seq<Cell>>)
    requires WellFormed(f)
    ensures |rows| == |f.rows|
    ensures forall i :: 0 <= i < |rows| ==> rows[i] == ReindexRow(f, f.rows[i], cols)
  {
    seq(|f.rows|, i requires 0 <= i < |f.rows| => ReindexRow(f, f.rows[i], cols))
  }

  function TotalRows(frames: seq<Frame>): nat
  {
    if |frames| == 0 then 0 else TotalRows(frames[..|frames| - 1]) + |frames[|frames| - 1].rows|
  }

  predicate AllWellFormed(frames: seq<Frame>)
  {
    forall j :: 0 <= j < |frames| ==> WellFormed(frames[j])
  }

  function StackRows(frames: seq<Frame>, cols: seq<string>): (rows: seq<seq<Cell>>)
    requires AllWellFormed(frames)
    ensures |rows| == TotalRows(frames)
    ensures forall i :: 0 <= i < |rows| ==> |rows[i]| == |cols|
  {
    if |frames| == 0 then []
    else
      var init := frames[..|frames| - 1];
      assert forall j :: 0 <= j < |init| ==> init[j] == frames[j];
      StackRows(init, cols) + Reindex(frames[|frames| - 1], cols)
  }

  /** `pd.concat(frames, ignore_index=True)`: the union of the columns in
      order of first appearance, and every frame's rows in frame order. */
  function Concat(frames: seq<Frame>): (g: Frame)
    requires AllWellFormed(frames)
    ensures WellFormed(g) && NoDuplicates(g.columns)
    ensures forall j, c :: 0 <= j < |frames| && c in frames[j].columns ==> c in g.columns
    ensures forall c :: c in g.columns ==> exists j :: 0 <= j < |frames| && c in frames[j].columns
    ensures |g.rows| == TotalRows(frames)
    ensures forall j :: 0 <= j < |frames| ==>
      && TotalRows(frames[..j]) + |frames[j].rows| <= |g.rows|
      && forall i :: 0 <= i < |frames[j].rows| ==>
           g.rows[TotalRows(frames[..j]) + i] == ReindexRow(frames[j], frames[j].rows[i], g.columns)
  {
    var cols := ConcatColumns(frames);
    StackRowsBlocks(frames, cols);
    Frame(cols, StackRows(frames, cols))
  }

  /** The columns of a concatenation: each column of any frame, once, in
      order of first appearance. */
  function ConcatColumns(frames: seq<Frame>): (cols: seq<string>)
    ensures NoDuplicates(cols)
    ensures forall j, c :: 0 <= j < |frames| && c in frames[j].columns ==> c in cols
    ensures forall c :: c in cols ==> exists j :: 0 <= j < |frames| && c in frames[j].columns
  {
    var all := AllColumns(frames);
    var cols := Distinct(all);
    assert forall c :: c in all ==> c in cols by {
      forall c | c in all
        ensures c in cols
      {
        var k :| 0 <= k < |all| && all[k] == c;
      }
    }
    cols
  }

  /** Frame `j`'s rows sit in the stacked table right after the rows of the
      frames before it, in their own order. */
  lemma {:induction false} StackRowsBlocks(frames: seq<Frame>, cols: seq<string>)
    requires AllWellFormed(frames)
    ensures forall j :: 0 <= j < |frames| ==>
      && TotalRows(frames[..j]) + |frames[j].rows| <= TotalRows(frames)
      && forall i :: 0 <= i < |frames[j].rows| ==>
           StackRows(frames, cols)[TotalRows(frames[..j]) + i] == ReindexRow(frames[j], frames[j].rows[i], cols)
  {
    forall j | 0 <= j < |frames|
      ensures TotalRows(frames[..j]) + |frames[j].rows| <= TotalRows(frames)
      ensures forall i :: 0 <= i < |frames[j].rows| ==>
        StackRows(frames, cols)[TotalRows(frames[..j]) + i] == ReindexRow(frames[j], frames[j].rows[i], cols)
    {
      StackRowsLayout(frames, cols, j);
    }
  }

  lemma {:induction false} StackRowsLayout(frames: seq<Frame>, cols: seq<string>, j: int)
    requires AllWellFormed(frames)
    requires 0 <= j < |frames|
    ensures TotalRows(frames[..j]) + |frames[j].rows| <= TotalRows(frames)
    ensures forall i :: 0 <= i < |frames[j].rows| ==>
      StackRows(frames, cols)[TotalRows(frames[..j]) + i] == ReindexRow(frames[j], frames[j].rows[i], cols)
  {
    var n := |frames|;
    var init := frames[..n - 1];
    assert forall k :: 0 <= k < |init| ==> init[k] == frames[k];
    assert StackRows(frames, cols) == StackRows(init, cols) + Reindex(frames[n - 1], cols);
    if j == n - 1 {
      assert frames[..j] == init;
    } else {
      assert init[..j] == frames[..j];
      StackRowsLayout(init, cols, j);
    }
  }

  /** When every frame is labelled with a value from `allowed`, every
      stacked row carries one of those values under "Player": stacking keeps
      each frame's cells in their own column. */
  lemma {:induction false} StackKeepsLabels(frames: seq<Frame>, labels: seq<Cell>, cols: seq<string>, allowed: set<Cell>)
    requires |labels| == |frames|
    requires forall j :: 0 <= j < |frames| ==> LabelledWith(frames[j], labels[j]) && labels[j] in allowed
    requires "Player" in cols
    ensures AllWellFormed(frames)
    ensures forall i :: 0 <= i < |StackRows(frames, cols)| ==> StackRows(frames, cols)[i][IndexOf(cols, "Player")] in allowed
  {
    if |frames| > 0 {
      var init := frames[..|frames| - 1];
      var last := frames[|frames| - 1];
      StackKeepsLabels(init, labels[..|frames| - 1], cols, allowed);
      var tail := Reindex(last, cols);
      assert StackRows(frames, cols) == StackRows(init, cols) + tail;
      forall i | 0 <= i < |tail|
        ensures tail[i][IndexOf(cols, "Player")] in allowed
      {
        assert tail[i][IndexOf(cols, "Player")] == last.rows[i][IndexOf(last.columns, "Player")];
      }
    }
  }

  /** The labels a URL list can put on rows. */
  function NameCells(urls: seq<string>, fetch: string -> Option<seq<HtmlTable>>): set<Cell>
  {
    set u | u in urls && PlayerFrame(u, fetch).Some? :: Text(PlayerNameFromUrl(u).value)
  }

  /** `PlayerFrame` for each URL, as one function value. */
  function PlayerFrameOf(fetch: string -> Option<seq<HtmlTable>>): string -> Option<Frame>
  {
    u => PlayerFrame(u, fetch)
  }

  /** Every history found is labelled with the name taken from its URL. */
  lemma FoundFramesLabelled(urls: seq<string>, fetch: string -> Option<seq<HtmlTable>>)
    ensures var found := FilterMap(urls, PlayerFrameOf(fetch));
      forall j :: 0 <= j < |found| ==>
        && PlayerNameFromUrl(found[j].0).Some?
        && LabelledWith(found[j].1, Text(PlayerNameFromUrl(found[j].0).value))
        && Text(PlayerNameFromUrl(found[j].0).value) in NameCells(urls, fetch)
  {
    var found := FilterMap(urls, PlayerFrameOf(fetch));
    forall j | 0 <= j < |found|
      ensures PlayerNameFromUrl(found[j].0).Some?
      ensures LabelledWith(found[j].1, Text(PlayerNameFromUrl(found[j].0).value))
      ensures Text(PlayerNameFromUrl(found[j].0).value) in NameCells(urls, fetch)
    {
      assert PlayerFrame(found[j].0, fetch) == Some(found[j].1);
    }
  }

  /** The histories of the URLs that yield one, in URL order. */
  function FoundFrames(found: seq<(string, Frame)>): (frames: seq<Frame>)
    ensures |frames| == |found|
    ensures forall j :: 0 <= j < |found| ==> frames[j] == found[j].1
  {
    seq(|found|, j requires 0 <= j < |found| => found[j].1)
  }

  /** `get_selected_players_contract_history`: `None` when no URL yields a
      history; otherwise the histories of the URLs that yield one, in URL
      order, concatenated, every row labelled with the name of the player
      whose page it came from. */
  function SelectedPlayersHistory(urls: seq<string>, fetch: string -> Option<seq<HtmlTable>>): (r: Option<Frame>)
    ensures r.None? <==> forall k :: 0 <= k < |urls| ==> PlayerFrame(urls[k], fetch).None?
    ensures r.Some? ==> WellFormed(r.value) && "Player" in r.value.columns
    ensures r.Some? ==> forall i :: 0 <= i < |r.value.rows| ==>
      r.value.rows[i][IndexOf(r.value.columns, "Player")] in NameCells(urls, fetch)
    ensures r.Some? ==>
      var found := FilterMap(urls, PlayerFrameOf(fetch));
      && Firsts(found) == Filter(urls, Defined(PlayerFrameOf(fetch)))
      && AllWellFormed(FoundFrames(found))
      && r.value == Concat(FoundFrames(found))
  {
    var found := FilterMap(urls, PlayerFrameOf(fetch));
    if |found| == 0 then None
    else
      FoundFramesLabelled(urls, fetch);
      FilterMapSources(urls, PlayerFrameOf(fetch));
      Some(StackHistories(found, NameCells(urls, fetch)))
  }

  /** The found histories stacked into one frame: every row keeps the label
      of the history it came from. */
  function StackHistories(found: seq<(string, Frame)>, names: set<Cell>): (g: Frame)
    requires |found| > 0
    requires forall j :: 0 <= j < |found| ==>
      && PlayerNameFromUrl(found[j].0).Some?
      && LabelledWith(found[j].1, Text(PlayerNameFromUrl(found[j].0).value))
      && Text(PlayerNameFromUrl(found[j].0).value) in names
    ensures WellFormed(g) && "Player" in g.columns
    ensures forall i :: 0 <= i < |g.rows| ==> g.rows[i][IndexOf(g.columns, "Player")] in names
    ensures AllWellFormed(FoundFrames(found)) && g == Concat(FoundFrames(found))
  {
    var frames := FoundFrames(found);
    var labels := seq(|found|, j requires 0 <= j < |found| => Text(PlayerNameFromUrl(found[j].0).value));
    assert forall j :: 0 <= j < |found| ==> LabelledWith(frames[j], labels[j]) && labels[j] in names;
    var g := Concat(frames);
    assert "Player" in frames[0].columns;
    StackKeepsLabels(frames, labels, g.columns, names);
    g
  }
}

=== FILE: field_geometry.dfy ===
/** The conversion of route-chart pixels to field coordinates in yards: x
    across the field from its centre line, y downfield from the line of
    scrimmage. Two chart layouts exist, told apart by the image width. */
module FieldGeometry {

  /** Width in pixels of each sideline margin. */
  const Sideline: int := 40
  /** Width of a football field in yards. */
  const FieldWidthYards: real := 53.33
  /** Images wider than this many pixels use the wide layout. */
  const WideLayoutMinWidth: int := 1370

  /** Where the line of scrimmage is drawn (pixel row), and a reference pixel
      row that lies `refYards` downfield of it. */
  datatype Layout = Layout(los: int, refRow: int, refYards: int)

  function LayoutFor(width: int): Layout
  {
    if width > WideLayoutMinWidth then Layout(596, 0, 75) else Layout(572, 5, 55)
  }

  /** Pixels per yard across the field. */
  function XScale(width: int): real
  {
    (width - 2 * Sideline) as real / FieldWidthYards
  }

  /** Pixels per yard downfield. */
  function YScale(width: int): real
  {
    var l := LayoutFor(width);
    (l.los - l.refRow) as real / l.refYards as real
  }

  datatype FieldPoint = FieldPoint(x: real, y: real)

  /** A skeleton pixel: row index then column index, as `np.where` lists them. */
  datatype Pixel = Pixel(row: int, col: int)

  /** An image width for which the horizontal scale is non-zero. */
  predicate ScalableWidth(width: int)
  {
    width != 2 * Sideline
  }

  /** The layout constants of the two chart variants. */
  lemma LayoutConstants(width: int)
    ensures width > 1370 ==> LayoutFor(width) == Layout(596, 0, 75) && YScale(width) == 596.0 / 75.0
    ensures width <= 1370 ==> LayoutFor(width) == Layout(572, 5, 55) && YScale(width) == 567.0 / 55.0
    ensures XScale(width) == (width - 80) as real / 53.33
  {
  }

  /** Field position of a (possibly fractional) pixel position. */
  function ToField(row: real, col: real, width: int): FieldPoint
    requires ScalableWidth(width)
  {
    var l := LayoutFor(width);
    FieldPoint((col - width as real / 2.0) / XScale(width), (l.los as real - row) / YScale(width))
  }

  function PixelToField(p: Pixel, width: int): FieldPoint
    requires ScalableWidth(width)
  {
    ToField(p.row as real, p.col as real, width)
  }

  /** Where a field position is drawn: the inverse of `ToField`. */
  function ToPixel(f: FieldPoint, width: int): (pos: (real, real))
  {
    var l := LayoutFor(width);
    (l.los as real - f.y * YScale(width), width as real / 2.0 + f.x * XScale(width))
  }

  /** Drawing a field position and reading it back gives the position again,
      and reading a pixel and drawing it gives the pixel again. */
  lemma ToFieldInverse(f: FieldPoint, row: real, col: real, width: int)
    requires ScalableWidth(width)
    ensures ToField(ToPixel(f, width).0, ToPixel(f, width).1, width) == f
    ensures ToPixel(ToField(row, col, width), width) == (row, col)
  {
    var xs := XScale(width);
    var ys := YScale(width);
    assert xs != 0.0;
    assert ys > 0.0;
    var p := ToPixel(f, width);
    assert (p.1 - width as real / 2.0) == f.x * xs;
    assert (LayoutFor(width).los as real - p.0) == f.y * ys;
    var g := ToField(row, col, width);
    assert g.x * xs == col - width as real / 2.0;
    assert g.y * ys == LayoutFor(width).los as real - row;
    var q := ToPixel(g, width);
    assert q.0 == LayoutFor(width).los as real - g.y * ys == row;
    assert q.1 == width as real / 2.0 + g.x * xs == col;
  }

  /** The reference pixels land on fixed field points: the line of scrimmage
      at mid-width is the origin, the reference row is `refYards` downfield,
      and the two sideline columns are half a field width either side. */
  lemma ReferencePixels(width: int)
    requires ScalableWidth(width)
    ensures ToField(LayoutFor(width).los as real, width as real / 2.0, width) == FieldPoint(0.0, 0.0)
    ensures ToField(LayoutFor(width).refRow as real, width as real / 2.0, width).y
         == LayoutFor(width).refYards as real
    ensures ToField(0.0, Sideline as real, width).x == -FieldWidthYards / 2.0
    ensures ToField(0.0, (width - Sideline) as real, width).x == FieldWidthYards / 2.0
  {
    var xs := XScale(width);
    var l := LayoutFor(width);
    var half := FieldWidthYards / 2.0;
    assert xs * FieldWidthYards == (width - 80) as real;
    assert Sideline as real - width as real / 2.0 == -half * xs;
    assert (width - Sideline) as real - width as real / 2.0 == half * xs;
    CancelScale(-half, xs);
    CancelScale(half, xs);
    DivideByRatio((l.los - l.refRow) as real, l.refYards as real);
  }

  lemma CancelScale(k: real, s: real)
    requires s != 0.0
    ensures (k * s) / s == k
  {
  }

  lemma DivideByRatio(a: real, b: real)
    requires a != 0.0 && b != 0.0
    ensures a / (a / b) == b
  {
  }

  /** On a chart wider than both margins, x grows with the column and y
      shrinks as the row index grows (rows count down the image). */
  lemma Monotone(r1: real, c1: real, r2: real, c2: real, width: int)
    requires width > 2 * Sideline
    ensures c1 < c2 ==> ToField(r1, c1, width).x < ToField(r2, c2, width).x
    ensures r1 < r2 ==> ToField(r1, c1, width).y > ToField(r2, c2, width).y
  {
    var xs := XScale(width);
    var ys := YScale(width);
    assert xs > 0.0 && ys > 0.0;
    var f1 := ToField(r1, c1, width);
    var f2 := ToField(r2, c2, width);
    assert f1.x * xs == c1 - width as real / 2.0;
    assert f2.x * xs == c2 - width as real / 2.0;
    assert f1.y * ys == LayoutFor(width).los as real - r1;
    assert f2.y * ys == LayoutFor(width).los as real - r2;
    if c1 < c2 {
      assert f1.x * xs < f2.x * xs;
    }
    if r1 < r2 {
      assert f1.y * ys > f2.y * ys;
    }
  }

  /** The same transform applied to every pixel of a skeleton, in order. */
  function CloudToField(pixels: seq<Pixel>, width: int): (cloud: seq<FieldPoint>)
    requires ScalableWidth(width)
    ensures |cloud| == |pixels|
    ensures forall k :: 0 <= k < |pixels| ==>
      ToPixel(cloud[k], width) == (pixels[k].row as real, pixels[k].col as real)
  {
    var cloud := seq(|pixels|, k requires 0 <= k < |pixels| => PixelToField(pixels[k], width));
    forall k | 0 <= k < |pixels|
      ensures ToPixel(cloud[k], width) == (pixels[k].row as real, pixels[k].col as real)
    {
      ToFieldInverse(cloud[k], pixels[k].row as real, pixels[k].col as real, width);
    }
    cloud
  }
}

=== FILE: fourth_down.dfy ===
/** Fourth-down decisions per season: how often each play type was chosen
    on fourth down, the mean success of each choice, and the display labels
    of both tables. */
module FourthDown {
  import opened Common
  import opened Text
  import opened Grouping

  /** The play-by-play columns read here; `None` is a null. */
  datatype Play = Play(season: Option<int>, down: Option<int>, playType: Option<string>, success: Option<real>)

  predicate OnFourthDown(p: Play) { p.down == Some(4) }

  /** `pbp_data[pbp_data['down'] == 4]`: a null down compares false. */
  function FourthDownPlays(plays: seq<Play>): (fourth: seq<Play>)
    ensures forall p :: p in fourth ==> p in plays && p.down == Some(4)
    ensures forall k :: 0 <= k < |plays| && OnFourthDown(plays[k]) ==> plays[k] in fourth
    ensures IsSubsequence(fourth, plays)
    ensures |fourth| == Count(plays, OnFourthDown)
  {
    Filter(plays, OnFourthDown)
  }

  /** The (season, play type) key of every play `groupby` sees: a play with
      a null season or play type is in no group. */
  function SeasonTypePairs(plays: seq<Play>): (pairs: seq<(int, string)>)
    ensures |pairs| <= |plays|
    ensures forall j :: 0 <= j < |pairs| ==>
      exists k :: 0 <= k < |plays| && plays[k].season == Some(pairs[j].0) && plays[k].playType == Some(pairs[j].1)
  {
    if |plays| == 0 then []
    else
      var p := plays[0];
      var rest := SeasonTypePairs(plays[1..]);
      assert forall k :: 1 <= k < |plays| ==> plays[k] == plays[1..][k - 1];
      var head := if p.season.Some? && p.playType.Some? then [(p.season.value, p.playType.value)] else [];
      assert forall j :: 0 <= j < |rest| ==> (head + rest)[|head| + j] == rest[j];
      head + rest
  }

  /** The plays of one season that `groupby` places in some group. */
  function InSeason(season: int): Play -> bool
  {
    (p: Play) => p.season == Some(season) && p.playType.Some?
  }

  /** The plays of one (season, play type) group. */
  function InGroup(season: int, playType: string): Play -> bool
  {
    (p: Play) => p.season == Some(season) && p.playType == Some(playType)
  }

  /** The play types of a season's group rows are one per play of that
      season. */
  lemma {:induction false} SeasonMembers(plays: seq<Play>, season: int)
    ensures |Members(SeasonTypePairs(plays), season)| == Count(plays, InSeason(season))
  {
    if |plays| > 0 {
      SeasonMembers(plays[1..], season);
      var pairs := SeasonTypePairs(plays);
      var rest := SeasonTypePairs(plays[1..]);
      var p := plays[0];
      if p.season.Some? && p.playType.Some? {
        assert pairs == [(p.season.value, p.playType.value)] + rest;
        assert pairs[1..] == rest;
      } else {
        assert pairs == rest;
      }
    }
  }

  /** A season's members list each play type as often as the group of that
      season and type has plays. */
  lemma {:induction false} GroupMembers(plays: seq<Play>, season: int, playType: string)
    ensures multiset(Members(SeasonTypePairs(plays), season))[playType] == Count(plays, InGroup(season, playType))
  {
    if |plays| > 0 {
      GroupMembers(plays[1..], season, playType);
      var pairs := SeasonTypePairs(plays);
      var rest := SeasonTypePairs(plays[1..]);
      var p := plays[0];
      if p.season.Some? && p.playType.Some? {
        assert pairs == [(p.season.value, p.playType.value)] + rest;
        assert pairs[1..] == rest;
      } else {
        assert pairs == rest;
      }
    }
  }

  /** The seasons, one table row each, in order of first appearance. */
  function Seasons(pairs: seq<(int, string)>): seq<int>
  {
    Distinct(Keys(pairs))
  }

  /** The play types, one column each, in order of first appearance. */
  function PlayTypes(pairs: seq<(int, string)>): seq<string>
  {
    Distinct(Values(pairs))
  }

  /** Every play type of a season is one of the table's columns. */
  lemma MembersAreColumns(pairs: seq<(int, string)>, season: int)
    ensures forall k :: 0 <= k < |Members(pairs, season)| ==> Members(pairs, season)[k] in PlayTypes(pairs)
  {
    var members := Members(pairs, season);
    forall k | 0 <= k < |members|
      ensures members[k] in PlayTypes(pairs)
    {
      assert members[k] in members;
      MembersFromRows(pairs, season, members[k]);
      var i :| 0 <= i < |pairs| && pairs[i] == (season, members[k]);
      assert Values(pairs)[i] == members[k];
    }
  }

  /** One row of the unstacked count table: the season, the number of
      plays of each play type (0 where there were none), and the row total. */
  datatype CountRow = CountRow(season: int, counts: seq<(string, nat)>, total: int)

  /** A season's row with the total taken over the play-type counts only. */
  function SeasonCountRow(pairs: seq<(int, string)>, season: int): (row: CountRow)
    ensures row.season == season
    ensures |row.counts| == |PlayTypes(pairs)|
    ensures forall j :: 0 <= j < |row.counts| ==>
      row.counts[j] == (PlayTypes(pairs)[j], multiset(Members(pairs, season))[PlayTypes(pairs)[j]])
    ensures row.total == |Members(pairs, season)|
  {
    var types := PlayTypes(pairs);
    var members := Members(pairs, season);
    var counts := CountRows(types, members);
    MembersAreColumns(pairs, season);
    TotalCountRows(types, members);
    CountsOverCovering(types, members);
    CountRow(season, counts, TotalCount(counts))
  }

  /** `decisions['total'] = decisions.sum(axis=1)` as written: the sum runs
      after `reset_index()`, so the season column is summed with the
      counts. */
  function SeasonCountRowAsWritten(pairs: seq<(int, string)>, season: int): (row: CountRow)
    ensures row.season == season
    ensures row.total == season + |Members(pairs, season)|
  {
    var types := PlayTypes(pairs);
    var members := Members(pairs, season);
    MembersAreColumns(pairs, season);
    TotalCountRows(types, members);
    CountsOverCovering(types, members);
    var counts := CountRows(types, members);
    CountRow(season, counts, season + TotalCount(counts))
  }

  /** The count table, one row per season present. */
  function Decisions(fourth: seq<Play>): (rows: seq<CountRow>)
    ensures |rows| == |Seasons(SeasonTypePairs(fourth))|
    ensures forall i :: 0 <= i < |rows| ==>
      rows[i].season == Seasons(SeasonTypePairs(fourth))[i]
      && |rows[i].counts| == |PlayTypes(SeasonTypePairs(fourth))|
      && rows[i].total == |Members(SeasonTypePairs(fourth), rows[i].season)|
    ensures forall i, j :: 0 <= i < |rows| && 0 <= j < |rows[i].counts| ==>
      rows[i].counts[j].0 == PlayTypes(SeasonTypePairs(fourth))[j]
      && rows[i].counts[j].1 == multiset(Members(SeasonTypePairs(fourth), rows[i].season))[rows[i].counts[j].0]
    ensures forall i1, i2 :: 0 <= i1 < i2 < |rows| ==> rows[i1].season != rows[i2].season
  {
    var pairs := SeasonTypePairs(fourth);
    var seasons := Seasons(pairs);
    seq(|seasons|, i requires 0 <= i < |seasons| => SeasonCountRow(pairs, seasons[i]))
  }

  function DecisionsAsWritten(fourth: seq<Play>): (rows: seq<CountRow>)
    ensures |rows| == |Seasons(SeasonTypePairs(fourth))|
    ensures forall i :: 0 <= i < |rows| ==>
      rows[i].season == Seasons(SeasonTypePairs(fourth))[i]
      && rows[i].total == rows[i].season + |Members(SeasonTypePairs(fourth), rows[i].season)|
  {
    var pairs := SeasonTypePairs(fourth);
    var seasons := Seasons(pairs);
    seq(|seasons|, i requires 0 <= i < |seasons| => SeasonCountRowAsWritten(pairs, seasons[i]))
  }

  /** Each count cell is the number of plays of its season and play type,
      and each row total is the number of plays of its season. */
  lemma DecisionCounts(fourth: seq<Play>)
    ensures var rows := Decisions(fourth);
      && (forall i, j :: 0 <= i < |rows| && 0 <= j < |rows[i].counts| ==>
            rows[i].counts[j].1 == Count(fourth, InGroup(rows[i].season, rows[i].counts[j].0)))
      && (forall i :: 0 <= i < |rows| ==> rows[i].total == Count(fourth, InSeason(rows[i].season)))
  {
    var rows := Decisions(fourth);
    var pairs := SeasonTypePairs(fourth);
    forall i | 0 <= i < |rows|
      ensures forall j :: 0 <= j < |rows[i].counts| ==>
        rows[i].counts[j].1 == Count(fourth, InGroup(rows[i].season, rows[i].counts[j].0))
      ensures rows[i].total == Count(fourth, InSeason(rows[i].season))
    {
      var s := rows[i].season;
      assert rows[i] == SeasonCountRow(pairs, s);
      SeasonMembers(fourth, s);
      forall j | 0 <= j < |rows[i].counts|
        ensures rows[i].counts[j].1 == Count(fourth, InGroup(s, rows[i].counts[j].0))
      {
        GroupMembers(fourth, s, rows[i].counts[j].0);
      }
    }
  }

  /** With a single fourth-down play the as-written total is the season
      plus one, while the play count is one. */
  lemma TotalIncludesSeason(p: Play)
    requires p.down == Some(4) && p.season.Some? && p.playType.Some?
    ensures |Decisions(FourthDownPlays([p]))| == 1
    ensures DecisionsAsWritten(FourthDownPlays([p]))[0].total == p.season.value + 1
    ensures Decisions(FourthDownPlays([p]))[0].total == 1
  {
    SinglePlayPairs(p);
    SinglePairTable(p.season.value, p.playType.value);
  }

  /** A single fourth-down play with a season and a play type is one
      (season, play type) pair. */
  lemma SinglePlayPairs(p: Play)
    requires p.down == Some(4) && p.season.Some? && p.playType.Some?
    ensures SeasonTypePairs(FourthDownPlays([p])) == [(p.season.value, p.playType.value)]
  {
    assert [p][1..] == [];
    assert FourthDownPlays([p]) == [p];
  }

  /** A single pair makes one season holding one play type. */
  lemma SinglePairTable(season: int, playType: string)
    ensures Seasons([(season, playType)]) == [season]
    ensures Members([(season, playType)], season) == [playType]
  {
    var pairs := [(season, playType)];
    assert pairs[1..] == [];
    assert Keys(pairs) == [season];
    assert Keys(pairs)[..0] == [];
    assert Distinct(Keys(pairs)[..0]) == [];
  }

  /** One row of the unstacked success table. */
  datatype RateRow = RateRow(season: int, rates: seq<(string, Option<real>)>)

  /** The `success` entries of the plays of one (season, play type) group. */
  function GroupSuccess(plays: seq<Play>, season: int, playType: string): (vals: seq<Option<real>>)
    ensures |vals| == Count(plays, InGroup(season, playType))
  {
    if |plays| == 0 then []
    else
      var rest := GroupSuccess(plays[1..], season, playType);
      if InGroup(season, playType)(plays[0]) then [plays[0].success] + rest else rest
  }

  /** Every group entry is the success of some play. */
  lemma {:induction false} GroupSuccessFrom(plays: seq<Play>, season: int, playType: string)
    ensures forall v :: v in GroupSuccess(plays, season, playType) ==> exists k :: 0 <= k < |plays| && plays[k].success == v
  {
    if |plays| > 0 {
      GroupSuccessFrom(plays[1..], season, playType);
      assert forall k :: 1 <= k < |plays| ==> plays[k] == plays[1..][k - 1];
    }
  }

  /** A success cell: the mean of the group's non-null successes; NaN
      (`None`) when the group has plays but every success is null; 0 where
      the group does not exist (`unstack(fill_value=0)` fills only absent
      combinations). */
  function SuccessCell(fourth: seq<Play>, season: int, playType: string): (cell: Option<real>)
    ensures Count(fourth, InGroup(season, playType)) == 0 ==> cell == Some(0.0)
    ensures cell.None? <==>
      Count(fourth, InGroup(season, playType)) > 0
      && forall k :: 0 <= k < |GroupSuccess(fourth, season, playType)| ==> GroupSuccess(fourth, season, playType)[k].None?
    ensures Count(fourth, InGroup(season, playType)) > 0 && cell.Some? ==>
      cell.value * (|Present(GroupSuccess(fourth, season, playType))| as real) == Sum(Present(GroupSuccess(fourth, season, playType)))
  {
    var vals := GroupSuccess(fourth, season, playType);
    PresentFrom(vals);
    assert |vals| == Count(fourth, InGroup(season, playType));
    assert |Present(vals)| == 0 <==> forall k :: 0 <= k < |vals| ==> vals[k].None?;
    assert Mean(Present(vals)).None? <==> |Present(vals)| == 0;
    if |vals| == 0 then Some(0.0) else Mean(Present(vals))
  }

  function SeasonRateRow(fourth: seq<Play>, types: seq<string>, season: int): (row: RateRow)
    ensures row.season == season && |row.rates| == |types|
    ensures forall j :: 0 <= j < |types| ==> row.rates[j] == (types[j], SuccessCell(fourth, season, types[j]))
  {
    RateRow(season, seq(|types|, j requires 0 <= j < |types| => (types[j], SuccessCell(fourth, season, types[j]))))
  }

  /** The success table: same seasons and play types as the count table,
      each cell the group's success cell. */
  function SuccessRates(fourth: seq<Play>): (rows: seq<RateRow>)
    ensures |rows| == |Seasons(SeasonTypePairs(fourth))|
    ensures forall i :: 0 <= i < |rows| ==>
      rows[i].season == Seasons(SeasonTypePairs(fourth))[i]
      && |rows[i].rates| == |PlayTypes(SeasonTypePairs(fourth))|
    ensures forall i, j :: 0 <= i < |rows| && 0 <= j < |rows[i].rates| ==>
      rows[i].rates[j] == (PlayTypes(SeasonTypePairs(fourth))[j], SuccessCell(fourth, rows[i].season, PlayTypes(SeasonTypePairs(fourth))[j]))
    ensures forall i1, i2 :: 0 <= i1 < i2 < |rows| ==> rows[i1].season != rows[i2].season
  {
    var pairs := SeasonTypePairs(fourth);
    var seasons := Seasons(pairs);
    var types := PlayTypes(pairs);
    seq(|seasons|, i requires 0 <= i < |seasons| => SeasonRateRow(fourth, types, seasons[i]))
  }

  predicate UnitSuccess(v: Option<real>)
  {
    v.Some? ==> 0.0 <= v.value <= 1.0
  }

  /** When every success entry is null or lies in [0, 1], so does every
      success cell. */
  lemma SuccessCellBounds(fourth: seq<Play>, season: int, playType: string)
    requires forall k :: 0 <= k < |fourth| ==> UnitSuccess(fourth[k].success)
    ensures UnitSuccess(SuccessCell(fourth, season, playType))
  {
    var vals := GroupSuccess(fourth, season, playType);
    var present := Present(vals);
    if |vals| > 0 && |present| > 0 {
      GroupSuccessFrom(fourth, season, playType);
      PresentFrom(vals);
      forall k | 0 <= k < |present|
        ensures 0.0 <= present[k] <= 1.0
      {
        assert Some(present[k]) in vals;
        var i :| 0 <= i < |fourth| && fourth[i].success == Some(present[k]);
        assert UnitSuccess(fourth[i].success);
      }
      MeanBounds(present, 0.0, 1.0);
    }
  }

  /** A column label: `col.capitalize() + ' (%)'`. */
  function Label(name: string): string
  {
    Capitalize(name) + " (%)"
  }

  /** `['Season'] + [label of each remaining column]`. */
  function Labels(names: seq<string>): (labels: seq<string>)
    ensures |labels| == |names| + 1 && labels[0] == "Season"
    ensures forall k :: 0 <= k < |names| ==> labels[k + 1] == Label(names[k])
  {
    ["Season"] + seq(|names|, k requires 0 <= k < |names| => Label(names[k]))
  }

  /** Two names that differ only in ASCII letter case. */
  predicate SameIgnoringCase(a: string, b: string)
  {
    |a| == |b| && forall k :: 0 <= k < |a| ==> ToLower(a[k]) == ToLower(b[k])
  }

  lemma CaseFold(x: char, y: char)
    ensures ToUpper(x) == ToUpper(y) <==> ToLower(x) == ToLower(y)
  {
  }

  lemma SuffixCancel(a: string, b: string, suffix: string)
    requires a + suffix == b + suffix
    ensures a == b
  {
    assert |a| == |b|;
    assert a == (a + suffix)[..|a|];
    assert b == (b + suffix)[..|b|];
  }

  /** Two columns get the same label exactly when their names differ only
      in letter case. */
  lemma LabelsCollide(a: string, b: string)
    ensures Label(a) == Label(b) <==> SameIgnoringCase(a, b)
  {
    if Label(a) == Label(b) {
      SuffixCancel(Capitalize(a), Capitalize(b), " (%)");
      forall k | 0 <= k < |a|
        ensures ToLower(a[k]) == ToLower(b[k])
      {
        CaseFold(a[k], b[k]);
        if k == 0 {
          assert Capitalize(a)[0] == Capitalize(b)[0];
        } else {
          assert Capitalize(a)[k] == Capitalize(b)[k];
        }
      }
    }
    if SameIgnoringCase(a, b) {
      if |a| > 0 {
        CaseFold(a[0], b[0]);
      }
      assert Capitalize(a) == Capitalize(b);
    }
  }

  /** Both tables with their labels. */
  datatype Report = Report(
    decisionColumns: seq<string>,
    decisions: seq<CountRow>,
    successColumns: seq<string>,
    successRates: seq<RateRow>)

  /** `analyze_fourth_down_decisions`: both tables have one row per
      season, in the same order, and the count table's columns are the
      success table's plus the total. Each count cell is the number of
      fourth-down plays of its season and play type, and each total the
      number of fourth-down plays of its season (the corrected total). */
  function AnalyzeFourthDownDecisions(plays: seq<Play>): (r: Report)
    ensures |r.decisions| == |r.successRates|
    ensures forall i :: 0 <= i < |r.decisions| ==> r.decisions[i].season == r.successRates[i].season
    ensures |r.decisionColumns| == |r.successColumns| + 1
    ensures forall i :: 0 <= i < |r.decisions| ==>
      |r.decisionColumns| == |r.decisions[i].counts| + 2 && |r.successColumns| == |r.successRates[i].rates| + 1
    ensures forall i, j :: 0 <= i < |r.decisions| && 0 <= j < |r.decisions[i].counts| ==>
      r.decisions[i].counts[j].1 == Count(plays, And(OnFourthDown, InGroup(r.decisions[i].season, r.decisions[i].counts[j].0)))
    ensures forall i :: 0 <= i < |r.decisions| ==>
      r.decisions[i].total == Count(plays, And(OnFourthDown, InSeason(r.decisions[i].season)))
    ensures forall i :: 0 <= i < |r.decisions| ==> |r.successRates[i].rates| == |r.decisions[i].counts|
    ensures forall i, j :: 0 <= i < |r.successRates| && 0 <= j < |r.successRates[i].rates| ==>
      r.successRates[i].rates[j]
        == (r.decisions[i].counts[j].0, SuccessCell(FourthDownPlays(plays), r.decisions[i].season, r.decisions[i].counts[j].0))
    ensures forall i1, i2 :: 0 <= i1 < i2 < |r.decisions| ==> r.decisions[i1].season != r.decisions[i2].season
    ensures forall i, j1, j2 :: 0 <= i < |r.decisions| && 0 <= j1 < j2 < |r.decisions[i].counts| ==>
      r.decisions[i].counts[j1].0 != r.decisions[i].counts[j2].0
  {
    var fourth := FourthDownPlays(plays);
    DecisionsCountPlays(plays);
    TablesAgree(fourth);
    var types := PlayTypes(SeasonTypePairs(fourth));
    Report(Labels(types + ["total"]), Decisions(fourth), Labels(types), SuccessRates(fourth))
  }

  /** The two tables share their rows and columns: the success cell at
      each position is the one of the count cell's season and play type,
      and no play type is a column twice. */
  lemma TablesAgree(fourth: seq<Play>)
    ensures var counts := Decisions(fourth);
      var rates := SuccessRates(fourth);
      && |rates| == |counts|
      && (forall i :: 0 <= i < |counts| ==> rates[i].season == counts[i].season && |rates[i].rates| == |counts[i].counts|)
      && (forall i, j :: 0 <= i < |rates| && 0 <= j < |rates[i].rates| ==>
            rates[i].rates[j] == (counts[i].counts[j].0, SuccessCell(fourth, counts[i].season, counts[i].counts[j].0)))
      && (forall i, j1, j2 :: 0 <= i < |counts| && 0 <= j1 < j2 < |counts[i].counts| ==>
            counts[i].counts[j1].0 != counts[i].counts[j2].0)
  {
    var types := PlayTypes(SeasonTypePairs(fourth));
    var counts := Decisions(fourth);
    var rates := SuccessRates(fourth);
    forall i, j | 0 <= i < |rates| && 0 <= j < |rates[i].rates|
      ensures rates[i].rates[j] == (counts[i].counts[j].0, SuccessCell(fourth, counts[i].season, counts[i].counts[j].0))
    {
      assert counts[i].counts[j].0 == types[j];
    }
    forall i, j1, j2 | 0 <= i < |counts| && 0 <= j1 < j2 < |counts[i].counts|
      ensures counts[i].counts[j1].0 != counts[i].counts[j2].0
    {
      assert counts[i].counts[j1].0 == types[j1] && counts[i].counts[j2].0 == types[j2];
    }
  }

  /** The count table of the fourth-down plays counts, in each cell, the
      plays on fourth down of its season and play type, and in each total
      the plays on fourth down of its season. */
  lemma DecisionsCountPlays(plays: seq<Play>)
    ensures var rows := Decisions(FourthDownPlays(plays));
      && (forall i, j :: 0 <= i < |rows| && 0 <= j < |rows[i].counts| ==>
            rows[i].counts[j].1 == Count(plays, And(OnFourthDown, InGroup(rows[i].season, rows[i].counts[j].0))))
      && (forall i :: 0 <= i < |rows| ==> rows[i].total == Count(plays, And(OnFourthDown, InSeason(rows[i].season))))
  {
    DecisionCounts(FourthDownPlays(plays));
    FourthDownCounts(plays);
  }

  /** Counting among the fourth-down plays is counting the plays on fourth
      down that also belong to the season or group. */
  lemma FourthDownCounts(plays: seq<Play>)
    ensures forall season, playType ::
      Count(FourthDownPlays(plays), InGroup(season, playType)) == Count(plays, And(OnFourthDown, InGroup(season, playType)))
    ensures forall season ::
      Count(FourthDownPlays(plays), InSeason(season)) == Count(plays, And(OnFourthDown, InSeason(season)))
  {
    forall season, playType
      ensures Count(FourthDownPlays(plays), InGroup(season, playType))
        == Count(plays, And(OnFourthDown, InGroup(season, playType)))
    {
      CountFiltered(plays, OnFourthDown, InGroup(season, playType));
    }
    forall season
      ensures Count(FourthDownPlays(plays), InSeason(season)) == Count(plays, And(OnFourthDown, InSeason(season)))
    {
      CountFiltered(plays, OnFourthDown, InSeason(season));
    }
  }

  /** Every success column is labelled after its play type, and the last
      count column is the total. */
  lemma ReportLabels(plays: seq<Play>)
    ensures var r := AnalyzeFourthDownDecisions(plays);
      && r.decisionColumns[0] == "Season" && r.successColumns[0] == "Season"
      && r.decisionColumns[|r.decisionColumns| - 1] == Label("total")
      && forall i, j :: 0 <= i < |r.successRates| && 0 <= j < |r.successRates[i].rates| ==>
        r.successColumns[j + 1] == Label(r.successRates[i].rates[j].0)
        && r.decisionColumns[j + 1] == Label(r.decisions[i].counts[j].0)
  {
    var fourth := FourthDownPlays(plays);
    var pairs := SeasonTypePairs(fourth);
    var types := PlayTypes(pairs);
    var r := AnalyzeFourthDownDecisions(plays);
    var names := types + ["total"];
    assert names[|names| - 1] == "total";
    forall i, j | 0 <= i < |r.successRates| && 0 <= j < |r.successRates[i].rates|
      ensures r.successColumns[j + 1] == Label(r.successRates[i].rates[j].0)
      ensures r.decisionColumns[j + 1] == Label(r.decisions[i].counts[j].0)
    {
      var season := Seasons(pairs)[i];
      assert r.successRates[i] == SeasonRateRow(fourth, types, season);
      assert r.decisions[i] == SeasonCountRow(pairs, season);
      assert names[j] == types[j];
    }
  }

  /** Every play with a season and a play type gives its group row. */
  lemma {:induction false} PairOfPlay(plays: seq<Play>, k: int)
    requires 0 <= k < |plays| && plays[k].season.Some? && plays[k].playType.Some?
    ensures (plays[k].season.value, plays[k].playType.value) in SeasonTypePairs(plays)
  {
    var p := plays[0];
    var rest := SeasonTypePairs(plays[1..]);
    var head := if p.season.Some? && p.playType.Some? then [(p.season.value, p.playType.value)] else [];
    assert SeasonTypePairs(plays) == head + rest;
    if k > 0 {
      assert plays[k] == plays[1..][k - 1];
      PairOfPlay(plays[1..], k - 1);
    }
  }

  /** Every fourth-down play with a season and a play type has its
      season's row in the report and, in it, its play type's column. */
  lemma DecisionsCover(plays: seq<Play>, k: int)
    requires 0 <= k < |plays| && OnFourthDown(plays[k])
    requires plays[k].season.Some? && plays[k].playType.Some?
    ensures var r := AnalyzeFourthDownDecisions(plays);
      exists i, j :: 0 <= i < |r.decisions| && 0 <= j < |r.decisions[i].counts|
        && r.decisions[i].season == plays[k].season.value && r.decisions[i].counts[j].0 == plays[k].playType.value
  {
    var i, j := CoveringCell(plays, k);
  }

  lemma CoveringCell(plays: seq<Play>, k: int) returns (i: int, j: int)
    requires 0 <= k < |plays| && OnFourthDown(plays[k])
    requires plays[k].season.Some? && plays[k].playType.Some?
    ensures var r := AnalyzeFourthDownDecisions(plays);
      && 0 <= i < |r.decisions| && 0 <= j < |r.decisions[i].counts|
      && r.decisions[i].season == plays[k].season.value && r.decisions[i].counts[j].0 == plays[k].playType.value
  {
    var fourth := FourthDownPlays(plays);
    var pairs := SeasonTypePairs(fourth);
    var s, t := plays[k].season.value, plays[k].playType.value;
    var m :| 0 <= m < |fourth| && fourth[m] == plays[k];
    PairOfPlay(fourth, m);
    var n :| 0 <= n < |pairs| && pairs[n] == (s, t);
    assert Keys(pairs)[n] == s && Values(pairs)[n] == t;
    i :| 0 <= i < |Seasons(pairs)| && Seasons(pairs)[i] == s;
    j :| 0 <= j < |PlayTypes(pairs)| && PlayTypes(pairs)[j] == t;
    var rows := Decisions(fourth);
    assert rows[i].season == s && rows[i].counts[j].0 == t;
  }

  /** Plays that are not on fourth down change nothing. */
  lemma OtherDownsIgnored(plays: seq<Play>, other: Play)
    requires !OnFourthDown(other)
    ensures AnalyzeFourthDownDecisions(plays + [other]) == AnalyzeFourthDownDecisions(plays)
  {
    FilterAppendRejected(plays, OnFourthDown, other);
  }
}

=== FILE: grouping.dfy ===
/** Grouped counting as pandas does it for `value_counts()` and
    `groupby(...)[col].value_counts()`: keys and values are taken in order of first
    appearance, a row with a null key or value is not counted, and the
    normalised counts of a group are its shares. */
module Grouping {
  import opened Common

  /** The key of every (key, value) row. */
  function Keys<K, V>(pairs: seq<(K, V)>): (ks: seq<K>)
    ensures |ks| == |pairs|
    ensures forall k :: 0 <= k < |pairs| ==> ks[k] == pairs[k].0
  {
    seq(|pairs|, k requires 0 <= k < |pairs| => pairs[k].0)
  }

  /** The value of every (key, value) row. */
  function Values<K, V>(pairs: seq<(K, V)>): (vs: seq<V>)
    ensures |vs| == |pairs|
    ensures forall k :: 0 <= k < |pairs| ==> vs[k] == pairs[k].1
  {
    seq(|pairs|, k requires 0 <= k < |pairs| => pairs[k].1)
  }

  /** The values of the rows whose key is `key`, in row order. */
  function Members<K(==), V>(pairs: seq<(K, V)>, key: K): (vs: seq<V>)
    ensures |vs| <= |pairs|
    ensures key in Keys(pairs) ==> |vs| > 0
    ensures forall j :: 0 <= j < |pairs| && pairs[j].0 == key ==> pairs[j].1 in vs
  {
    if |pairs| == 0 then []
    else
      var rest := Members(pairs[1..], key);
      assert forall j :: 1 <= j < |pairs| ==> pairs[j] == pairs[1..][j - 1];
      assert key in Keys(pairs) && key != pairs[0].0 ==> key in Keys(pairs[1..]) by {
        if key in Keys(pairs) && key != pairs[0].0 {
          var j :| 0 <= j < |pairs| && Keys(pairs)[j] == key;
          assert Keys(pairs[1..])[j - 1] == key;
        }
      }
      (if pairs[0].0 == key then [pairs[0].1] else []) + rest
  }

  /** The members of a group, when one row is put in front of the others. */
  lemma MembersCons<K, V>(h: (K, V), rest: seq<(K, V)>, key: K)
    ensures Members([h] + rest, key) == (if h.0 == key then [h.1] else []) + Members(rest, key)
  {
    assert ([h] + rest)[1..] == rest;
  }

  /** Every member of a group comes from a row with that key. */
  lemma {:induction false} MembersFromRows<K, V>(pairs: seq<(K, V)>, key: K, v: V)
    requires v in Members(pairs, key)
    ensures (key, v) in pairs
  {
    if pairs[0].0 == key && v == pairs[0].1 {
    } else {
      MembersFromRows(pairs[1..], key, v);
    }
  }

  /** Occurrences of each listed value, built up from the end of the list. */
  function CountRows<V(==)>(keys: seq<V>, vals: seq<V>): (rows: seq<(V, nat)>)
    ensures |rows| == |keys|
    ensures forall k :: 0 <= k < |keys| ==> rows[k] == (keys[k], multiset(vals)[keys[k]])
  {
    if |keys| == 0 then []
    else CountRows(keys[..|keys| - 1], vals) + [(keys[|keys| - 1], multiset(vals)[keys[|keys| - 1]])]
  }

  function TotalCount<V>(rows: seq<(V, nat)>): nat
  {
    if |rows| == 0 then 0 else TotalCount(rows[..|rows| - 1]) + rows[|rows| - 1].1
  }

  /** `value_counts()`: every distinct value with its number of occurrences,
      in order of first appearance. */
  function ValueCounts<V(==)>(vals: seq<V>): (counts: seq<(V, nat)>)
    ensures |counts| == |Distinct(vals)|
    ensures forall k :: 0 <= k < |counts| ==> counts[k] == (Distinct(vals)[k], multiset(vals)[Distinct(vals)[k]])
  {
    CountRows(Distinct(vals), vals)
  }

  lemma {:induction false} TotalCountRows<V>(keys: seq<V>, vals: seq<V>)
    ensures TotalCount(CountRows(keys, vals)) == CountsOver(keys, vals)
  {
    if |keys| > 0 {
      var init := keys[..|keys| - 1];
      TotalCountRows(init, vals);
      var rows := CountRows(keys, vals);
      assert rows[..|rows| - 1] == CountRows(init, vals);
    }
  }

  /** The counts of a value list add up to its length. */
  lemma ValueCountsTotal<V>(vals: seq<V>)
    ensures TotalCount(ValueCounts(vals)) == |vals|
  {
    TotalCountRows(Distinct(vals), vals);
    CountsOverCovering(Distinct(vals), vals);
  }

  /** Shares of each listed value among the rows of `vals`, built from the
      end of the list. */
  function ShareRows<V(==)>(keys: seq<V>, vals: seq<V>): (rows: seq<(V, real)>)
    requires |vals| > 0
    ensures |rows| == |keys|
    ensures forall k :: 0 <= k < |keys| ==>
      rows[k] == (keys[k], multiset(vals)[keys[k]] as real / |vals| as real)
  {
    if |keys| == 0 then []
    else
      var last := keys[|keys| - 1];
      ShareRows(keys[..|keys| - 1], vals) + [(last, multiset(vals)[last] as real / |vals| as real)]
  }

  function TotalShare<V>(rows: seq<(V, real)>): real
  {
    if |rows| == 0 then 0.0 else TotalShare(rows[..|rows| - 1]) + rows[|rows| - 1].1
  }

  lemma AddFractions(a: real, b: real, n: real)
    requires n > 0.0
    ensures a / n + b / n == (a + b) / n
  {
  }

  lemma {:induction false} TotalShareRows<V>(keys: seq<V>, vals: seq<V>)
    requires |vals| > 0
    ensures TotalShare(ShareRows(keys, vals)) == CountsOver(keys, vals) as real / |vals| as real
  {
    if |keys| > 0 {
      var init := keys[..|keys| - 1];
      TotalShareRows(init, vals);
      var rows := ShareRows(keys, vals);
      var front := ShareRows(init, vals);
      assert rows[..|rows| - 1] == front;
      var n := |vals| as real;
      var c := multiset(vals)[keys[|keys| - 1]];
      assert TotalShare(rows) == TotalShare(front) + c as real / n;
      AddFractions(CountsOver(init, vals) as real, c as real, n);
    }
  }

  /** A value that occurs has a share in (0, 1]. */
  lemma ShareBounds<V>(vals: seq<V>, x: V)
    requires x in vals
    ensures 0.0 < multiset(vals)[x] as real / |vals| as real <= 1.0
  {
    assert multiset(vals)[x] <= |multiset(vals)|;
  }

  /** `value_counts(normalize=True)`: each distinct value with its share of
      the rows. The shares are positive and add up to 1. */
  function Normalize<V(==)>(vals: seq<V>): (shares: seq<(V, real)>)
    ensures |shares| == |Distinct(vals)|
    ensures forall k :: 0 <= k < |shares| ==>
      shares[k] == (Distinct(vals)[k], multiset(vals)[Distinct(vals)[k]] as real / |vals| as real)
    ensures forall k :: 0 <= k < |shares| ==> 0.0 < shares[k].1 <= 1.0
    ensures |vals| > 0 ==> TotalShare(shares) == 1.0
  {
    if |vals| == 0 then [] else
    var d := Distinct(vals);
    var shares := ShareRows(d, vals);
    forall k | 0 <= k < |shares|
      ensures 0.0 < shares[k].1 <= 1.0
    {
      assert d[k] in d;
      ShareBounds(vals, d[k]);
    }
    SharesAddUp(vals);
    shares
  }

  lemma SharesAddUp<V>(vals: seq<V>)
    requires |vals| > 0
    ensures TotalShare(ShareRows(Distinct(vals), vals)) == 1.0
  {
    var d := Distinct(vals);
    TotalShareRows(d, vals);
    CountsOverCovering(d, vals);
    var n := |vals| as real;
    var c := CountsOver(d, vals) as real;
    assert c == n;
    DivideSelf(c, n);
  }

  lemma DivideSelf(c: real, n: real)
    requires n > 0.0 && c == n
    ensures c / n == 1.0
  {
  }

  /** `groupby(key)[col].value_counts(normalize=True)`: for each key in
      order of first appearance, once, the normalized value counts of the
      key's rows. */
  function GroupShares<K(==), V(==)>(pairs: seq<(K, V)>): (table: seq<(K, seq<(V, real)>)>)
    ensures |table| == |Distinct(Keys(pairs))|
    ensures forall k :: 0 <= k < |table| ==> table[k].0 == Distinct(Keys(pairs))[k]
    ensures forall k1, k2 :: 0 <= k1 < k2 < |table| ==> table[k1].0 != table[k2].0
    ensures forall k :: 0 <= k < |table| ==> table[k].1 == Normalize(Members(pairs, table[k].0))
  {
    ShareTable(pairs, Distinct(Keys(pairs)))
  }

  /** The normalized value counts of the given keys' rows, key by key. */
  function ShareTable<K(==), V(==)>(pairs: seq<(K, V)>, keys: seq<K>): (table: seq<(K, seq<(V, real)>)>)
    ensures |table| == |keys|
    ensures forall k :: 0 <= k < |table| ==> table[k].0 == keys[k] && table[k].1 == Normalize(Members(pairs, keys[k]))
  {
    if |keys| == 0 then []
    else [(keys[0], Normalize(Members(pairs, keys[0])))] + ShareTable(pairs, keys[1..])
  }

  /** Every key of the rows has at least one row. */
  lemma GroupsHaveRows<K, V>(pairs: seq<(K, V)>)
    ensures forall k :: 0 <= k < |Distinct(Keys(pairs))| ==> |Members(pairs, Distinct(Keys(pairs))[k])| > 0
  {
    var keys := Distinct(Keys(pairs));
    forall k | 0 <= k < |keys|
      ensures |Members(pairs, keys[k])| > 0
    {
      assert keys[k] in keys;
    }
  }

  /** Within every group the shares add up to 1 and each lies in (0, 1]. */
  lemma GroupSharesAddUp<K, V>(pairs: seq<(K, V)>)
    ensures forall k :: 0 <= k < |GroupShares(pairs)| ==> TotalShare(GroupShares(pairs)[k].1) == 1.0
    ensures forall k, j :: 0 <= k < |GroupShares(pairs)| && 0 <= j < |GroupShares(pairs)[k].1| ==>
      0.0 < GroupShares(pairs)[k].1[j].1 <= 1.0
  {
    var table := GroupShares(pairs);
    forall k | 0 <= k < |table|
      ensures TotalShare(table[k].1) == 1.0
      ensures forall j :: 0 <= j < |table[k].1| ==> 0.0 < table[k].1[j].1 <= 1.0
    {
      var members := Members(pairs, table[k].0);
      assert table[k] == (Distinct(Keys(pairs))[k], Normalize(members));
    }
  }

  /** Each share in a group is the number of the group's rows with that
      value over the group's size. */
  lemma GroupShareEntry<K, V>(pairs: seq<(K, V)>, k: int, j: int)
    requires 0 <= k < |GroupShares(pairs)| && 0 <= j < |GroupShares(pairs)[k].1|
    ensures var e := GroupShares(pairs)[k];
      var members := Members(pairs, e.0);
      && multiset(members)[e.1[j].0] > 0
      && e.1[j].1 == multiset(members)[e.1[j].0] as real / |members| as real
  {
    var table := GroupShares(pairs);
    var members := Members(pairs, table[k].0);
    assert table[k].1 == Normalize(members);
    assert Distinct(members)[j] in Distinct(members);
  }

  /** Every (key, value) row gives its key a group, and the value a share
      within it. */
  lemma GroupSharesCover<K, V>(pairs: seq<(K, V)>, key: K, v: V)
    requires (key, v) in pairs
    ensures var table := GroupShares(pairs);
      exists k, j :: 0 <= k < |table| && 0 <= j < |table[k].1| && table[k].0 == key && table[k].1[j].0 == v
  {
    var k := GroupOfKey(pairs, key, v);
    var j := ShareInGroup(pairs, k, v);
  }

  /** The group of a key that some row has. */
  lemma GroupOfKey<K, V>(pairs: seq<(K, V)>, key: K, v: V) returns (k: int)
    requires (key, v) in pairs
    ensures 0 <= k < |GroupShares(pairs)| && GroupShares(pairs)[k].0 == key
    ensures v in Members(pairs, key)
  {
    var i :| 0 <= i < |pairs| && pairs[i] == (key, v);
    assert Keys(pairs)[i] == key;
    var keys := Distinct(Keys(pairs));
    k :| 0 <= k < |keys| && keys[k] == key;
  }

  /** The share of a value within its group. */
  lemma ShareInGroup<K, V>(pairs: seq<(K, V)>, k: int, v: V) returns (j: int)
    requires 0 <= k < |GroupShares(pairs)| && v in Members(pairs, GroupShares(pairs)[k].0)
    ensures 0 <= j < |GroupShares(pairs)[k].1| && GroupShares(pairs)[k].1[j].0 == v
  {
    var members := Members(pairs, GroupShares(pairs)[k].0);
    assert GroupShares(pairs)[k].1 == Normalize(members);
    var d := Distinct(members);
    var m :| 0 <= m < |members| && members[m] == v;
    j :| 0 <= j < |d| && d[j] == v;
  }
}

=== FILE: next_gen_data.dfy ===
/** Chart-to-field digitisation: cleaning a downloaded route chart into a
    mirrored directory tree, turning the skeleton pixels of its three route
    colours into field coordinates (with touchdown markers removed from the
    COMPLETE routes), and tagging every route point with its chart's
    metadata. Reading and writing image files, colour masking and
    skeletonisation are oracles: an image is a grid of abstract pixels, and
    the skeleton pixels of a cleaned chart are looked up by its path. */
module NextGenData {
  import opened Common
  import opened Text
  import opened FieldGeometry
  import opened TouchdownSearch

  datatype RouteType = Complete | Yac | Incomplete

  /** The `route_type` text written for each kind of route. */
  function RouteLabel(t: RouteType): string
  {
    match t
    case Complete => "COMPLETE"
    case Yac => "YAC"
    case Incomplete => "INCOMPLETE"
  }

  datatype RouteRow = RouteRow(routeType: RouteType, x: real, y: real)

  /** What the image processing yields for one cleaned chart: the image
      width and the skeleton pixels of the three colour masks. */
  datatype ChartTraces = ChartTraces(width: int, complete: seq<Pixel>, yac: seq<Pixel>, incomplete: seq<Pixel>)

  datatype RouteError =
    | DegenerateScale         // width 80: a zero horizontal scale
    | Touchdown(e: TdError)   // the touchdown removal raised

  function Tag(t: RouteType, cloud: seq<FieldPoint>): (rows: seq<RouteRow>)
    ensures |rows| == |cloud|
    ensures forall k :: 0 <= k < |cloud| ==> rows[k] == RouteRow(t, cloud[k].x, cloud[k].y)
  {
    seq(|cloud|, k requires 0 <= k < |cloud| => RouteRow(t, cloud[k].x, cloud[k].y))
  }

  function PointOf(row: RouteRow): FieldPoint
  {
    FieldPoint(row.x, row.y)
  }

  /** The field points of a block of rows, in order. */
  function Points(rows: seq<RouteRow>): (ps: seq<FieldPoint>)
    ensures |ps| == |rows|
    ensures forall k :: 0 <= k < |rows| ==> ps[k] == PointOf(rows[k])
  {
    seq(|rows|, k requires 0 <= k < |rows| => PointOf(rows[k]))
  }

  /** `rows` is a block of COMPLETE rows, the `complete` points with some
      deleted and the rest in their original order, then one YAC row per
      `yac` point and one INCOMPLETE row per `inc` point, in order. */
  ghost predicate RouteBlocks(rows: seq<RouteRow>, complete: seq<FieldPoint>, yac: seq<FieldPoint>, inc: seq<FieldPoint>)
  {
    var nc := |rows| - |yac| - |inc|;
    && 0 <= nc <= |complete|
    && (forall k :: 0 <= k < nc ==> rows[k].routeType == Complete && PointOf(rows[k]) in complete)
    && IsSubsequence(Points(rows[..nc]), complete)
    && (forall m :: 0 <= m < |yac| ==> rows[nc + m] == RouteRow(Yac, yac[m].x, yac[m].y))
    && (forall m :: 0 <= m < |inc| ==> rows[nc + |yac| + m] == RouteRow(Incomplete, inc[m].x, inc[m].y))
  }

  /** The number of COMPLETE rows among `rows`. */
  function CompleteCount(rows: seq<RouteRow>, traces: ChartTraces): int
  {
    |rows| - |traces.yac| - |traces.incomplete|
  }

  /** `rows` is what the route mapping makes of `traces`: the blocks of
      `RouteBlocks` over the field positions of the three skeletons. */
  ghost predicate RowsFromTraces(rows: seq<RouteRow>, traces: ChartTraces)
    requires ScalableWidth(traces.width)
  {
    RouteBlocks(rows, CloudToField(traces.complete, traces.width), CloudToField(traces.yac, traces.width),
                CloudToField(traces.incomplete, traces.width))
  }

  /** The YAC and INCOMPLETE rows of such a table are drawn back exactly
      onto their skeleton pixels, in pixel order. */
  lemma TraceRowsDrawBack(rows: seq<RouteRow>, traces: ChartTraces)
    requires ScalableWidth(traces.width) && RowsFromTraces(rows, traces)
    ensures forall m :: 0 <= m < |traces.yac| ==>
      ToPixel(PointOf(rows[CompleteCount(rows, traces) + m]), traces.width)
      == (traces.yac[m].row as real, traces.yac[m].col as real)
    ensures forall m :: 0 <= m < |traces.incomplete| ==>
      ToPixel(PointOf(rows[CompleteCount(rows, traces) + |traces.yac| + m]), traces.width)
      == (traces.incomplete[m].row as real, traces.incomplete[m].col as real)
  {
    var nc := CompleteCount(rows, traces);
    var yac := CloudToField(traces.yac, traces.width);
    var inc := CloudToField(traces.incomplete, traces.width);
    forall m | 0 <= m < |traces.yac|
      ensures ToPixel(PointOf(rows[nc + m]), traces.width) == (traces.yac[m].row as real, traces.yac[m].col as real)
    {
      assert PointOf(rows[nc + m]) == yac[m];
    }
    forall m | 0 <= m < |traces.incomplete|
      ensures ToPixel(PointOf(rows[nc + |traces.yac| + m]), traces.width)
              == (traces.incomplete[m].row as real, traces.incomplete[m].col as real)
    {
      assert PointOf(rows[nc + |traces.yac| + m]) == inc[m];
    }
  }

  /** The route points of one chart: COMPLETE rows (after touchdown
      removal), then YAC rows, then INCOMPLETE rows, all converted with the
      layout chosen by the chart's width. */
  function MapRouteLocations(traces: ChartTraces, td: int, template: seq<FieldPoint>,
                             dist: (FieldPoint, FieldPoint) -> real,
                             assign: (seq<FieldPoint>, seq<FieldPoint>) -> seq<nat>): (r: Result<seq<RouteRow>, RouteError>)
    ensures !ScalableWidth(traces.width) ==> r == Err(DegenerateScale)
    ensures ScalableWidth(traces.width) && r.Err? ==> td > 0
    ensures r.Ok? ==> ScalableWidth(traces.width) && RowsFromTraces(r.value, traces)
    ensures ScalableWidth(traces.width) && td <= 0 ==>
      && r.Ok?
      && |r.value| == |traces.complete| + |traces.yac| + |traces.incomplete|
      && forall k :: 0 <= k < |traces.complete| ==>
           ToPixel(PointOf(r.value[k]), traces.width) == (traces.complete[k].row as real, traces.complete[k].col as real)
  {
    if !ScalableWidth(traces.width) then Err(DegenerateScale)
    else
      var w := traces.width;
      var complete := CloudToField(traces.complete, w);
      match RemoveTouchdowns(complete, td, template, dist, assign)
      case Err(e) => Err(Touchdown(e))
      case Ok(cleaned) =>
        var rows := Assemble(cleaned, CloudToField(traces.yac, w), CloudToField(traces.incomplete, w));
        AssembledRowsFromTraces(traces, cleaned);
        Ok(rows)
  }

  /** The converted COMPLETE points with some deleted, followed by the
      converted YAC and INCOMPLETE skeletons, is what the mapping promises. */
  lemma AssembledRowsFromTraces(traces: ChartTraces, cleaned: seq<FieldPoint>)
    requires ScalableWidth(traces.width)
    requires IsSubsequence(cleaned, CloudToField(traces.complete, traces.width))
    ensures RowsFromTraces(Assemble(cleaned, CloudToField(traces.yac, traces.width),
                                    CloudToField(traces.incomplete, traces.width)), traces)
  {
    var w := traces.width;
    AssembledBlocks(cleaned, CloudToField(traces.complete, w), CloudToField(traces.yac, w),
                    CloudToField(traces.incomplete, w));
  }

  /** Tagging a subsequence of `complete`, then `yac` and `inc`, lays out
      the three blocks. */
  lemma AssembledBlocks(cleaned: seq<FieldPoint>, complete: seq<FieldPoint>, yac: seq<FieldPoint>, inc: seq<FieldPoint>)
    requires IsSubsequence(cleaned, complete)
    ensures RouteBlocks(Assemble(cleaned, yac, inc), complete, yac, inc)
  {
    AssembleLayout(cleaned, yac, inc);
    BlocksFromLayout(Assemble(cleaned, yac, inc), cleaned, complete, yac, inc);
  }

  /** Rows laid out as `cleaned`, `yac`, `inc` form the blocks of
      `RouteBlocks` whenever `cleaned` is a subsequence of `complete`. */
  lemma BlocksFromLayout(rows: seq<RouteRow>, cleaned: seq<FieldPoint>, complete: seq<FieldPoint>,
                         yac: seq<FieldPoint>, inc: seq<FieldPoint>)
    requires IsSubsequence(cleaned, complete)
    requires |rows| == |cleaned| + |yac| + |inc|
    requires forall k :: 0 <= k < |cleaned| ==> rows[k] == RouteRow(Complete, cleaned[k].x, cleaned[k].y)
    requires forall m :: 0 <= m < |yac| ==> rows[|cleaned| + m] == RouteRow(Yac, yac[m].x, yac[m].y)
    requires forall m :: 0 <= m < |inc| ==> rows[|cleaned| + |yac| + m] == RouteRow(Incomplete, inc[m].x, inc[m].y)
    ensures RouteBlocks(rows, complete, yac, inc)
  {
    SubsequenceLength(cleaned, complete);
    SubsequenceMembers(cleaned, complete);
    assert Points(rows[..|cleaned|]) == cleaned;
    forall k | 0 <= k < |cleaned|
      ensures rows[k].routeType == Complete && PointOf(rows[k]) in complete
    {
      assert cleaned[k] in cleaned;
    }
  }

  function Assemble(complete: seq<FieldPoint>, yac: seq<FieldPoint>, inc: seq<FieldPoint>): seq<RouteRow>
  {
    Tag(Complete, complete) + Tag(Yac, yac) + Tag(Incomplete, inc)
  }

  /** Where each block of `Assemble` sits in the combined table. */
  lemma AssembleLayout(complete: seq<FieldPoint>, yac: seq<FieldPoint>, inc: seq<FieldPoint>)
    ensures |Assemble(complete, yac, inc)| == |complete| + |yac| + |inc|
    ensures forall k :: 0 <= k < |complete| ==>
      Assemble(complete, yac, inc)[k] == RouteRow(Complete, complete[k].x, complete[k].y)
    ensures forall m :: 0 <= m < |yac| ==>
      Assemble(complete, yac, inc)[|complete| + m] == RouteRow(Yac, yac[m].x, yac[m].y)
    ensures forall m :: 0 <= m < |inc| ==>
      Assemble(complete, yac, inc)[|complete| + |yac| + m] == RouteRow(Incomplete, inc[m].x, inc[m].y)
  {
    var a := Tag(Complete, complete);
    var b := Tag(Yac, yac);
    var c := Tag(Incomplete, inc);
    var rows := a + b + c;
    assert rows == Assemble(complete, yac, inc);
    forall k | 0 <= k < |complete|
      ensures rows[k] == RouteRow(Complete, complete[k].x, complete[k].y)
    {
      assert rows[k] == a[k];
    }
    forall m | 0 <= m < |yac|
      ensures rows[|complete| + m] == RouteRow(Yac, yac[m].x, yac[m].y)
    {
      assert rows[|complete| + m] == b[m];
    }
    forall m | 0 <= m < |inc|
      ensures rows[|complete| + |yac| + m] == RouteRow(Incomplete, inc[m].x, inc[m].y)
    {
      assert rows[|complete| + |yac| + m] == c[m];
    }
  }

  /** Chart images are processed only at this size (rows and columns). */
  const CanonicalSize: nat := 1200
  /** Rows kept by the crop. */
  const CropRows: nat := 680

  /** A raw or cleaned image as a grid of pixels, row by row. */
  type Image<P> = seq<seq<P>>

  /** `img.shape[0:2] == (1200, 1200)`. */
  predicate CanonicalShape<P>(img: Image<P>)
  {
    |img| == CanonicalSize && forall r :: 0 <= r < |img| ==> |img[r]| == CanonicalSize
  }

  /** `img[0:680, 0:1200]`. */
  function Crop<P>(img: Image<P>): (c: Image<P>)
    requires CanonicalShape(img)
    ensures |c| == CropRows
    ensures forall r :: 0 <= r < CropRows ==> c[r] == img[r]
  {
    seq(CropRows, r requires 0 <= r < CropRows => img[r][..CanonicalSize])
  }

  /** The effect of `clean_chart_image`: a wrongly sized image is skipped;
      otherwise the mirrored directory is created and, when the field
      cleaner returns an image, that image is written there. */
  datatype CleanOutcome<P> =
    | WrongSize
    | Cleaned(dir: string, written: Option<(string, Image<P>)>)

  /** `os.path.basename(path).split(".")[0]`. */
  function ImageName(imagePath: string): string
  {
    Split(Basename(imagePath), '.')[0]
  }

  /** `os.path.join(clean_path, *image_path.split(os.sep)[1:-1])`. */
  function MirrorDir(imagePath: string, cleanPath: string): string
  {
    PathJoin(cleanPath, Interior(Split(imagePath, '/')))
  }

  /** The file the cleaned image of `imagePath` is written to. */
  function MirrorFile(imagePath: string, cleanPath: string): string
  {
    PathJoin(MirrorDir(imagePath, cleanPath), [ImageName(imagePath) + ".jpeg"])
  }

  function CleanChartImage<P>(imagePath: string, img: Image<P>, cleanPath: string,
                              cleanField: Image<P> -> Option<Image<P>>): (out: CleanOutcome<P>)
    ensures out.WrongSize? <==> !CanonicalShape(img)
    ensures out.Cleaned? ==>
      && out.dir == MirrorDir(imagePath, cleanPath)
      && (out.written.Some? <==> cleanField(Crop(img)).Some?)
      && (out.written.Some? ==>
            out.written.value == (MirrorFile(imagePath, cleanPath), cleanField(Crop(img)).value))
  {
    if !CanonicalShape(img) then WrongSize
    else
      var cleaned := cleanField(Crop(img));
      var dir := MirrorDir(imagePath, cleanPath);
      Cleaned(dir, if cleaned.Some? then Some((MirrorFile(imagePath, cleanPath), cleaned.value)) else None)
  }

  /** One chart of the scraped listing. */
  datatype Chart = Chart(team: string, season: string, week: string, firstName: string,
                         lastName: string, position: string, gameId: int, touchdowns: int)

  /** `f"{lastName}_{firstName}_{position}"`: the file stem of a chart image. */
  function ChartFileName(c: Chart): string
  {
    c.lastName + "_" + c.firstName + "_" + c.position
  }

  function ChartComponents(c: Chart): seq<string>
  {
    [c.team, c.season, c.week, "images", ChartFileName(c) + ".jpeg"]
  }

  /** Where a chart's downloaded image lives under the base folder. */
  function RawImagePath(baseFolder: string, c: Chart): string
  {
    PathJoin(baseFolder, ChartComponents(c))
  }

  /** Where the cleaned image of a chart is looked up. */
  function CleanImagePath(cleanFolder: string, c: Chart): string
  {
    PathJoin(cleanFolder, ChartComponents(c))
  }

  /** The cleaned image is written exactly where it is later looked up, when
      the base folder is one path component, the team, season and week are
      plain components, and the file stem holds no '/' and no '.'. */
  lemma MirroredPath(baseFolder: string, cleanFolder: string, c: Chart)
    requires PlainComponent(baseFolder)
    requires PlainComponent(c.team) && PlainComponent(c.season) && PlainComponent(c.week)
    requires '/' !in ChartFileName(c) && '.' !in ChartFileName(c)
    ensures MirrorFile(RawImagePath(baseFolder, c), cleanFolder) == CleanImagePath(cleanFolder, c)
  {
    var stem := ChartFileName(c);
    var file := stem + ".jpeg";
    var comps := ChartComponents(c);
    assert file == stem + ['.'] + "jpeg";
    assert '/' !in file;
    assert forall k :: 0 <= k < |comps| ==> PlainComponent(comps[k]);
    var path := RawImagePath(baseFolder, c);
    PathJoinPlain(baseFolder, comps);
    var parts := [baseFolder] + comps;
    SplitJoin(parts, '/');
    assert Split(path, '/') == parts;
    assert Basename(path) == file;
    FirstPiece(stem, '.', "jpeg");
    assert ImageName(path) == stem;
    assert Interior(parts) == [c.team, c.season, c.week, "images"];
    PathJoinAppend(cleanFolder, [c.team, c.season, c.week, "images"], file);
    assert [c.team, c.season, c.week, "images"] + [file] == comps;
  }

  /** The chart columns copied onto every route point. */
  datatype ChartMeta = ChartMeta(gameId: int, team: string, week: string, name: string, position: string)

  function MetaOf(c: Chart): ChartMeta
  {
    ChartMeta(c.gameId, c.team, c.week, c.firstName + " " + c.lastName, c.position)
  }

  /** One row of the combined route table. */
  datatype RouteRecord = RouteRecord(meta: ChartMeta, routeType: RouteType, x: real, y: real)

  function TagChart(c: Chart, routes: seq<RouteRow>): (records: seq<RouteRecord>)
    ensures |records| == |routes|
    ensures forall k :: 0 <= k < |routes| ==>
      records[k] == RouteRecord(MetaOf(c), routes[k].routeType, routes[k].x, routes[k].y)
  {
    seq(|routes|, k requires 0 <= k < |routes| => RouteRecord(MetaOf(c), routes[k].routeType, routes[k].x, routes[k].y))
  }

  datatype ProcessError =
    | UnreadableImage(path: string)   // `cv2.imread` returned None
    | Route(e: RouteError)
    | NoRouteRows(path: string)       // `pd.concat` of zero copies of the chart columns

  /** The oracles of a processing run: the downloaded images, the field
      cleaner, the skeletons of a cleaned image file, and the template,
      distance and matching of the touchdown removal. */
  datatype Sources<!P> = Sources(
    readRaw: string -> Option<Image<P>>,
    cleanField: Image<P> -> Option<Image<P>>,
    traces: string -> ChartTraces,
    template: seq<FieldPoint>,
    dist: (FieldPoint, FieldPoint) -> real,
    assign: (seq<FieldPoint>, seq<FieldPoint>) -> seq<nat>)

  /** Files that exist after cleaning one chart. */
  function FilesAfterClean<P>(files: set<string>, out: CleanOutcome<P>): set<string>
  {
    if out.Cleaned? && out.written.Some? then files + {out.written.value.0} else files
  }

  /** One iteration of the chart loop: clean the image, then, if the cleaned
      file exists, digitise it and tag its rows; a digitised chart without
      any route row is an error, since the chart columns are then repeated
      zero times and there is nothing to concatenate. Returns the rows and
      the set of existing files afterwards. */
  function ProcessChart<P>(c: Chart, baseFolder: string, cleanFolder: string,
                           files: set<string>, src: Sources<P>): (r: Result<(seq<RouteRecord>, set<string>), ProcessError>)
    ensures r.Ok? ==> files <= r.value.1
    ensures r.Ok? ==> forall rec :: rec in r.value.0 ==> rec.meta == MetaOf(c)
    ensures r.Ok? ==> (r.value.0 == [] <==> CleanImagePath(cleanFolder, c) !in r.value.1)
    ensures r.Ok? && CleanImagePath(cleanFolder, c) in r.value.1 ==>
      var traces := src.traces(CleanImagePath(cleanFolder, c));
      && ScalableWidth(traces.width)
      && exists routes :: RowsFromTraces(routes, traces) && r.value.0 == TagChart(c, routes)
  {
    var rawPath := RawImagePath(baseFolder, c);
    match src.readRaw(rawPath)
    case None => Err(UnreadableImage(rawPath))
    case Some(img) =>
      var files' := FilesAfterClean(files, CleanChartImage(rawPath, img, cleanFolder, src.cleanField));
      var cleanPath := CleanImagePath(cleanFolder, c);
      if cleanPath !in files' then Ok(([], files'))
      else
        match MapRouteLocations(src.traces(cleanPath), c.touchdowns, src.template, src.dist, src.assign)
        case Err(e) => Err(Route(e))
        case Ok(routes) =>
          if |routes| == 0 then Err(NoRouteRows(cleanPath))
          else Ok((TagChart(c, routes), files'))
  }

  /** A chart whose cleaned image exists but whose skeletons are all empty
      (and which has no touchdown to remove) ends the run with an error. */
  lemma EmptyRouteTableFails<P>(c: Chart, baseFolder: string, cleanFolder: string,
                                files: set<string>, src: Sources<P>)
    requires src.readRaw(RawImagePath(baseFolder, c)).Some?
    requires CleanImagePath(cleanFolder, c) in files
    requires c.touchdowns <= 0
    requires var t := src.traces(CleanImagePath(cleanFolder, c));
      ScalableWidth(t.width) && t.complete == [] && t.yac == [] && t.incomplete == []
    ensures ProcessChart(c, baseFolder, cleanFolder, files, src) == Err(NoRouteRows(CleanImagePath(cleanFolder, c)))
  {
  }

  /** The rows of each chart in turn, as separate blocks: block `i` is
      chart `i`'s tagged rows. The first error ends the run. */
  function ChartBlocks<P>(charts: seq<Chart>, baseFolder: string, cleanFolder: string,
                          files: set<string>, src: Sources<P>): (r: Result<seq<seq<RouteRecord>>, ProcessError>)
    ensures r.Ok? ==> |r.value| == |charts|
    ensures r.Ok? ==> forall i, rec :: 0 <= i < |charts| && rec in r.value[i] ==> rec.meta == MetaOf(charts[i])
  {
    if |charts| == 0 then Ok([])
    else
      match ProcessChart(charts[0], baseFolder, cleanFolder, files, src)
      case Err(e) => Err(e)
      case Ok(step) =>
        match ChartBlocks(charts[1..], baseFolder, cleanFolder, step.1, src)
        case Err(e) => Err(e)
        case Ok(rest) =>
          BlocksCons(charts, step.0, rest);
          Ok([step.0] + rest)
  }

  /** A first chart's block in front of the other charts' blocks keeps
      every block tagged with its own chart. */
  lemma BlocksCons(charts: seq<Chart>, head: seq<RouteRecord>, rest: seq<seq<RouteRecord>>)
    requires |charts| > 0 && |rest| == |charts| - 1
    requires forall rec :: rec in head ==> rec.meta == MetaOf(charts[0])
    requires forall i, rec :: 0 <= i < |charts[1..]| && rec in rest[i] ==> rec.meta == MetaOf(charts[1..][i])
    ensures forall i, rec :: 0 <= i < |charts| && rec in ([head] + rest)[i] ==> rec.meta == MetaOf(charts[i])
  {
    forall i, rec | 0 <= i < |charts| && rec in ([head] + rest)[i]
      ensures rec.meta == MetaOf(charts[i])
    {
      if i > 0 {
        assert ([head] + rest)[i] == rest[i - 1];
        assert charts[i] == charts[1..][i - 1];
      }
    }
  }

  /** `process_next_gen_data`: the charts in order, each contributing its
      tagged route rows; the first error ends the run. */
  function ProcessNextGenData<P>(charts: seq<Chart>, baseFolder: string, cleanFolder: string,
                                 files: set<string>, src: Sources<P>): (r: Result<seq<RouteRecord>, ProcessError>)
    ensures r.Ok? ==> forall rec :: rec in r.value ==> exists c :: c in charts && rec.meta == MetaOf(c)
    ensures |charts| == 0 ==> r == Ok([])
    ensures r.Ok? <==> ChartBlocks(charts, baseFolder, cleanFolder, files, src).Ok?
    ensures r.Ok? ==> r.value == Flatten(ChartBlocks(charts, baseFolder, cleanFolder, files, src).value)
    ensures r.Err? ==> r == Err(ChartBlocks(charts, baseFolder, cleanFolder, files, src).error)
  {
    if |charts| == 0 then Ok([])
    else
      match ProcessChart(charts[0], baseFolder, cleanFolder, files, src)
      case Err(e) => Err(e)
      case Ok(step) =>
        match ProcessNextGenData(charts[1..], baseFolder, cleanFolder, step.1, src)
        case Err(e) => Err(e)
        case Ok(rest) =>
          assert forall c :: c in charts[1..] ==> c in charts;
          var blocks := ChartBlocks(charts[1..], baseFolder, cleanFolder, step.1, src).value;
          assert ([step.0] + blocks)[1..] == blocks;
          Ok(step.0 + rest)
  }

  /** The combined table is the first chart's rows followed by the rest's:
      the row count is the sum of the per-chart counts. */
  lemma ProcessNextGenDataSplits<P>(charts: seq<Chart>, baseFolder: string, cleanFolder: string,
                                    files: set<string>, src: Sources<P>)
    requires |charts| > 0
    requires ProcessChart(charts[0], baseFolder, cleanFolder, files, src).Ok?
    ensures
      var step := ProcessChart(charts[0], baseFolder, cleanFolder, files, src).value;
      var rest := ProcessNextGenData(charts[1..], baseFolder, cleanFolder, step.1, src);
      && (rest.Ok? <==> ProcessNextGenData(charts, baseFolder, cleanFolder, files, src).Ok?)
      && (rest.Ok? ==> ProcessNextGenData(charts, baseFolder, cleanFolder, files, src).value == step.0 + rest.value)
  {
  }
}

=== FILE: nfl_data.dfy ===
/** The season-table helpers: the early-career quarterback filter, the
    column reorder of the seasonal table, the wide-receiver row filter and
    availability, and the contract ratios. Downloads and the merges with the
    player-id and contract datasets are not part of this model; the helpers
    act on rows that already carry the merged columns. */
module NflData {
  import opened Common

  /** The columns of a merged seasonal row that the helpers read; `None` is
      a null. */
  datatype SeasonRow = SeasonRow(
    name: string,
    position: string,
    season: int,
    draftYear: Option<int>,
    receptions: Option<real>,
    receivingYards: Option<real>,
    targets: Option<real>,
    games: Option<real>,
    apy: Option<real>,
    passingYards: Option<real>,
    value: Option<real>,
    capSpace: Option<real>)

  /** The default career window of `filter_qbs_early_career`. */
  const DefaultEarlyYears: int := 3

  /** A quarterback at most `years` seasons past his draft year; a null
      draft year compares false and drops the row. */
  predicate EarlyCareerQb(years: int, r: SeasonRow)
  {
    r.position == "QB" && r.draftYear.Some? && r.season - r.draftYear.value <= years
  }

  function FilterQbsEarlyCareer(data: seq<SeasonRow>, years: int): (qbs: seq<SeasonRow>)
    ensures forall r :: r in qbs ==>
      r in data && r.position == "QB" && r.draftYear.Some? && r.season - r.draftYear.value <= years
    ensures forall k :: 0 <= k < |data| && EarlyCareerQb(years, data[k]) ==> data[k] in qbs
    ensures IsSubsequence(qbs, data)
    ensures |qbs| == Count(data, r => EarlyCareerQb(years, r))
  {
    Filter(data, r => EarlyCareerQb(years, r))
  }

  /** A wider career window keeps every row a narrower one keeps, in the
      same order. */
  lemma {:induction false} EarlyCareerWidens(data: seq<SeasonRow>, narrow: int, wide: int)
    requires narrow <= wide
    ensures IsSubsequence(FilterQbsEarlyCareer(data, narrow), FilterQbsEarlyCareer(data, wide))
  {
    if |data| > 0 {
      EarlyCareerWidens(data[1..], narrow, wide);
      var n := FilterQbsEarlyCareer(data, narrow);
      var w := FilterQbsEarlyCareer(data, wide);
      if EarlyCareerQb(narrow, data[0]) {
        assert n[1..] == FilterQbsEarlyCareer(data[1..], narrow);
        assert w[1..] == FilterQbsEarlyCareer(data[1..], wide);
      } else if EarlyCareerQb(wide, data[0]) {
        assert w == [data[0]] + w[1..];
        assert w[1..] == FilterQbsEarlyCareer(data[1..], wide);
        SubsequenceCons(n, data[0], w[1..]);
      }
    }
  }

  /** `cols[-1:] + cols[:-2]`: the last column first, then every column but
      the last two. */
  function ReorderColumns<T>(cols: seq<T>): (r: seq<T>)
    ensures |cols| >= 2 ==> |r| == |cols| - 1 && r[0] == cols[|cols| - 1]
    ensures |cols| >= 2 ==> forall k :: 1 <= k < |r| ==> r[k] == cols[k - 1]
    ensures |cols| >= 2 ==> multiset(r) + multiset{cols[|cols| - 2]} == multiset(cols)
    ensures |cols| < 2 ==> r == cols
  {
    var n := |cols|;
    if n == 0 then []
    else if n == 1 then [cols[0]]
    else
      assert cols == cols[..n - 2] + [cols[n - 2]] + [cols[n - 1]];
      [cols[n - 1]] + cols[..n - 2]
  }

  /** With distinct column names, the reorder drops exactly the
      second-to-last column. */
  lemma ReorderDropsSecondToLast<T>(cols: seq<T>)
    requires |cols| >= 2 && NoDuplicates(cols)
    ensures cols[|cols| - 2] !in ReorderColumns(cols)
    ensures forall c :: c in cols && c != cols[|cols| - 2] ==> c in ReorderColumns(cols)
  {
    var r := ReorderColumns(cols);
    var n := |cols|;
    forall c | c in cols && c != cols[n - 2]
      ensures c in r
    {
      var k :| 0 <= k < n && cols[k] == c;
      if k == n - 1 {
        assert r[0] == c;
      } else {
        assert r[k + 1] == c;
      }
    }
    forall k | 0 <= k < |r|
      ensures r[k] != cols[n - 2]
    {
      if k == 0 {
        assert r[0] == cols[n - 1];
      } else {
        assert r[k] == cols[k - 1];
      }
    }
  }

  /** The wide-receiver season filter: receptions, receiving yards and
      targets all present, and at least one reception. */
  predicate ReceiverSeason(r: SeasonRow)
  {
    r.receptions.Some? && r.receivingYards.Some? && r.targets.Some? && r.receptions.value > 0.0
  }

  function FilterReceivers(seasonal: seq<SeasonRow>): (wr: seq<SeasonRow>)
    ensures forall r :: r in wr ==>
      r in seasonal && r.receptions.Some? && r.receptions.value > 0.0 && r.receivingYards.Some? && r.targets.Some?
    ensures forall k :: 0 <= k < |seasonal| && ReceiverSeason(seasonal[k]) ==> seasonal[k] in wr
    ensures IsSubsequence(wr, seasonal)
    ensures |wr| == Count(seasonal, ReceiverSeason)
  {
    Filter(seasonal, ReceiverSeason)
  }

  /** Games in a regular season, the denominator of availability. */
  const SeasonGames: real := 17.0

  datatype ReceiverRow = ReceiverRow(row: SeasonRow, availability: Option<real>)

  predicate HasApy(r: SeasonRow)
  {
    r.apy.Some?
  }

  /** The season rows a table of receiver rows carries, in order. */
  function RowsOf(out: seq<ReceiverRow>): (rows: seq<SeasonRow>)
    ensures |rows| == |out|
    ensures forall k :: 0 <= k < |out| ==> rows[k] == out[k].row
  {
    seq(|out|, k requires 0 <= k < |out| => out[k].row)
  }

  /** `availability = games / 17`, then the rows without an apy are
      dropped; the rows kept stay in their original order. */
  function WithAvailability(merged: seq<SeasonRow>): (out: seq<ReceiverRow>)
    ensures |out| == Count(merged, HasApy)
    ensures IsSubsequence(RowsOf(out), merged)
    ensures forall k :: 0 <= k < |out| ==> out[k].row in merged && out[k].row.apy.Some?
    ensures forall k :: 0 <= k < |out| ==>
      (out[k].availability.Some? <==> out[k].row.games.Some?)
      && (out[k].availability.Some? ==> out[k].availability.value * SeasonGames == out[k].row.games.value)
    ensures forall k :: 0 <= k < |merged| && merged[k].apy.Some? ==> exists j :: 0 <= j < |out| && out[j].row == merged[k]
  {
    var kept := Filter(merged, HasApy);
    var out := seq(|kept|, k requires 0 <= k < |kept| => ReceiverRow(kept[k], Divide(kept[k].games, Some(SeasonGames))));
    forall k | 0 <= k < |merged| && merged[k].apy.Some?
      ensures exists j :: 0 <= j < |out| && out[j].row == merged[k]
    {
      var j :| 0 <= j < |kept| && kept[j] == merged[k];
      assert out[j].row == merged[k];
    }
    assert RowsOf(out) == kept;
    out
  }

  /** A full season played is availability 1, none is 0. */
  lemma AvailabilityBounds(games: real)
    requires 0.0 <= games <= SeasonGames
    ensures Divide(Some(games), Some(SeasonGames)).Some?
    ensures 0.0 <= Divide(Some(games), Some(SeasonGames)).value <= 1.0
  {
  }

  datatype RoiRow = RoiRow(row: SeasonRow, capPct: Option<real>, roi: Option<real>)

  /** `cap_pct = value / Cap Space` and `roi = passing_yards / value`, row by
      row. */
  function CalculateRoi(data: seq<SeasonRow>): (out: seq<RoiRow>)
    ensures |out| == |data|
    ensures forall k :: 0 <= k < |data| ==> out[k].row == data[k]
    ensures forall k :: 0 <= k < |data| ==>
      (out[k].capPct.Some? <==> data[k].value.Some? && data[k].capSpace.Some? && data[k].capSpace.value != 0.0)
      && (out[k].capPct.Some? ==> out[k].capPct.value * data[k].capSpace.value == data[k].value.value)
    ensures forall k :: 0 <= k < |data| ==>
      (out[k].roi.Some? <==> data[k].passingYards.Some? && data[k].value.Some? && data[k].value.value != 0.0)
      && (out[k].roi.Some? ==> out[k].roi.value * data[k].value.value == data[k].passingYards.value)
  {
    seq(|data|, k requires 0 <= k < |data| =>
      RoiRow(data[k], Divide(data[k].value, data[k].capSpace), Divide(data[k].passingYards, data[k].value)))
  }

  /** The two ratios chain: the cap share times the return is passing yards
      per unit of cap space. */
  lemma RoiChain(r: SeasonRow)
    requires r.passingYards.Some? && r.value.Some? && r.capSpace.Some?
    requires r.value.value != 0.0 && r.capSpace.value != 0.0
    ensures Divide(r.value, r.capSpace).value * Divide(r.passingYards, r.value).value
         == r.passingYards.value / r.capSpace.value
  {
    var v := r.value.value;
    var c := r.capSpace.value;
    var p := r.passingYards.value;
    assert (v / c) * (p / v) == (v * p) / (c * v);
  }
}

=== FILE: offensive_tendencies.dfy ===
/** Tendencies of the 3x1 bunch look, inferred from personnel: run and pass
    percentages, average yards and success rate over the plays with exactly
    one back, one tight end and three receivers, and the play-type shares
    per down and per (down, yards-to-goal) situation. */
module OffensiveTendencies {
  import opened Common
  import opened Grouping

  /** The columns of a play-by-play row read here; `None` is a null. */
  datatype Play = Play(
    personnel: Option<string>,
    playType: Option<string>,
    yardsGained: Option<real>,
    success: Option<real>,
    down: Option<int>,
    yardline: Option<int>)

  /** The personnel string that marks the formation. */
  const BunchPersonnel: string := "1 RB, 1 TE, 3 WR"

  predicate InBunch(p: Play)
  {
    p.personnel == Some(BunchPersonnel)
  }

  predicate IsRun(p: Play) { p.playType == Some("run") }

  predicate IsPass(p: Play) { p.playType == Some("pass") }

  /** `success == 1`; a null success compares false. */
  predicate Succeeded(p: Play) { p.success == Some(1.0) }

  function BunchPlays(plays: seq<Play>): (bunch: seq<Play>)
    ensures forall p :: p in bunch ==> p in plays && p.personnel == Some(BunchPersonnel)
    ensures forall k :: 0 <= k < |plays| && InBunch(plays[k]) ==> plays[k] in bunch
    ensures IsSubsequence(bunch, plays)
    ensures |bunch| == Count(plays, InBunch)
  {
    Filter(plays, InBunch)
  }

  /** `(column == x).mean() * 100`: NaN (`None`) over no rows, otherwise
      the percentage of the plays that match. */
  function Percentage(plays: seq<Play>, p: Play -> bool): (pct: Option<real>)
    ensures pct.None? <==> |plays| == 0
    ensures pct.Some? ==> 0.0 <= pct.value <= 100.0
    ensures pct.Some? ==> pct.value == PercentOf(Count(plays, p), |plays|)
  {
    if |plays| == 0 then None else Some(PercentOf(Count(plays, p), |plays|))
  }

  /** `c` out of `n` as a percentage. */
  function PercentOf(c: nat, n: nat): (r: real)
    requires n > 0
    ensures c <= n ==> 0.0 <= r <= 100.0
  {
    assert 100.0 * (c as real) <= 100.0 * (n as real) || c > n;
    100.0 * (c as real) / (n as real)
  }

  /** The percentage is the value that `n` times gives 100 times `c`. */
  lemma PercentOfScales(c: nat, n: nat)
    requires n > 0
    ensures PercentOf(c, n) * (n as real) == 100.0 * (c as real)
  {
  }

  function YardsColumn(plays: seq<Play>): seq<Option<real>>
  {
    seq(|plays|, k requires 0 <= k < |plays| => plays[k].yardsGained)
  }

  datatype Tendencies = Tendencies(
    runPercentage: Option<real>,
    passPercentage: Option<real>,
    avgYardsGained: Option<real>,
    successRate: Option<real>)

  /** Rows that cannot satisfy two predicates at once are counted at most
      once between them. */
  lemma {:induction false} CountDisjoint<T>(s: seq<T>, p: T -> bool, q: T -> bool)
    requires forall k :: 0 <= k < |s| ==> !(p(s[k]) && q(s[k]))
    ensures Count(s, p) + Count(s, q) <= |s|
  {
    if |s| > 0 {
      assert forall k :: 1 <= k < |s| ==> s[k] == s[1..][k - 1];
      CountDisjoint(s[1..], p, q);
    }
  }

  /** The headline tendencies of the filtered plays. */
  function OverallTendencies(bunch: seq<Play>): (t: Tendencies)
    ensures t.runPercentage.None? <==> |bunch| == 0
    ensures |bunch| == 0 ==> t.passPercentage.None? && t.successRate.None?
    ensures t.runPercentage.Some? ==>
      && |bunch| > 0
      && t.passPercentage.Some? && t.successRate.Some?
      && t.runPercentage.value == PercentOf(Count(bunch, IsRun), |bunch|)
      && t.passPercentage.value == PercentOf(Count(bunch, IsPass), |bunch|)
      && t.successRate.value == PercentOf(Count(bunch, Succeeded), |bunch|)
      && 0.0 <= t.runPercentage.value && 0.0 <= t.passPercentage.value
      && t.runPercentage.value + t.passPercentage.value <= 100.0
      && 0.0 <= t.successRate.value <= 100.0
    ensures t.avgYardsGained.None? <==> |Present(YardsColumn(bunch))| == 0
    ensures t.avgYardsGained.Some? ==>
      t.avgYardsGained.value * (|Present(YardsColumn(bunch))| as real) == Sum(Present(YardsColumn(bunch)))
  {
    var t := Tendencies(Percentage(bunch, IsRun), Percentage(bunch, IsPass), Mean(Present(YardsColumn(bunch))),
                        Percentage(bunch, Succeeded));
    if |bunch| > 0 then RunPassBound(bunch); t else t
  }

  /** A play is not both a run and a pass, so the two percentages add up
      to at most 100. */
  lemma RunPassBound(bunch: seq<Play>)
    requires |bunch| > 0
    ensures Percentage(bunch, IsRun).value + Percentage(bunch, IsPass).value <= 100.0
  {
    CountDisjoint(bunch, IsRun, IsPass);
    PercentSum(Count(bunch, IsRun) as real, Count(bunch, IsPass) as real, |bunch| as real);
  }

  lemma PercentSum(a: real, b: real, n: real)
    requires n > 0.0 && 0.0 <= a && 0.0 <= b && a + b <= n
    ensures 100.0 * a / n + 100.0 * b / n <= 100.0
  {
    AddFractions(100.0 * a, 100.0 * b, n);
    assert 100.0 * a + 100.0 * b == 100.0 * (a + b);
    assert 100.0 * (a + b) <= 100.0 * n;
  }

  /** The (down, play type) rows a `groupby('down')` sees: nulls dropped. */
  function DownPairs(bunch: seq<Play>): (pairs: seq<(int, string)>)
    ensures |pairs| <= |bunch|
    ensures forall j :: 0 <= j < |pairs| ==>
      exists k :: 0 <= k < |bunch| && bunch[k].down == Some(pairs[j].0) && bunch[k].playType == Some(pairs[j].1)
  {
    if |bunch| == 0 then []
    else
      var p := bunch[0];
      var rest := DownPairs(bunch[1..]);
      assert forall k :: 1 <= k < |bunch| ==> bunch[k] == bunch[1..][k - 1];
      var head := if p.down.Some? && p.playType.Some? then [(p.down.value, p.playType.value)] else [];
      assert forall j :: 0 <= j < |rest| ==> (head + rest)[|head| + j] == rest[j];
      head + rest
  }

  /** The ((down, yardline_100), play type) rows: nulls dropped. */
  function SituationPairs(bunch: seq<Play>): (pairs: seq<((int, int), string)>)
    ensures |pairs| <= |bunch|
    ensures forall j :: 0 <= j < |pairs| ==>
      exists k :: 0 <= k < |bunch| && bunch[k].down == Some(pairs[j].0.0)
        && bunch[k].yardline == Some(pairs[j].0.1) && bunch[k].playType == Some(pairs[j].1)
  {
    if |bunch| == 0 then []
    else
      var p := bunch[0];
      var rest := SituationPairs(bunch[1..]);
      assert forall k :: 1 <= k < |bunch| ==> bunch[k] == bunch[1..][k - 1];
      var head := if p.down.Some? && p.yardline.Some? && p.playType.Some?
        then [((p.down.value, p.yardline.value), p.playType.value)] else [];
      assert forall j :: 0 <= j < |rest| ==> (head + rest)[|head| + j] == rest[j];
      head + rest
  }

  /** The plays `groupby('down')` puts in the group of down `d`: a null
      play type is not counted. */
  function OnDown(d: int): Play -> bool
  {
    (p: Play) => p.down == Some(d) && p.playType.Some?
  }

  /** The plays of down `d` with play type `t`. */
  function OnDownAs(d: int, t: string): Play -> bool
  {
    (p: Play) => p.down == Some(d) && p.playType == Some(t)
  }

  /** The plays in the (down, yardline_100) group `s`. */
  function InSituation(s: (int, int)): Play -> bool
  {
    (p: Play) => p.down == Some(s.0) && p.yardline == Some(s.1) && p.playType.Some?
  }

  /** The plays in situation `s` with play type `t`. */
  function InSituationAs(s: (int, int), t: string): Play -> bool
  {
    (p: Play) => p.down == Some(s.0) && p.yardline == Some(s.1) && p.playType == Some(t)
  }

  /** A down's group rows list one play type per typed play of that down. */
  lemma {:induction false} DownMembers(bunch: seq<Play>, d: int)
    ensures |Members(DownPairs(bunch), d)| == Count(bunch, OnDown(d))
  {
    if |bunch| > 0 {
      DownMembers(bunch[1..], d);
      DownPairsCons(bunch, d);
    }
  }

  /** A down's group rows list play type `t` once per play of that down and
      type. */
  lemma {:induction false} DownTypeMembers(bunch: seq<Play>, d: int, t: string)
    ensures multiset(Members(DownPairs(bunch), d))[t] == Count(bunch, OnDownAs(d, t))
  {
    if |bunch| > 0 {
      DownTypeMembers(bunch[1..], d, t);
      DownPairsCons(bunch, d);
    }
  }

  /** The first play's contribution to the group of down `d`. */
  lemma DownPairsCons(bunch: seq<Play>, d: int)
    requires |bunch| > 0
    ensures var p := bunch[0];
      Members(DownPairs(bunch), d)
      == (if p.down == Some(d) && p.playType.Some? then [p.playType.value] else []) + Members(DownPairs(bunch[1..]), d)
  {
    var p := bunch[0];
    var rest := DownPairs(bunch[1..]);
    if p.down.Some? && p.playType.Some? {
      assert DownPairs(bunch) == [(p.down.value, p.playType.value)] + rest;
      MembersCons((p.down.value, p.playType.value), rest, d);
    } else {
      assert DownPairs(bunch) == rest;
    }
  }

  /** A situation's group rows list one play type per typed play in it. */
  lemma {:induction false} SituationMembers(bunch: seq<Play>, s: (int, int))
    ensures |Members(SituationPairs(bunch), s)| == Count(bunch, InSituation(s))
  {
    if |bunch| > 0 {
      SituationMembers(bunch[1..], s);
      SituationPairsCons(bunch, s);
    }
  }

  /** A situation's group rows list play type `t` once per play in it of
      that type. */
  lemma {:induction false} SituationTypeMembers(bunch: seq<Play>, s: (int, int), t: string)
    ensures multiset(Members(SituationPairs(bunch), s))[t] == Count(bunch, InSituationAs(s, t))
  {
    if |bunch| > 0 {
      SituationTypeMembers(bunch[1..], s, t);
      SituationPairsCons(bunch, s);
    }
  }

  /** The first play's contribution to the group of situation `s`. */
  lemma SituationPairsCons(bunch: seq<Play>, s: (int, int))
    requires |bunch| > 0
    ensures var p := bunch[0];
      Members(SituationPairs(bunch), s)
      == (if p.down == Some(s.0) && p.yardline == Some(s.1) && p.playType.Some? then [p.playType.value] else [])
         + Members(SituationPairs(bunch[1..]), s)
  {
    var p := bunch[0];
    var rest := SituationPairs(bunch[1..]);
    if p.down.Some? && p.yardline.Some? && p.playType.Some? {
      var h := ((p.down.value, p.yardline.value), p.playType.value);
      assert SituationPairs(bunch) == [h] + rest;
      MembersCons(h, rest, s);
      assert h.0 == s <==> p.down == Some(s.0) && p.yardline == Some(s.1);
    } else {
      assert SituationPairs(bunch) == rest;
    }
  }

  /** A play with a down and a play type gives a (down, play type) row. */
  lemma {:induction false} DownPairsCover(bunch: seq<Play>, i: int)
    requires 0 <= i < |bunch| && bunch[i].down.Some? && bunch[i].playType.Some?
    ensures (bunch[i].down.value, bunch[i].playType.value) in DownPairs(bunch)
  {
    if i > 0 {
      assert bunch[i] == bunch[1..][i - 1];
      DownPairsCover(bunch[1..], i - 1);
    }
  }

  /** A play with a down, a yard line and a play type gives a situation
      row. */
  lemma {:induction false} SituationPairsCover(bunch: seq<Play>, i: int)
    requires 0 <= i < |bunch| && bunch[i].down.Some? && bunch[i].yardline.Some? && bunch[i].playType.Some?
    ensures ((bunch[i].down.value, bunch[i].yardline.value), bunch[i].playType.value) in SituationPairs(bunch)
  {
    if i > 0 {
      assert bunch[i] == bunch[1..][i - 1];
      SituationPairsCover(bunch[1..], i - 1);
    }
  }

  /** Each key of a table at most once. */
  predicate UniqueKeys<K(==), V>(table: seq<(K, V)>)
  {
    forall k1, k2 :: 0 <= k1 < k2 < |table| ==> table[k1].0 != table[k2].0
  }

  /** Each entry of the per-down table is a play type of that down, with
      the number of bunch plays of that down and type over the number of
      that down's bunch plays with a known type. */
  ghost predicate DownShares(plays: seq<Play>, table: seq<(int, seq<(string, real)>)>)
  {
    forall k, j :: 0 <= k < |table| && 0 <= j < |table[k].1| ==>
      && Count(plays, And(InBunch, OnDownAs(table[k].0, table[k].1[j].0))) > 0
      && Count(plays, And(InBunch, OnDown(table[k].0))) > 0
      && table[k].1[j].1
         == Count(plays, And(InBunch, OnDownAs(table[k].0, table[k].1[j].0))) as real
            / Count(plays, And(InBunch, OnDown(table[k].0))) as real
  }

  /** Every down and play type of a bunch play has its entry. */
  ghost predicate DownsCovered(plays: seq<Play>, table: seq<(int, seq<(string, real)>)>)
  {
    forall i :: 0 <= i < |plays| && InBunch(plays[i]) && plays[i].down.Some? && plays[i].playType.Some? ==>
      exists k, j ::
        0 <= k < |table| && 0 <= j < |table[k].1| && table[k].0 == plays[i].down.value && table[k].1[j].0 == plays[i].playType.value
  }

  /** The per-situation entries, as `DownShares` for (down, yardline_100). */
  ghost predicate SituationShares(plays: seq<Play>, table: seq<((int, int), seq<(string, real)>)>)
  {
    forall k, j :: 0 <= k < |table| && 0 <= j < |table[k].1| ==>
      && Count(plays, And(InBunch, InSituationAs(table[k].0, table[k].1[j].0))) > 0
      && Count(plays, And(InBunch, InSituation(table[k].0))) > 0
      && table[k].1[j].1
         == Count(plays, And(InBunch, InSituationAs(table[k].0, table[k].1[j].0))) as real
            / Count(plays, And(InBunch, InSituation(table[k].0))) as real
  }

  /** Every situation and play type of a bunch play has its entry. */
  ghost predicate SituationsCovered(plays: seq<Play>, table: seq<((int, int), seq<(string, real)>)>)
  {
    forall i :: 0 <= i < |plays| && InBunch(plays[i]) && plays[i].down.Some? && plays[i].yardline.Some? && plays[i].playType.Some? ==>
      exists k, j ::
        0 <= k < |table| && 0 <= j < |table[k].1|
        && table[k].0 == (plays[i].down.value, plays[i].yardline.value) && table[k].1[j].0 == plays[i].playType.value
  }

  /** Group sizes and counts of the per-down table, over all the plays. */
  lemma DownEntry(plays: seq<Play>, d: int, t: string)
    ensures |Members(DownPairs(BunchPlays(plays)), d)| == Count(plays, And(InBunch, OnDown(d)))
    ensures multiset(Members(DownPairs(BunchPlays(plays)), d))[t] == Count(plays, And(InBunch, OnDownAs(d, t)))
  {
    DownMembers(BunchPlays(plays), d);
    DownTypeMembers(BunchPlays(plays), d, t);
    CountFiltered(plays, InBunch, OnDown(d));
    CountFiltered(plays, InBunch, OnDownAs(d, t));
  }

  /** Group sizes and counts of the per-situation table, over all the
      plays. */
  lemma SituationEntry(plays: seq<Play>, s: (int, int), t: string)
    ensures |Members(SituationPairs(BunchPlays(plays)), s)| == Count(plays, And(InBunch, InSituation(s)))
    ensures multiset(Members(SituationPairs(BunchPlays(plays)), s))[t] == Count(plays, And(InBunch, InSituationAs(s, t)))
  {
    SituationMembers(BunchPlays(plays), s);
    SituationTypeMembers(BunchPlays(plays), s, t);
    CountFiltered(plays, InBunch, InSituation(s));
    CountFiltered(plays, InBunch, InSituationAs(s, t));
  }

  /** The grouped shares of the bunch plays' (down, play type) rows hold
      the counted shares. */
  lemma DownTableShares(plays: seq<Play>)
    ensures var table := GroupShares(DownPairs(BunchPlays(plays)));
      UniqueKeys(table) && DownShares(plays, table)
  {
    var pairs := DownPairs(BunchPlays(plays));
    var table := GroupShares(pairs);
    forall k, j | 0 <= k < |table| && 0 <= j < |table[k].1|
      ensures Count(plays, And(InBunch, OnDownAs(table[k].0, table[k].1[j].0))) > 0
      ensures Count(plays, And(InBunch, OnDown(table[k].0))) > 0
      ensures table[k].1[j].1
         == Count(plays, And(InBunch, OnDownAs(table[k].0, table[k].1[j].0))) as real
            / Count(plays, And(InBunch, OnDown(table[k].0))) as real
    {
      DownShareAt(plays, k, j);
    }
  }

  lemma DownShareAt(plays: seq<Play>, k: int, j: int)
    requires 0 <= k < |GroupShares(DownPairs(BunchPlays(plays)))|
    requires 0 <= j < |GroupShares(DownPairs(BunchPlays(plays)))[k].1|
    ensures var e := GroupShares(DownPairs(BunchPlays(plays)))[k];
      && Count(plays, And(InBunch, OnDownAs(e.0, e.1[j].0))) > 0
      && Count(plays, And(InBunch, OnDown(e.0))) > 0
      && e.1[j].1 == Count(plays, And(InBunch, OnDownAs(e.0, e.1[j].0))) as real / Count(plays, And(InBunch, OnDown(e.0))) as real
  {
    var e := GroupShares(DownPairs(BunchPlays(plays)))[k];
    GroupShareEntry(DownPairs(BunchPlays(plays)), k, j);
    DownEntry(plays, e.0, e.1[j].0);
  }

  /** The grouped shares of the bunch plays' (down, play type) rows cover
      every typed bunch play. */
  lemma DownTableCovers(plays: seq<Play>)
    ensures DownsCovered(plays, GroupShares(DownPairs(BunchPlays(plays))))
  {
    var bunch := BunchPlays(plays);
    var pairs := DownPairs(bunch);
    forall i | 0 <= i < |plays| && InBunch(plays[i]) && plays[i].down.Some? && plays[i].playType.Some?
      ensures exists k, j ::
        0 <= k < |GroupShares(pairs)| && 0 <= j < |GroupShares(pairs)[k].1|
        && GroupShares(pairs)[k].0 == plays[i].down.value && GroupShares(pairs)[k].1[j].0 == plays[i].playType.value
    {
      DownCoverAt(plays, i);
    }
  }

  lemma DownCoverAt(plays: seq<Play>, i: int)
    requires 0 <= i < |plays| && InBunch(plays[i]) && plays[i].down.Some? && plays[i].playType.Some?
    ensures var table := GroupShares(DownPairs(BunchPlays(plays)));
      exists k, j ::
        0 <= k < |table| && 0 <= j < |table[k].1| && table[k].0 == plays[i].down.value && table[k].1[j].0 == plays[i].playType.value
  {
    var bunch := BunchPlays(plays);
    var key, v := plays[i].down.value, plays[i].playType.value;
    assert (key, v) in DownPairs(bunch) by {
      assert plays[i] in bunch;
      var b :| 0 <= b < |bunch| && bunch[b] == plays[i];
      DownPairsCover(bunch, b);
    }
    GroupSharesCover(DownPairs(bunch), key, v);
  }

  /** The grouped shares of the bunch plays' situation rows hold the
      counted shares. */
  lemma SituationTableShares(plays: seq<Play>)
    ensures var table := GroupShares(SituationPairs(BunchPlays(plays)));
      UniqueKeys(table) && SituationShares(plays, table)
  {
    var pairs := SituationPairs(BunchPlays(plays));
    var table := GroupShares(pairs);
    forall k, j | 0 <= k < |table| && 0 <= j < |table[k].1|
      ensures Count(plays, And(InBunch, InSituationAs(table[k].0, table[k].1[j].0))) > 0
      ensures Count(plays, And(InBunch, InSituation(table[k].0))) > 0
      ensures table[k].1[j].1
         == Count(plays, And(InBunch, InSituationAs(table[k].0, table[k].1[j].0))) as real
            / Count(plays, And(InBunch, InSituation(table[k].0))) as real
    {
      SituationShareAt(plays, k, j);
    }
  }

  lemma SituationShareAt(plays: seq<Play>, k: int, j: int)
    requires 0 <= k < |GroupShares(SituationPairs(BunchPlays(plays)))|
    requires 0 <= j < |GroupShares(SituationPairs(BunchPlays(plays)))[k].1|
    ensures var e := GroupShares(SituationPairs(BunchPlays(plays)))[k];
      && Count(plays, And(InBunch, InSituationAs(e.0, e.1[j].0))) > 0
      && Count(plays, And(InBunch, InSituation(e.0))) > 0
      && e.1[j].1 == Count(plays, And(InBunch, InSituationAs(e.0, e.1[j].0))) as real / Count(plays, And(InBunch, InSituation(e.0))) as real
  {
    var e := GroupShares(SituationPairs(BunchPlays(plays)))[k];
    GroupShareEntry(SituationPairs(BunchPlays(plays)), k, j);
    SituationEntry(plays, e.0, e.1[j].0);
  }

  /** The grouped shares of the bunch plays' situation rows cover every
      bunch play with a down, a yard line and a play type. */
  lemma SituationTableCovers(plays: seq<Play>)
    ensures SituationsCovered(plays, GroupShares(SituationPairs(BunchPlays(plays))))
  {
    var bunch := BunchPlays(plays);
    var pairs := SituationPairs(bunch);
    forall i | 0 <= i < |plays| && InBunch(plays[i]) && plays[i].down.Some? && plays[i].yardline.Some? && plays[i].playType.Some?
      ensures exists k, j ::
        0 <= k < |GroupShares(pairs)| && 0 <= j < |GroupShares(pairs)[k].1|
        && GroupShares(pairs)[k].0 == (plays[i].down.value, plays[i].yardline.value)
        && GroupShares(pairs)[k].1[j].0 == plays[i].playType.value
    {
      SituationCoverAt(plays, i);
    }
  }

  lemma SituationCoverAt(plays: seq<Play>, i: int)
    requires 0 <= i < |plays| && InBunch(plays[i])
    requires plays[i].down.Some? && plays[i].yardline.Some? && plays[i].playType.Some?
    ensures var table := GroupShares(SituationPairs(BunchPlays(plays)));
      exists k, j ::
        0 <= k < |table| && 0 <= j < |table[k].1|
        && table[k].0 == (plays[i].down.value, plays[i].yardline.value) && table[k].1[j].0 == plays[i].playType.value
  {
    var bunch := BunchPlays(plays);
    var key, v := (plays[i].down.value, plays[i].yardline.value), plays[i].playType.value;
    assert (key, v) in SituationPairs(bunch) by {
      assert plays[i] in bunch;
      var b :| 0 <= b < |bunch| && bunch[b] == plays[i];
      SituationPairsCover(bunch, b);
    }
    GroupSharesCover(SituationPairs(bunch), key, v);
  }

  datatype Analysis = Analysis(
    tendencies: Tendencies,
    byDown: seq<(int, seq<(string, real)>)>,
    bySituation: seq<((int, int), seq<(string, real)>)>)

  /** `analyze_3x1_bunch_formation`: the tendencies are undefined (NaN)
      exactly when no play is in the formation, and the two share tables
      are those of the formation's plays. */
  function Analyze3x1BunchFormation(plays: seq<Play>): (a: Analysis)
    ensures a.tendencies.runPercentage.None? <==> forall k :: 0 <= k < |plays| ==> !InBunch(plays[k])
    ensures Count(plays, InBunch) == 0 ==>
      a.tendencies.runPercentage.None? && a.tendencies.passPercentage.None? && a.tendencies.successRate.None?
    ensures Count(plays, InBunch) > 0 ==>
      && a.tendencies.runPercentage == Some(PercentOf(Count(plays, And(InBunch, IsRun)), Count(plays, InBunch)))
      && a.tendencies.passPercentage == Some(PercentOf(Count(plays, And(InBunch, IsPass)), Count(plays, InBunch)))
      && a.tendencies.successRate == Some(PercentOf(Count(plays, And(InBunch, Succeeded)), Count(plays, InBunch)))
    ensures a.tendencies.avgYardsGained.None? <==>
      forall k :: 0 <= k < |plays| && InBunch(plays[k]) ==> plays[k].yardsGained.None?
    ensures UniqueKeys(a.byDown) && DownShares(plays, a.byDown) && DownsCovered(plays, a.byDown)
    ensures UniqueKeys(a.bySituation) && SituationShares(plays, a.bySituation) && SituationsCovered(plays, a.bySituation)
  {
    var bunch := BunchPlays(plays);
    assert |bunch| > 0 ==> bunch[0] in bunch;
    DownTableShares(plays);
    DownTableCovers(plays);
    SituationTableShares(plays);
    SituationTableCovers(plays);
    BunchCounts(plays);
    BunchYardsNull(plays);
    Analysis(OverallTendencies(bunch), GroupShares(DownPairs(bunch)), GroupShares(SituationPairs(bunch)))
  }

  /** Counting among the formation plays is counting the formation plays
      of the input that also match. */
  lemma BunchCounts(plays: seq<Play>)
    ensures Count(BunchPlays(plays), IsRun) == Count(plays, And(InBunch, IsRun))
    ensures Count(BunchPlays(plays), IsPass) == Count(plays, And(InBunch, IsPass))
    ensures Count(BunchPlays(plays), Succeeded) == Count(plays, And(InBunch, Succeeded))
  {
    CountFiltered(plays, InBunch, IsRun);
    CountFiltered(plays, InBunch, IsPass);
    CountFiltered(plays, InBunch, Succeeded);
  }

  /** The formation's yardage column has no value exactly when every
      formation play's yardage is null. */
  lemma BunchYardsNull(plays: seq<Play>)
    ensures |Present(YardsColumn(BunchPlays(plays)))| == 0 <==>
      forall k :: 0 <= k < |plays| && InBunch(plays[k]) ==> plays[k].yardsGained.None?
  {
    var bunch := BunchPlays(plays);
    var column := YardsColumn(bunch);
    PresentFrom(column);
    if |Present(column)| == 0 {
      forall k | 0 <= k < |plays| && InBunch(plays[k])
        ensures plays[k].yardsGained.None?
      {
        var b :| 0 <= b < |bunch| && bunch[b] == plays[k];
        assert column[b] == plays[k].yardsGained;
      }
    } else {
      var b :| 0 <= b < |column| && column[b].Some?;
      assert bunch[b] in bunch;
      var k :| 0 <= k < |plays| && plays[k] == bunch[b];
      assert InBunch(plays[k]) && plays[k].yardsGained.Some?;
    }
  }

  /** Every row of a per-down table is the down of some play in the
      formation. */
  ghost predicate DownsFromPlays(plays: seq<Play>, table: seq<(int, seq<(string, real)>)>)
  {
    forall k :: 0 <= k < |table| ==>
      exists j :: 0 <= j < |plays| && InBunch(plays[j]) && plays[j].down == Some(table[k].0)
  }

  /** Every per-down row is the down of some play in the formation. */
  lemma DownRowsFromBunch(plays: seq<Play>)
    ensures DownsFromPlays(plays, Analyze3x1BunchFormation(plays).byDown)
  {
    assert Analyze3x1BunchFormation(plays).byDown == GroupShares(DownPairs(BunchPlays(plays)));
    DownKeysFromPlays(plays);
  }

  lemma DownKeysFromPlays(plays: seq<Play>)
    ensures DownsFromPlays(plays, GroupShares(DownPairs(BunchPlays(plays))))
  {
    var byDown := GroupShares(DownPairs(BunchPlays(plays)));
    forall k | 0 <= k < |byDown|
      ensures exists j :: 0 <= j < |plays| && InBunch(plays[j]) && plays[j].down == Some(byDown[k].0)
    {
      DownKeyFromPlay(plays, byDown[k].0);
    }
  }

  lemma DownKeyFromPlay(plays: seq<Play>, d: int)
    requires d in Distinct(Keys(DownPairs(BunchPlays(plays))))
    ensures exists j :: 0 <= j < |plays| && InBunch(plays[j]) && plays[j].down == Some(d)
  {
    var bunch := BunchPlays(plays);
    var pairs := DownPairs(bunch);
    var i :| 0 <= i < |pairs| && Keys(pairs)[i] == d;
    var b :| 0 <= b < |bunch| && bunch[b].down == Some(pairs[i].0) && bunch[b].playType == Some(pairs[i].1);
    assert bunch[b] in bunch;
    var j :| 0 <= j < |plays| && plays[j] == bunch[b];
  }

  /** In every down row and every situation row the play-type shares add up
      to 1. */
  lemma SharesSumToOne(plays: seq<Play>)
    ensures var a := Analyze3x1BunchFormation(plays);
      && (forall k :: 0 <= k < |a.byDown| ==> TotalShare(a.byDown[k].1) == 1.0)
      && (forall k :: 0 <= k < |a.bySituation| ==> TotalShare(a.bySituation[k].1) == 1.0)
  {
    var bunch := BunchPlays(plays);
    GroupSharesAddUp(DownPairs(bunch));
    GroupSharesAddUp(SituationPairs(bunch));
  }

  /** Only bunch plays matter: adding plays in other personnel groupings
      changes nothing. */
  lemma OtherPersonnelIgnored(plays: seq<Play>, other: Play)
    requires !InBunch(other)
    ensures Analyze3x1BunchFormation(plays + [other]) == Analyze3x1BunchFormation(plays)
  {
    FilterAppendRejected(plays, InBunch, other);
  }
}

=== FILE: player_quality.dfy ===
/** Player quality as percentiles: for each of five statistics, the share
    of the position group whose value is strictly below the player's. A
    null value (NaN) compares false on both sides, so it never counts as
    below and a null player value has nothing below it. */
module PlayerQuality {
  import opened Common

  /** The statistics assessed, in the order the result lists them. */
  const QualityStats: seq<string> := ["passing_yards", "rushing_yards", "receptions", "receiving_yards", "touchdowns"]

  /** `group_value < player_value` under NaN semantics. */
  predicate Below(v: Option<real>, g: Option<real>)
  {
    g.Some? && v.Some? && g.value < v.value
  }

  function CountBelow(group: seq<Option<real>>, v: Option<real>): (n: nat)
    ensures n <= |group|
  {
    Count(group, g => Below(v, g))
  }

  /** `(group < v).mean() * 100`; an empty group gives NaN (`None`). */
  function Percentile(group: seq<Option<real>>, v: Option<real>): (p: Option<real>)
    ensures p.None? <==> |group| == 0
    ensures p.Some? ==> 0.0 <= p.value <= 100.0
    ensures p.Some? ==> p.value * (|group| as real) == 100.0 * (CountBelow(group, v) as real)
  {
    if |group| == 0 then None
    else
      var n := |group| as real;
      var c := CountBelow(group, v) as real;
      assert 0.0 <= c <= n;
      assert 100.0 * c / n <= 100.0 by {
        assert 100.0 * c <= 100.0 * n;
      }
      Some(100.0 * c / n)
  }

  lemma {:induction false} CountZero<T>(s: seq<T>, p: T -> bool)
    ensures Count(s, p) == 0 <==> forall k :: 0 <= k < |s| ==> !p(s[k])
  {
    if |s| > 0 {
      CountZero(s[1..], p);
      assert forall k :: 1 <= k < |s| ==> s[k] == s[1..][k - 1];
    }
  }

  lemma {:induction false} CountFull<T>(s: seq<T>, p: T -> bool)
    ensures Count(s, p) == |s| <==> forall k :: 0 <= k < |s| ==> p(s[k])
  {
    if |s| > 0 {
      CountFull(s[1..], p);
      assert forall k :: 1 <= k < |s| ==> s[k] == s[1..][k - 1];
    }
  }

  /** The percentile is 0 exactly when no group value lies strictly below
      the player's, and 100 exactly when every group value does. */
  lemma PercentileExtremes(group: seq<Option<real>>, v: Option<real>)
    requires |group| > 0
    ensures Percentile(group, v).value == 0.0 <==> forall k :: 0 <= k < |group| ==> !Below(v, group[k])
    ensures Percentile(group, v).value == 100.0 <==> forall k :: 0 <= k < |group| ==> Below(v, group[k])
  {
    CountZero(group, g => Below(v, g));
    CountFull(group, g => Below(v, g));
    var n := |group| as real;
    var c := CountBelow(group, v) as real;
    assert Percentile(group, v).value * n == 100.0 * c;
  }

  /** A player value at or under every (present) group value scores 0. */
  lemma AtMinimumScoresZero(group: seq<Option<real>>, v: real)
    requires |group| > 0
    requires forall k :: 0 <= k < |group| && group[k].Some? ==> v <= group[k].value
    ensures Percentile(group, Some(v)) == Some(0.0)
  {
    PercentileExtremes(group, Some(v));
  }

  lemma {:induction false} CountMonotone<T>(s: seq<T>, p: T -> bool, q: T -> bool)
    requires forall k :: 0 <= k < |s| && p(s[k]) ==> q(s[k])
    ensures Count(s, p) <= Count(s, q)
  {
    if |s| > 0 {
      assert forall k :: 1 <= k < |s| ==> s[k] == s[1..][k - 1];
      CountMonotone(s[1..], p, q);
    }
  }

  /** Raising the player's value never lowers the percentile. */
  lemma PercentileMonotone(group: seq<Option<real>>, v1: real, v2: real)
    requires |group| > 0
    requires v1 <= v2
    ensures Percentile(group, Some(v1)).value <= Percentile(group, Some(v2)).value
  {
    CountMonotone(group, g => Below(Some(v1), g), g => Below(Some(v2), g));
    var n := |group| as real;
    var c1 := CountBelow(group, Some(v1)) as real;
    var c2 := CountBelow(group, Some(v2)) as real;
    assert 100.0 * c1 <= 100.0 * c2;
    DivideMonotone(100.0 * c1, 100.0 * c2, n);
  }

  lemma DivideMonotone(a: real, b: real, n: real)
    requires a <= b && n > 0.0
    ensures a / n <= b / n
  {
    assert b / n - a / n == (b - a) / n;
  }

  /** A row of player data: its value in each column it has. */
  type PlayerRow = map<string, Option<real>>

  /** The position group: each column's values. */
  type PositionTable = map<string, seq<Option<real>>>

  datatype QualityError = NoPlayerRow   // `iloc[0]` on an empty frame

  predicate Assessed(player: PlayerRow, position: PositionTable, stat: string)
  {
    stat in player && stat in position
  }

  /** `Assessed` as a row test on statistic names. */
  function AssessedIn(player: PlayerRow, position: PositionTable): string -> bool
  {
    s => Assessed(player, position, s)
  }

  /** The listed statistics the loop scores, in list order. */
  function AssessedStats(stats: seq<string>, player: PlayerRow, position: PositionTable): seq<string>
  {
    Filter(stats, AssessedIn(player, position))
  }

  /** The percentile of each listed statistic that both inputs have, in
      list order; with no statistic listed twice, none is scored twice. */
  function ScoreStats(stats: seq<string>, player: PlayerRow, position: PositionTable): (scores: seq<(string, Option<real>)>)
    ensures |scores| == |AssessedStats(stats, player, position)|
    ensures forall k :: 0 <= k < |scores| ==> scores[k].0 == AssessedStats(stats, player, position)[k]
    ensures forall k :: 0 <= k < |scores| ==>
      var stat := scores[k].0;
      stat in stats && stat in player && stat in position && scores[k].1 == Percentile(position[stat], player[stat])
    ensures forall j :: 0 <= j < |stats| && stats[j] in player && stats[j] in position ==>
      exists k :: 0 <= k < |scores| && scores[k].0 == stats[j]
    ensures NoDuplicates(stats) ==> forall k1, k2 :: 0 <= k1 < k2 < |scores| ==> scores[k1].0 != scores[k2].0
  {
    var kept := AssessedStats(stats, player, position);
    assert forall k :: 0 <= k < |kept| ==> kept[k] in kept;
    assert forall k :: 0 <= k < |kept| ==> kept[k] in stats && Assessed(player, position, kept[k]);
    var scores := seq(|kept|, k requires 0 <= k < |kept| => (kept[k], Percentile(position[kept[k]], player[kept[k]])));
    forall j | 0 <= j < |stats| && stats[j] in player && stats[j] in position
      ensures exists k :: 0 <= k < |scores| && scores[k].0 == stats[j]
    {
      var k :| 0 <= k < |kept| && kept[k] == stats[j];
      assert scores[k].0 == stats[j];
    }
    FilterNoDuplicates(stats, AssessedIn(player, position));
    scores
  }

  /** `assess_player_quality`: only the first player row is read; a
      statistic is scored only when both inputs have it, each at most once
      and in list order. */
  function AssessPlayerQuality(playerRows: seq<PlayerRow>, position: PositionTable): (r: Result<seq<(string, Option<real>)>, QualityError>)
    ensures r.Err? <==> |playerRows| == 0
    ensures r.Ok? ==> |r.value| == |AssessedStats(QualityStats, playerRows[0], position)|
    ensures r.Ok? ==> forall k :: 0 <= k < |r.value| ==> r.value[k].0 == AssessedStats(QualityStats, playerRows[0], position)[k]
    ensures r.Ok? ==> forall k :: 0 <= k < |r.value| ==>
      var stat := r.value[k].0;
      && stat in QualityStats
      && stat in playerRows[0] && stat in position
      && r.value[k].1 == Percentile(position[stat], playerRows[0][stat])
    ensures r.Ok? ==> forall j :: 0 <= j < |QualityStats| && QualityStats[j] in playerRows[0] && QualityStats[j] in position ==>
      exists k :: 0 <= k < |r.value| && r.value[k].0 == QualityStats[j]
    ensures r.Ok? ==> forall k1, k2 :: 0 <= k1 < k2 < |r.value| ==> r.value[k1].0 != r.value[k2].0
  {
    if |playerRows| == 0 then Err(NoPlayerRow)
    else
      assert NoDuplicates(QualityStats);
      Ok(ScoreStats(QualityStats, playerRows[0], position))
  }

  /** Rows after the first do not affect the assessment. */
  lemma OnlyFirstRowRead(rows1: seq<PlayerRow>, rows2: seq<PlayerRow>, position: PositionTable)
    requires |rows1| > 0 && |rows2| > 0 && rows1[0] == rows2[0]
    ensures AssessPlayerQuality(rows1, position) == AssessPlayerQuality(rows2, position)
  {
  }
}

=== FILE: text.dfy ===
/** The string operations the scrapers and the path handling rely on, with
    the semantics of Python's `str` methods and of `posixpath`, restricted to
    ASCII where letter case matters. */
module Text {
  import opened Common

  /** Python `s.split(sep)` for a one-character separator: always at least
      one piece, empty pieces kept. */
  function Split(s: string, sep: char): (parts: seq<string>)
    ensures |parts| >= 1
    ensures forall k :: 0 <= k < |parts| ==> sep !in parts[k]
    ensures Join(parts, sep) == s
  {
    if |s| == 0 then [""]
    else
      var rest := Split(s[1..], sep);
      if s[0] == sep then
        assert ([""] + rest)[1..] == rest;
        [""] + rest
      else
        var parts := [[s[0]] + rest[0]] + rest[1..];
        assert s == [s[0]] + s[1..];
        assert |rest| > 1 ==> parts[1..] == rest[1..];
        parts
  }

  /** Python `sep.join(parts)`, the inverse of `Split`. */
  function Join(parts: seq<string>, sep: char): string
    requires |parts| >= 1
  {
    if |parts| == 1 then parts[0] else parts[0] + [sep] + Join(parts[1..], sep)
  }

  lemma {:induction false} SplitPlain(x: string, sep: char)
    requires sep !in x
    ensures Split(x, sep) == [x]
  {
    if |x| > 0 {
      assert sep !in x[1..];
      SplitPlain(x[1..], sep);
    }
  }

  lemma {:induction false} SplitAtFirst(x: string, sep: char, y: string)
    requires sep !in x
    ensures Split(x + [sep] + y, sep) == [x] + Split(y, sep)
  {
    if |x| == 0 {
      assert x + [sep] + y == [sep] + y;
      assert ([sep] + y)[1..] == y;
    } else {
      assert (x + [sep] + y)[1..] == x[1..] + [sep] + y;
      assert sep !in x[1..];
      SplitAtFirst(x[1..], sep, y);
      assert x == [x[0]] + x[1..];
    }
  }

  /** Splitting a joined list whose pieces do not contain the separator
      gives the pieces back. */
  lemma {:induction false} SplitJoin(parts: seq<string>, sep: char)
    requires |parts| >= 1
    requires forall k :: 0 <= k < |parts| ==> sep !in parts[k]
    ensures Split(Join(parts, sep), sep) == parts
  {
    if |parts| == 1 {
      SplitPlain(parts[0], sep);
    } else {
      SplitJoin(parts[1..], sep);
      SplitAtFirst(parts[0], sep, Join(parts[1..], sep));
      assert parts == [parts[0]] + parts[1..];
    }
  }

  /** The first piece of `Split(x + [sep] + y)` is `x` when `x` holds no separator. */
  lemma FirstPiece(x: string, sep: char, y: string)
    requires sep !in x
    ensures Split(x + [sep] + y, sep)[0] == x
  {
    SplitAtFirst(x, sep, y);
  }

  /** One step of `posixpath.join(path, b)`: an absolute `b` replaces the
      path, otherwise `b` is appended after a '/' unless the path is empty or
      already ends in '/'. */
  function JoinStep(path: string, b: string): string
  {
    if |b| > 0 && b[0] == '/' then b
    else if |path| == 0 || path[|path| - 1] == '/' then path + b
    else path + "/" + b
  }

  /** `os.path.join(a, *bs)` on POSIX. */
  function PathJoin(a: string, bs: seq<string>): string
    decreases |bs|
  {
    if |bs| == 0 then a else PathJoin(JoinStep(a, bs[0]), bs[1..])
  }

  /** Joining one more component after a join is a join of the longer list. */
  lemma {:induction false} PathJoinAppend(a: string, bs: seq<string>, c: string)
    ensures PathJoin(PathJoin(a, bs), [c]) == PathJoin(a, bs + [c])
    decreases |bs|
  {
    if |bs| > 0 {
      PathJoinAppend(JoinStep(a, bs[0]), bs[1..], c);
      assert (bs + [c])[1..] == bs[1..] + [c];
    }
  }

  /** A path component that `Split` and `PathJoin` treat as one plain name. */
  predicate PlainComponent(c: string)
  {
    |c| > 0 && '/' !in c
  }

  /** With plain components, `PathJoin` is a '/'-join. */
  lemma {:induction false} PathJoinPlain(a: string, bs: seq<string>)
    requires PlainComponent(a)
    requires forall k :: 0 <= k < |bs| ==> PlainComponent(bs[k])
    ensures PathJoin(a, bs) == Join([a] + bs, '/')
  {
    if |bs| == 0 {
    } else {
      PathJoinPlainFrom(a, bs);
    }
  }

  lemma {:induction false} PathJoinPlainFrom(prefix: string, bs: seq<string>)
    requires |prefix| > 0 && prefix[|prefix| - 1] != '/'
    requires forall k :: 0 <= k < |bs| ==> PlainComponent(bs[k])
    ensures |bs| > 0 ==> PathJoin(prefix, bs) == prefix + "/" + Join(bs, '/')
    ensures |bs| == 0 ==> PathJoin(prefix, bs) == prefix
    decreases |bs|
  {
    if |bs| > 0 {
      var next := prefix + "/" + bs[0];
      assert JoinStep(prefix, bs[0]) == next;
      PathJoinPlainFrom(next, bs[1..]);
      if |bs| > 1 {
        assert Join(bs, '/') == bs[0] + ['/'] + Join(bs[1..], '/');
      }
    }
  }

  lemma JoinCons(a: string, bs: seq<string>, sep: char)
    requires |bs| > 0
    ensures Join([a] + bs, sep) == a + [sep] + Join(bs, sep)
  {
    assert ([a] + bs)[1..] == bs;
  }

  /** `os.path.basename(p)`: the text after the last '/'. */
  function Basename(p: string): string
  {
    var parts := Split(p, '/');
    parts[|parts| - 1]
  }

  /** Python `parts[1:-1]`: drop the first and the last element. */
  function Interior<T>(parts: seq<T>): (r: seq<T>)
    ensures |parts| >= 2 ==> |r| == |parts| - 2 && forall k :: 0 <= k < |r| ==> r[k] == parts[k + 1]
    ensures |parts| < 2 ==> r == []
  {
    if |parts| < 2 then [] else parts[1..|parts| - 1]
  }

  predicate IsUpper(c: char) { 'A' <= c <= 'Z' }

  predicate IsLower(c: char) { 'a' <= c <= 'z' }

  /** A letter with case (ASCII). */
  predicate IsCased(c: char) { IsUpper(c) || IsLower(c) }

  function ToUpper(c: char): (u: char)
    ensures IsCased(u) == IsCased(c)
    ensures !IsLower(u)
    ensures !IsCased(c) ==> u == c
  {
    if IsLower(c) then (c as int - 32) as char else c
  }

  function ToLower(c: char): (l: char)
    ensures IsCased(l) == IsCased(c)
    ensures !IsUpper(l)
    ensures !IsCased(c) ==> l == c
  {
    if IsUpper(c) then (c as int + 32) as char else c
  }

  /** The character `title()` writes for `c`: lower case inside a word (after
      a cased letter), upper case at the start of a word. */
  function TitleChar(c: char, afterCased: bool): char
  {
    if afterCased then ToLower(c) else ToUpper(c)
  }

  function TitleFrom(s: string, afterCased: bool): (r: string)
    ensures |r| == |s|
    ensures forall k :: 0 <= k < |s| ==>
      r[k] == TitleChar(s[k], if k == 0 then afterCased else IsCased(s[k - 1]))
  {
    if |s| == 0 then ""
    else
      var rest := TitleFrom(s[1..], IsCased(s[0]));
      assert forall k :: 1 <= k < |s| ==> s[1..][k - 1] == s[k];
      [TitleChar(s[0], afterCased)] + rest
  }

  /** Python `s.title()` on ASCII text. */
  function Title(s: string): string
  {
    TitleFrom(s, false)
  }

  /** `title()` upper-cases exactly the letters that start a word and
      lower-cases every other letter; other characters are unchanged. */
  lemma TitleCharacters(s: string)
    ensures |Title(s)| == |s|
    ensures forall k :: 0 <= k < |s| ==> IsCased(Title(s)[k]) == IsCased(s[k])
    ensures forall k :: 0 <= k < |s| && !IsCased(s[k]) ==> Title(s)[k] == s[k]
    ensures forall k :: 0 <= k < |s| && IsCased(s[k]) ==>
      (IsUpper(Title(s)[k]) <==> k == 0 || !IsCased(s[k - 1]))
  {
    var t := Title(s);
    forall k | 0 <= k < |s|
      ensures IsCased(t[k]) == IsCased(s[k])
      ensures !IsCased(s[k]) ==> t[k] == s[k]
    {
      assert t[k] == TitleChar(s[k], if k == 0 then false else IsCased(s[k - 1]));
    }
  }

  /** `title()` is idempotent. */
  lemma TitleIdempotent(s: string)
    ensures Title(Title(s)) == Title(s)
  {
    var t := Title(s);
    TitleCharacters(s);
    forall k | 0 <= k < |s|
      ensures Title(t)[k] == t[k]
    {
      var after := if k == 0 then false else IsCased(t[k - 1]);
      assert after == (if k == 0 then false else IsCased(s[k - 1]));
    }
  }

  /** Python `s.capitalize()` on ASCII text: first character upper case,
      every other character lower case. */
  function Capitalize(s: string): (r: string)
    ensures |r| == |s|
    ensures |s| > 0 ==> r[0] == ToUpper(s[0])
    ensures forall k :: 1 <= k < |s| ==> r[k] == ToLower(s[k])
  {
    if |s| == 0 then ""
    else [ToUpper(s[0])] + seq(|s| - 1, k requires 0 <= k < |s| - 1 => ToLower(s[k + 1]))
  }

  /** Python `s.replace(a, b)` for single characters. */
  function ReplaceChar(s: string, a: char, b: char): (r: string)
    ensures |r| == |s|
    ensures a != b ==> a !in r
    ensures forall k :: 0 <= k < |s| ==> r[k] == (if s[k] == a then b else s[k])
  {
    seq(|s|, k requires 0 <= k < |s| => if s[k] == a then b else s[k])
  }

  /** The regex replacement `'[\$,]' -> ''` used on the scraped money
      columns: every '$' and ',' is removed, everything else kept in order. */
  function StripMoney(s: string): (r: string)
    ensures '$' !in r && ',' !in r
    ensures IsSubsequence(r, s)
    ensures |r| == |s| - Count(s, IsMoneyMark)
  {
    var r := Filter(s, Not(IsMoneyMark));
    assert forall c :: Not(IsMoneyMark)(c) == !IsMoneyMark(c);
    FilterPartition(s, IsMoneyMark);
    r
  }

  predicate IsMoneyMark(c: char) { c == '$' || c == ',' }

  /** Stripping twice strips nothing more. */
  lemma {:induction false} StripMoneyIdempotent(s: string)
    ensures StripMoney(StripMoney(s)) == StripMoney(s)
  {
    var r := StripMoney(s);
    assert forall k :: 0 <= k < |r| ==> !IsMoneyMark(r[k]);
    FilterKeepsAll(r, Not(IsMoneyMark));
  }

  lemma {:induction false} FilterKeepsAll<T>(s: seq<T>, p: T -> bool)
    requires forall k :: 0 <= k < |s| ==> p(s[k])
    ensures Filter(s, p) == s
  {
    if |s| > 0 {
      FilterKeepsAll(s[1..], p);
    }
  }
}

=== FILE: touchdown_search.dfy ===
/** Removal of touchdown annotations from the COMPLETE route cloud. Each pass
    slides a marker template over a 275 x 275 grid of offsets (0.2 yard
    steps), keeps the first offset whose placement cost is strictly lowest
    and below 20, matches template points to cloud points at that offset, and
    deletes the matched cloud points. The distance between two points and the
    one-to-one matching are oracles; the cost of a placement (the sum, over
    the template points, of the distance to the nearest cloud point), the
    scan order, the selection rule and the deletion are modelled exactly. */
module TouchdownSearch {
  import opened Common
  import opened FieldGeometry

  /** Offsets per grid axis. */
  const GridSteps: nat := 275
  /** Yards moved per grid step. */
  const StepYards: real := 0.2
  /** A placement is only accepted when its cost is strictly below this. */
  const CostThreshold: real := 20.0

  /** Grid offset: the template moves `i` steps toward -x and `j` toward +y. */
  datatype Offset = Offset(i: nat, j: nat)

  predicate InGrid(o: Offset)
  {
    o.i < GridSteps && o.j < GridSteps
  }

  /** `o` is visited before `o2` (i in the outer loop, j in the inner one). */
  predicate Before(o: Offset, o2: Offset)
  {
    o.i < o2.i || (o.i == o2.i && o.j < o2.j)
  }

  /** The template moved by an offset. */
  function Shift(template: seq<FieldPoint>, o: Offset): (placed: seq<FieldPoint>)
    ensures |placed| == |template|
  {
    seq(|template|, k requires 0 <= k < |template| =>
      FieldPoint(template[k].x - StepYards * o.i as real, template[k].y + StepYards * o.j as real))
  }

  /** Distance from `p` to the nearest cloud point: a column minimum of the
      pairwise distance matrix. */
  function Nearest(cloud: seq<FieldPoint>, p: FieldPoint, dist: (FieldPoint, FieldPoint) -> real): (d: real)
    requires |cloud| > 0
    ensures forall k :: 0 <= k < |cloud| ==> d <= dist(cloud[k], p)
    ensures exists k :: 0 <= k < |cloud| && d == dist(cloud[k], p)
  {
    if |cloud| == 1 then dist(cloud[0], p)
    else
      var m := Nearest(cloud[1..], p, dist);
      assert forall k :: 1 <= k < |cloud| ==> cloud[1..][k - 1] == cloud[k];
      if dist(cloud[0], p) <= m then dist(cloud[0], p) else m
  }

  /** Cost of a placement: the sum of the column minima. */
  function PlacementCost(cloud: seq<FieldPoint>, placed: seq<FieldPoint>, dist: (FieldPoint, FieldPoint) -> real): real
    requires |cloud| > 0
  {
    if |placed| == 0 then 0.0
    else Nearest(cloud, placed[0], dist) + PlacementCost(cloud, placed[1..], dist)
  }

  /** The cost of every grid offset for the current cloud. */
  function CostAt(cloud: seq<FieldPoint>, template: seq<FieldPoint>, dist: (FieldPoint, FieldPoint) -> real): Offset -> real
    requires |cloud| > 0
  {
    o => PlacementCost(cloud, Shift(template, o), dist)
  }

  /** The cost an offset has to beat: the threshold, or the kept offset's cost. */
  function Bar(cost: Offset -> real, kept: Option<Offset>): real
  {
    if kept.None? then CostThreshold else cost(kept.value)
  }

  function Visit(cost: Offset -> real, kept: Option<Offset>, o: Offset): Option<Offset>
  {
    if cost(o) < Bar(cost, kept) then Some(o) else kept
  }

  /** The inner loop: offsets (i, j), (i, j + 1), ... of one grid row. */
  function ScanRow(cost: Offset -> real, i: nat, j: nat, kept: Option<Offset>): Option<Offset>
    requires j <= GridSteps
    decreases GridSteps - j
  {
    if j == GridSteps then kept else ScanRow(cost, i, j + 1, Visit(cost, kept, Offset(i, j)))
  }

  /** The outer loop: grid rows i, i + 1, ... */
  function ScanFrom(cost: Offset -> real, i: nat, kept: Option<Offset>): Option<Offset>
    requires i <= GridSteps
    decreases GridSteps - i
  {
    if i == GridSteps then kept else ScanFrom(cost, i + 1, ScanRow(cost, i, 0, kept))
  }

  /** `kept` is the first grid offset of least cost, provided that cost is
      below the threshold; `None` when no offset gets below it. */
  ghost predicate IsFirstMinimum(cost: Offset -> real, kept: Option<Offset>)
  {
    match kept
    case None => forall o :: InGrid(o) ==> cost(o) >= CostThreshold
    case Some(b) =>
      && InGrid(b)
      && cost(b) < CostThreshold
      && (forall o :: InGrid(o) ==> cost(b) <= cost(o))
      && (forall o :: InGrid(o) && Before(o, b) ==> cost(b) < cost(o))
  }

  /** The whole grid scan of one removal pass. */
  function Search(cost: Offset -> real): (kept: Option<Offset>)
    ensures IsFirstMinimum(cost, kept)
  {
    ScanFromFinds(cost, 0, None);
    WholeGridScanned(cost, ScanFrom(cost, 0, None));
    ScanFrom(cost, 0, None)
  }

  /** `o` was visited before the scan reached offset (i, j). */
  predicate ScannedBefore(o: Offset, i: nat, j: nat)
  {
    InGrid(o) && (o.i < i || (o.i == i && o.j < j))
  }

  /** `IsFirstMinimum` restricted to the offsets visited before (i, j). */
  ghost predicate FirstMinimumBefore(cost: Offset -> real, kept: Option<Offset>, i: nat, j: nat)
  {
    match kept
    case None => forall o :: ScannedBefore(o, i, j) ==> cost(o) >= CostThreshold
    case Some(b) =>
      && ScannedBefore(b, i, j)
      && cost(b) < CostThreshold
      && (forall o :: ScannedBefore(o, i, j) ==> cost(b) <= cost(o))
      && (forall o :: ScannedBefore(o, i, j) && Before(o, b) ==> cost(b) < cost(o))
  }

  lemma VisitKeepsFirstMinimum(cost: Offset -> real, kept: Option<Offset>, i: nat, j: nat)
    requires i < GridSteps && j < GridSteps
    requires FirstMinimumBefore(cost, kept, i, j)
    ensures FirstMinimumBefore(cost, Visit(cost, kept, Offset(i, j)), i, j + 1)
  {
    var here := Offset(i, j);
    assert forall o :: ScannedBefore(o, i, j + 1) ==> ScannedBefore(o, i, j) || o == here;
    assert Bar(cost, kept) <= CostThreshold;
    if kept.Some? {
      assert Before(kept.value, here);
    }
  }

  lemma {:induction false} ScanRowFinds(cost: Offset -> real, i: nat, j: nat, kept: Option<Offset>)
    requires i < GridSteps && j <= GridSteps
    requires FirstMinimumBefore(cost, kept, i, j)
    ensures FirstMinimumBefore(cost, ScanRow(cost, i, j, kept), i, GridSteps)
    decreases GridSteps - j
  {
    if j < GridSteps {
      VisitKeepsFirstMinimum(cost, kept, i, j);
      ScanRowFinds(cost, i, j + 1, Visit(cost, kept, Offset(i, j)));
    }
  }

  lemma {:induction false} ScanFromFinds(cost: Offset -> real, i: nat, kept: Option<Offset>)
    requires i <= GridSteps
    requires FirstMinimumBefore(cost, kept, i, 0)
    ensures FirstMinimumBefore(cost, ScanFrom(cost, i, kept), GridSteps, 0)
    decreases GridSteps - i
  {
    if i < GridSteps {
      ScanOneRow(cost, i, kept);
      ScanFromFinds(cost, i + 1, ScanRow(cost, i, 0, kept));
    }
  }

  lemma ScanOneRow(cost: Offset -> real, i: nat, kept: Option<Offset>)
    requires i < GridSteps
    requires FirstMinimumBefore(cost, kept, i, 0)
    ensures FirstMinimumBefore(cost, ScanRow(cost, i, 0, kept), i + 1, 0)
  {
    ScanRowFinds(cost, i, 0, kept);
    RowFinished(cost, ScanRow(cost, i, 0, kept), i);
  }

  /** Reaching the end of grid row i is reaching the start of row i + 1. */
  lemma RowFinished(cost: Offset -> real, kept: Option<Offset>, i: nat)
    requires i < GridSteps
    requires FirstMinimumBefore(cost, kept, i, GridSteps)
    ensures FirstMinimumBefore(cost, kept, i + 1, 0)
  {
    forall o | ScannedBefore(o, i + 1, 0)
      ensures ScannedBefore(o, i, GridSteps)
    {
    }
  }

  lemma WholeGridScanned(cost: Offset -> real, kept: Option<Offset>)
    requires FirstMinimumBefore(cost, kept, GridSteps, 0)
    ensures IsFirstMinimum(cost, kept)
  {
    forall o | InGrid(o)
      ensures ScannedBefore(o, GridSteps, 0)
    {
    }
  }

  /** The selection rule determines the offset: on a tie the earlier offset
      is the only one that satisfies it. */
  lemma FirstMinimumUnique(cost: Offset -> real, a: Option<Offset>, b: Option<Offset>)
    requires IsFirstMinimum(cost, a) && IsFirstMinimum(cost, b)
    ensures a == b
  {
    assert a.Some? && b.Some? ==>
      a.value == b.value || Before(a.value, b.value) || Before(b.value, a.value);
  }

  /** The indices, in increasing order, that a boolean mask of length `n`
      keeps when every index in `rows` is switched off. */
  function Survivors(n: nat, rows: seq<nat>): seq<nat>
  {
    if n == 0 then [] else Survivors(n - 1, rows) + (if n - 1 in rows then [] else [n - 1])
  }

  /** The survivors are exactly the unmarked indices below `n`, in
      increasing order. */
  lemma {:induction false} SurvivorsSpec(n: nat, rows: seq<nat>)
    ensures var s := Survivors(n, rows);
      && (forall a, b :: 0 <= a < b < |s| ==> s[a] < s[b])
      && (forall k :: k in s ==> k < n && k !in rows)
      && (forall k :: 0 <= k < n && k !in rows ==> k in s)
  {
    if n > 0 {
      SurvivorsSpec(n - 1, rows);
      var init := Survivors(n - 1, rows);
      var tail := if n - 1 in rows then [] else [n - 1];
      var s := Survivors(n, rows);
      assert s == init + tail;
      forall a | 0 <= a < |init|
        ensures init[a] < n - 1
      {
        assert init[a] in init;
      }
      forall a, b | 0 <= a < b < |s|
        ensures s[a] < s[b]
      {
        assert s[a] == init[a];
        if b >= |init| {
          assert s[b] == n - 1;
        }
      }
      forall k | k in s
        ensures k < n && k !in rows
      {
        if k !in init {
          assert k in tail;
        }
      }
      forall k | 0 <= k < n && k !in rows
        ensures k in s
      {
        if k == n - 1 {
          assert s[|s| - 1] == k;
        }
      }
    }
  }

  /** `cloud[mask]` where the mask is false exactly at `rows`. */
  function Masked<T>(cloud: seq<T>, rows: seq<nat>): (r: seq<T>)
    ensures |r| == |Survivors(|cloud|, rows)|
    ensures forall m :: 0 <= m < |r| ==>
      Survivors(|cloud|, rows)[m] < |cloud| && r[m] == cloud[Survivors(|cloud|, rows)[m]]
  {
    if |cloud| == 0 then []
    else
      var n := |cloud|;
      var init := cloud[..n - 1];
      var kept := Masked(init, rows);
      assert forall k :: 0 <= k < n - 1 ==> init[k] == cloud[k];
      kept + (if n - 1 in rows then [] else [cloud[n - 1]])
  }

  /** Masking only deletes: every kept point is a point of the cloud, no
      more often than it occurs there. */
  lemma {:induction false} MaskedSubmultiset<T>(cloud: seq<T>, rows: seq<nat>)
    ensures multiset(Masked(cloud, rows)) <= multiset(cloud)
  {
    if |cloud| > 0 {
      var n := |cloud|;
      var init := cloud[..n - 1];
      MaskedSubmultiset(init, rows);
      assert cloud == init + [cloud[n - 1]];
    }
  }

  /** Masking keeps the surviving points in their original order. */
  lemma {:induction false} MaskedSubsequence<T>(cloud: seq<T>, rows: seq<nat>)
    ensures IsSubsequence(Masked(cloud, rows), cloud)
  {
    if |cloud| > 0 {
      var n := |cloud|;
      var init := cloud[..n - 1];
      MaskedSubsequence(init, rows);
      assert cloud == init + [cloud[n - 1]];
      if n - 1 in rows {
        var kept := Masked(init, rows);
        assert Masked(cloud, rows) == kept + [] == kept;
        SubsequenceAppendRight(kept, init, cloud[n - 1]);
      } else {
        SubsequenceSnoc(Masked(init, rows), init, cloud[n - 1]);
      }
    }
  }

  datatype TdError =
    | EmptyCloud      // the column minimum of an empty distance matrix
    | RowOutOfRange   // a matched row outside the current cloud

  /** Deletion of the matched rows: an index past the end of the cloud is an
      error; otherwise the rows not listed survive, in their original order. */
  function DeleteRows<T>(cloud: seq<T>, rows: seq<nat>): (r: Result<seq<T>, TdError>)
    ensures r.Err? <==> exists k :: k in rows && k >= |cloud|
    ensures r.Ok? ==>
      var s := Survivors(|cloud|, rows);
      && |r.value| == |s|
      && (forall m :: 0 <= m < |s| ==> s[m] < |cloud| && r.value[m] == cloud[s[m]])
      && multiset(r.value) <= multiset(cloud)
      && IsSubsequence(r.value, cloud)
  {
    if exists k :: k in rows && k >= |cloud| then Err(RowOutOfRange)
    else
      MaskedSubmultiset(cloud, rows);
      MaskedSubsequence(cloud, rows);
      Ok(Masked(cloud, rows))
  }

  /** The distinct matched rows below `n`. */
  function RowsBelow(rows: seq<nat>, n: nat): set<nat>
  {
    set k | k in rows && k < n
  }

  lemma RowsBelowStep(rows: seq<nat>, n: nat)
    requires n > 0
    ensures RowsBelow(rows, n) == RowsBelow(rows, n - 1) + (if n - 1 in rows then {n - 1} else {})
  {
    forall k
      ensures k in RowsBelow(rows, n) <==> k in RowsBelow(rows, n - 1) || (k == n - 1 && n - 1 in rows)
    {
    }
  }

  lemma {:induction false} SurvivorsCount(n: nat, rows: seq<nat>)
    ensures |Survivors(n, rows)| == n - |RowsBelow(rows, n)|
  {
    if n == 0 {
      assert RowsBelow(rows, 0) == {};
    } else {
      SurvivorsCount(n - 1, rows);
      RowsBelowStep(rows, n);
      assert n - 1 !in RowsBelow(rows, n - 1);
    }
  }

  /** A successful deletion shrinks the cloud by the number of distinct
      matched rows. */
  lemma DeleteRowsCount<T>(cloud: seq<T>, rows: seq<nat>)
    requires DeleteRows(cloud, rows).Ok?
    ensures |DeleteRows(cloud, rows).value| == |cloud| - |set k | k in rows|
  {
    SurvivorsCount(|cloud|, rows);
    assert RowsBelow(rows, |cloud|) == set k | k in rows;
  }

  /** The rows matched by one pass: `None` when no offset beats the threshold. */
  function MatchedRows(cloud: seq<FieldPoint>, template: seq<FieldPoint>,
                       dist: (FieldPoint, FieldPoint) -> real,
                       assign: (seq<FieldPoint>, seq<FieldPoint>) -> seq<nat>): Option<seq<nat>>
    requires |cloud| > 0
  {
    var best := Search(CostAt(cloud, template, dist));
    if best.None? then None else Some(assign(cloud, Shift(template, best.value)))
  }

  /** `td` removal passes, stopping at the first pass that finds no placement. */
  function RemoveTouchdowns(cloud: seq<FieldPoint>, td: int, template: seq<FieldPoint>,
                            dist: (FieldPoint, FieldPoint) -> real,
                            assign: (seq<FieldPoint>, seq<FieldPoint>) -> seq<nat>): (r: Result<seq<FieldPoint>, TdError>)
    ensures td <= 0 ==> r == Ok(cloud)
    ensures r.Ok? ==> multiset(r.value) <= multiset(cloud)
    ensures r.Ok? ==> IsSubsequence(r.value, cloud)
    ensures r.Err? ==> td > 0
    decreases if td < 0 then 0 else td
  {
    if td <= 0 then SubsequenceRefl(cloud); Ok(cloud)
    else if |cloud| == 0 then Err(EmptyCloud)
    else
      match MatchedRows(cloud, template, dist, assign)
      case None => SubsequenceRefl(cloud); Ok(cloud)
      case Some(rows) =>
        match DeleteRows(cloud, rows)
        case Err(e) => Err(e)
        case Ok(rest) =>
          var r := RemoveTouchdowns(rest, td - 1, template, dist, assign);
          if r.Ok? then SubsequenceTrans(r.value, rest, cloud); r else r
  }

  /** A pass whose search fails ends the removal with the cloud it was given. */
  lemma FailedPassKeepsCloud(cloud: seq<FieldPoint>, td: int, template: seq<FieldPoint>,
                             dist: (FieldPoint, FieldPoint) -> real,
                             assign: (seq<FieldPoint>, seq<FieldPoint>) -> seq<nat>)
    requires td > 0 && |cloud| > 0
    requires forall o :: InGrid(o) ==> CostAt(cloud, template, dist)(o) >= CostThreshold
    ensures RemoveTouchdowns(cloud, td, template, dist, assign) == Ok(cloud)
  {
    var cost := CostAt(cloud, template, dist);
    FirstMinimumUnique(cost, Search(cost), None);
  }

  /** A pass that finds a placement deletes the matched rows, shrinking the
      cloud by the number of distinct rows, and the remaining passes run on
      what is left; an out-of-range row ends the removal with an error. */
  lemma RemovalPass(cloud: seq<FieldPoint>, td: int, template: seq<FieldPoint>,
                    dist: (FieldPoint, FieldPoint) -> real,
                    assign: (seq<FieldPoint>, seq<FieldPoint>) -> seq<nat>)
    requires td > 0 && |cloud| > 0
    requires MatchedRows(cloud, template, dist, assign).Some?
    ensures var rows := MatchedRows(cloud, template, dist, assign).value;
      match DeleteRows(cloud, rows)
      case Err(e) => RemoveTouchdowns(cloud, td, template, dist, assign) == Err(e)
      case Ok(rest) =>
        && |rest| == |cloud| - |set k | k in rows|
        && RemoveTouchdowns(cloud, td, template, dist, assign) == RemoveTouchdowns(rest, td - 1, template, dist, assign)
  {
    var rows := MatchedRows(cloud, template, dist, assign).value;
    if DeleteRows(cloud, rows).Ok? {
      DeleteRowsCount(cloud, rows);
    }
  }

  /** The removal loop as the source writes it: a pass whose search fails
      falls back on the rows matched by an earlier pass (`lastRows`) and only
      stops when there are none. */
  function RemoveTouchdownsAsWritten(cloud: seq<FieldPoint>, td: int, lastRows: Option<seq<nat>>,
                                     template: seq<FieldPoint>,
                                     dist: (FieldPoint, FieldPoint) -> real,
                                     assign: (seq<FieldPoint>, seq<FieldPoint>) -> seq<nat>): (r: Result<seq<FieldPoint>, TdError>)
    ensures td <= 0 ==> r == Ok(cloud)
    ensures r.Ok? ==> multiset(r.value) <= multiset(cloud)
    ensures r.Ok? ==> IsSubsequence(r.value, cloud)
    ensures r.Err? ==> td > 0
    decreases if td < 0 then 0 else td
  {
    if td <= 0 then SubsequenceRefl(cloud); Ok(cloud)
    else if |cloud| == 0 then Err(EmptyCloud)
    else
      var rows := match MatchedRows(cloud, template, dist, assign)
                  case Some(rs) => Some(rs)
                  case None => lastRows;
      match rows
      case None => SubsequenceRefl(cloud); Ok(cloud)
      case Some(rs) =>
        match DeleteRows(cloud, rs)
        case Err(e) => Err(e)
        case Ok(rest) =>
          var r := RemoveTouchdownsAsWritten(rest, td - 1, rows, template, dist, assign);
          if r.Ok? then SubsequenceTrans(r.value, rest, cloud); r else r
  }

  /** As written, a pass whose search fails after an earlier pass matched
      deletes the earlier pass's rows again and carries on. */
  lemma StaleRowsPass(cloud: seq<FieldPoint>, td: int, rows: seq<nat>, template: seq<FieldPoint>,
                      dist: (FieldPoint, FieldPoint) -> real,
                      assign: (seq<FieldPoint>, seq<FieldPoint>) -> seq<nat>)
    requires td > 0 && |cloud| > 0
    requires MatchedRows(cloud, template, dist, assign).None?
    ensures match DeleteRows(cloud, rows)
      case Err(e) => RemoveTouchdownsAsWritten(cloud, td, Some(rows), template, dist, assign) == Err(e)
      case Ok(rest) =>
        RemoveTouchdownsAsWritten(cloud, td, Some(rows), template, dist, assign)
        == RemoveTouchdownsAsWritten(rest, td - 1, Some(rows), template, dist, assign)
  {
  }

  /** As written, the first pass (no earlier rows) stops the loop when its
      search fails, as the corrected loop does on every pass. */
  lemma AsWrittenFirstPassStops(cloud: seq<FieldPoint>, td: int, template: seq<FieldPoint>,
                                dist: (FieldPoint, FieldPoint) -> real,
                                assign: (seq<FieldPoint>, seq<FieldPoint>) -> seq<nat>)
    requires td > 0 && |cloud| > 0
    requires MatchedRows(cloud, template, dist, assign).None?
    ensures RemoveTouchdownsAsWritten(cloud, td, None, template, dist, assign) == Ok(cloud)
  {
  }

  // A two-point example for the stale-rows finding: a marker template of
  // one point, a distance that puts the marker on point A only, and a matcher
  // that always answers row 0.
  const PointA := FieldPoint(0.0, 0.0)
  const PointB := FieldPoint(1.0, 0.0)
  const MarkerTemplate := [FieldPoint(0.0, 0.0)]

  function ExampleDist(c: FieldPoint, t: FieldPoint): real
  {
    if c == PointA then 0.0 else 100.0
  }

  function ExampleAssign(cloud: seq<FieldPoint>, placed: seq<FieldPoint>): seq<nat>
  {
    [0]
  }

  // The example lemmas take the cloud and the template as parameters: with
  // literal arguments the verifier would unfold the whole grid scan.

  /** When every offset costs the same, the scan keeps the very first
      offset if that cost is below the threshold, and nothing otherwise. */
  lemma ConstantCostSearch(cost: Offset -> real, c: real)
    requires forall o :: InGrid(o) ==> cost(o) == c
    ensures c < CostThreshold ==> Search(cost) == Some(Offset(0, 0))
    ensures c >= CostThreshold ==> Search(cost) == None
  {
    if c < CostThreshold {
      assert IsFirstMinimum(cost, Some(Offset(0, 0)));
      FirstMinimumUnique(cost, Search(cost), Some(Offset(0, 0)));
    } else {
      FirstMinimumUnique(cost, Search(cost), None);
    }
  }

  lemma ExampleFirstCosts(cloud: seq<FieldPoint>, template: seq<FieldPoint>)
    requires cloud == [PointA, PointB] && template == MarkerTemplate
    ensures forall o :: InGrid(o) ==> CostAt(cloud, template, ExampleDist)(o) == 0.0
  {
    var cost := CostAt(cloud, template, ExampleDist);
    forall o | InGrid(o)
      ensures cost(o) == 0.0
    {
      var placed := Shift(template, o);
      assert cloud[1..] == [PointB];
      assert Nearest(cloud, placed[0], ExampleDist) == 0.0;
      assert placed[1..] == [];
      assert cost(o) == PlacementCost(cloud, placed, ExampleDist)
                     == 0.0 + PlacementCost(cloud, [], ExampleDist);
    }
  }

  lemma ExampleSecondCosts(cloud: seq<FieldPoint>, template: seq<FieldPoint>)
    requires cloud == [PointB] && template == MarkerTemplate
    ensures forall o :: InGrid(o) ==> CostAt(cloud, template, ExampleDist)(o) == 100.0
  {
    var cost := CostAt(cloud, template, ExampleDist);
    forall o | InGrid(o)
      ensures cost(o) == 100.0
    {
      var placed := Shift(template, o);
      assert Nearest(cloud, placed[0], ExampleDist) == 100.0;
      assert placed[1..] == [];
      assert cost(o) == PlacementCost(cloud, placed, ExampleDist)
                     == 100.0 + PlacementCost(cloud, [], ExampleDist);
    }
  }

  lemma ExampleFirstPass(cloud: seq<FieldPoint>, template: seq<FieldPoint>)
    requires cloud == [PointA, PointB] && template == MarkerTemplate
    ensures MatchedRows(cloud, template, ExampleDist, ExampleAssign) == Some([0])
    ensures DeleteRows(cloud, [0]) == Ok([PointB])
  {
    ExampleFirstCosts(cloud, template);
    ConstantCostSearch(CostAt(cloud, template, ExampleDist), 0.0);
    DeleteFirstRow(cloud);
  }

  /** Deleting row 0 of a cloud keeps the rest. */
  lemma DeleteFirstRow<T>(cloud: seq<T>)
    requires |cloud| > 0
    ensures DeleteRows(cloud, [0]) == Ok(cloud[1..])
  {
    SurvivorsWithoutFirst(|cloud|);
    var r := DeleteRows(cloud, [0]);
    assert r.Ok?;
    assert r.value == cloud[1..];
  }

  lemma {:induction false} SurvivorsWithoutFirst(n: nat)
    requires n >= 1
    ensures |Survivors(n, [0])| == n - 1
    ensures forall m :: 0 <= m < n - 1 ==> Survivors(n, [0])[m] == m + 1
  {
    if n > 1 {
      SurvivorsWithoutFirst(n - 1);
      assert Survivors(n, [0]) == Survivors(n - 1, [0]) + [n - 1];
    }
  }

  lemma ExampleSecondPass(cloud: seq<FieldPoint>, template: seq<FieldPoint>)
    requires cloud == [PointB] && template == MarkerTemplate
    ensures Search(CostAt(cloud, template, ExampleDist)).None?
    ensures MatchedRows(cloud, template, ExampleDist, ExampleAssign) == None
    ensures DeleteRows(cloud, [0]) == Ok([])
  {
    ExampleSecondCosts(cloud, template);
    ConstantCostSearch(CostAt(cloud, template, ExampleDist), 100.0);
    DeleteFirstRow(cloud);
  }

  /** Two passes over the two-point cloud [A, B]: the first finds the marker
      on A and deletes it; the second finds nothing, yet the loop as written
      deletes row 0 again with the first pass's indices and empties the
      cloud, while the corrected loop stops with [B]. */
  lemma StaleRowsCounterexample(cloud: seq<FieldPoint>, template: seq<FieldPoint>)
    requires cloud == [PointA, PointB] && template == MarkerTemplate
    ensures Search(CostAt(cloud[1..], template, ExampleDist)).None?
    ensures RemoveTouchdownsAsWritten(cloud, 2, None, template, ExampleDist, ExampleAssign) == Ok([])
    ensures RemoveTouchdowns(cloud, 2, template, ExampleDist, ExampleAssign) == Ok([PointB])
  {
    ExampleFirstPass(cloud, template);
    var rest := cloud[1..];
    assert rest == [PointB];
    ExampleSecondPass(rest, template);
    assert RemoveTouchdownsAsWritten([], 0, Some([0]), template, ExampleDist, ExampleAssign) == Ok([]);
  }
}

=== FILE: wr_projection.dfy ===
/** Evaluation of receiver projections against actual statistics: the two
    frames are inner-joined on (player id, season), and each metric whose
    projected and actual columns both survive the merge is scored by its
    mean absolute error and mean squared error. */
module WrProjection {
  import opened Common

  /** One row of a statistics frame: its join key and its value columns. */
  datatype StatRow = StatRow(playerId: string, season: int, values: map<string, Option<real>>)

  /** A frame: the names of its value columns (the key columns apart) and
      its rows. */
  datatype Frame = Frame(columns: set<string>, rows: seq<StatRow>)

  /** The value of a column in a row; a column the row lacks is null. */
  function Value(r: StatRow, col: string): Option<real>
  {
    if col in r.values then r.values[col] else None
  }

  predicate SameKey(a: StatRow, b: StatRow)
  {
    a.playerId == b.playerId && a.season == b.season
  }

  /** The rows sharing `l`'s key. */
  function Matching(l: StatRow): StatRow -> bool
  {
    (r: StatRow) => SameKey(l, r)
  }

  /** `l` paired with each of `ms`, in order. */
  function PairWith<L, R>(l: L, ms: seq<R>): (pairs: seq<(L, R)>)
    ensures |pairs| == |ms|
    ensures forall k :: 0 <= k < |ms| ==> pairs[k] == (l, ms[k])
  {
    if |ms| == 0 then [] else [(l, ms[0])] + PairWith(l, ms[1..])
  }

  /** How often the pair (a, b) occurs in an inner join of `left` and
      `right`: once for every copy of `a` on the left and of `b` on the
      right when their keys match, never otherwise. */
  function JoinedCopies(left: seq<StatRow>, right: seq<StatRow>, a: StatRow, b: StatRow): nat
  {
    if SameKey(a, b) then multiset(left)[a] * multiset(right)[b] else 0
  }

  /** The inner join on (player_id, season): for each projection row in
      order, each actual row with the same key, in order. */
  function Join(left: seq<StatRow>, right: seq<StatRow>): (pairs: seq<(StatRow, StatRow)>)
    ensures forall j :: 0 <= j < |pairs| ==> pairs[j].0 in left && pairs[j].1 in right && SameKey(pairs[j].0, pairs[j].1)
  {
    if |left| == 0 then []
    else
      var rest := Join(left[1..], right);
      JoinBlockShape(left, right, rest);
      PairWith(left[0], Filter(right, Matching(left[0]))) + rest
  }

  /** The pairs of the first left row, put in front of the join of the
      other left rows, pair rows of `left` and `right` with equal keys. */
  lemma JoinBlockShape(left: seq<StatRow>, right: seq<StatRow>, rest: seq<(StatRow, StatRow)>)
    requires |left| > 0
    requires forall j :: 0 <= j < |rest| ==> rest[j].0 in left[1..] && rest[j].1 in right && SameKey(rest[j].0, rest[j].1)
    ensures var pairs := PairWith(left[0], Filter(right, Matching(left[0]))) + rest;
      forall j :: 0 <= j < |pairs| ==> pairs[j].0 in left && pairs[j].1 in right && SameKey(pairs[j].0, pairs[j].1)
  {
    var matches := Filter(right, Matching(left[0]));
    var block := PairWith(left[0], matches);
    var pairs := block + rest;
    forall j | 0 <= j < |pairs|
      ensures pairs[j].0 in left && pairs[j].1 in right && SameKey(pairs[j].0, pairs[j].1)
    {
      if j < |block| {
        assert pairs[j] == (left[0], matches[j]);
        assert matches[j] in matches;
      } else {
        var p := rest[j - |block|];
        assert pairs[j] == p;
        var k :| 0 <= k < |left[1..]| && left[1..][k] == p.0;
        assert left[k + 1] == p.0;
      }
    }
  }

  /** How often a pair occurs in the join: see `JoinedCopies`. */
  lemma {:induction false} JoinCopies(left: seq<StatRow>, right: seq<StatRow>, a: StatRow, b: StatRow)
    ensures multiset(Join(left, right))[(a, b)] == JoinedCopies(left, right, a, b)
  {
    if |left| > 0 {
      JoinCopies(left[1..], right, a, b);
      JoinPairCopies(left, right, Join(left[1..], right), a, b);
    }
  }

  lemma JoinPairCopies(left: seq<StatRow>, right: seq<StatRow>, rest: seq<(StatRow, StatRow)>, a: StatRow, b: StatRow)
    requires |left| > 0
    requires multiset(rest)[(a, b)] == JoinedCopies(left[1..], right, a, b)
    ensures multiset(PairWith(left[0], Filter(right, Matching(left[0]))) + rest)[(a, b)] == JoinedCopies(left, right, a, b)
  {
    var l := left[0];
    var matches := Filter(right, Matching(l));
    var block := PairWith(l, matches);
    var ml := multiset(left[1..])[a];
    var mr := multiset(right)[b];
    assert multiset(block)[(a, b)] == if a == l && SameKey(a, b) then mr else 0 by {
      PairWithCopies(l, matches, a, b);
      FilterMultiplicity(right, Matching(l), b);
    }
    assert multiset(block + rest)[(a, b)] == multiset(block)[(a, b)] + multiset(rest)[(a, b)] by {
      AppendCopies(block, rest, (a, b));
    }
    assert multiset(left)[a] == (if a == l then 1 else 0) + ml by {
      HeadCopies(left, a);
    }
    ProductStep(a == l, SameKey(a, b), ml, mr);
  }

  /** Copies of `x` in `s + t` are those in `s` plus those in `t`. */
  lemma AppendCopies<T>(s: seq<T>, t: seq<T>, x: T)
    ensures multiset(s + t)[x] == multiset(s)[x] + multiset(t)[x]
  {
    assert multiset(s + t) == multiset(s) + multiset(t);
  }

  /** Copies of `x` in a non-empty `s`: the head's, plus the tail's. */
  lemma HeadCopies<T>(s: seq<T>, x: T)
    requires |s| > 0
    ensures multiset(s)[x] == (if x == s[0] then 1 else 0) + multiset(s[1..])[x]
  {
    assert s == [s[0]] + s[1..];
    assert multiset(s) == multiset([s[0]]) + multiset(s[1..]);
  }

  /** The arithmetic of adding the first left row's copies to the rest. */
  lemma ProductStep(first: bool, matches: bool, ml: nat, mr: nat)
    ensures (if first && matches then mr else 0) + (if matches then ml * mr else 0)
         == (if matches then ((if first then 1 else 0) + ml) * mr else 0)
  {
  }

  /** `l` paired with each of `ms` holds (l, b) as often as `ms` holds `b`. */
  lemma {:induction false} PairWithCopies<L, R>(l: L, ms: seq<R>, a: L, b: R)
    ensures multiset(PairWith(l, ms))[(a, b)] == if a == l then multiset(ms)[b] else 0
  {
    if |ms| > 0 {
      PairWithCopies(l, ms[1..], a, b);
      CopiesStep(l, ms[0], PairWith(l, ms[1..]), ms[1..], a, b);
      assert ms == [ms[0]] + ms[1..];
    }
  }

  /** Putting (l, m) in front of the pairs adds one copy of (l, m) and
      putting m in front of the matches adds one copy of m. */
  lemma CopiesStep<L, R>(l: L, m: R, tail: seq<(L, R)>, rest: seq<R>, a: L, b: R)
    requires multiset(tail)[(a, b)] == if a == l then multiset(rest)[b] else 0
    ensures multiset([(l, m)] + tail)[(a, b)] == if a == l then multiset([m] + rest)[b] else 0
  {
    assert multiset([(l, m)] + tail) == multiset([(l, m)]) + multiset(tail);
    assert multiset([m] + rest) == multiset([m]) + multiset(rest);
  }

  /** Every pair of rows with equal keys appears in the join. */
  lemma {:induction false} JoinComplete(left: seq<StatRow>, right: seq<StatRow>, a: int, b: int)
    requires 0 <= a < |left| && 0 <= b < |right| && SameKey(left[a], right[b])
    ensures (left[a], right[b]) in Join(left, right)
  {
    var l := left[0];
    var matches := Filter(right, Matching(l));
    if a == 0 {
      assert right[b] in matches;
      var k :| 0 <= k < |matches| && matches[k] == right[b];
      assert PairWith(l, matches)[k] == (left[a], right[b]);
    } else {
      assert left[a] == left[1..][a - 1];
      JoinComplete(left[1..], right, a - 1, b);
    }
  }

  const ProjSuffix: string := "_proj"
  const ActualSuffix: string := "_actual"

  /** The value columns of the merged frame: a column only one side has
      keeps its name; a column both sides have appears twice, with the
      projection and the actual suffix. */
  function MergedColumns(proj: set<string>, actual: set<string>): set<string>
  {
    (proj - actual) + (actual - proj)
    + (set c | c in proj && c in actual :: c + ProjSuffix)
    + (set c | c in proj && c in actual :: c + ActualSuffix)
  }

  /** The metrics scored, in order. */
  const Metrics: seq<string> := ["receptions", "receiving_yards", "receiving_tds"]

  /** A metric is scored when both of its suffixed columns are present in
      the merged frame. */
  predicate Evaluated(proj: set<string>, actual: set<string>, metric: string)
  {
    var cols := MergedColumns(proj, actual);
    metric + ActualSuffix in cols && metric + ProjSuffix in cols
  }

  /** `Evaluated` as a filter over metric names. */
  function EvaluatedIn(proj: set<string>, actual: set<string>): string -> bool
  {
    m => Evaluated(proj, actual, m)
  }

  lemma SuffixCancel(a: string, b: string, suffix: string)
    requires a + suffix == b + suffix
    ensures a == b
  {
    assert a == (a + suffix)[..|a|];
    assert b == (b + suffix)[..|b|];
  }

  /** A name that does not already end in one of the merge suffixes. */
  predicate Unsuffixed(c: string)
  {
    && !(|c| >= |ProjSuffix| && c[|c| - |ProjSuffix|..] == ProjSuffix)
    && !(|c| >= |ActualSuffix| && c[|c| - |ActualSuffix|..] == ActualSuffix)
  }

  lemma EndsWith(c: string, suffix: string)
    ensures (c + suffix)[|c + suffix| - |suffix|..] == suffix
  {
  }

  /** A projection-suffixed name never equals an actual-suffixed one. */
  lemma SuffixesDiffer(a: string, b: string)
    ensures a + ProjSuffix != b + ActualSuffix
  {
    var x := a + ProjSuffix;
    var y := b + ActualSuffix;
    assert x[|x| - 1] == 'j';
    assert y[|y| - 1] == 'l';
  }

  /** When no input column already ends in a merge suffix, a metric is
      scored exactly when both frames have it. */
  lemma EvaluatedIffShared(proj: set<string>, actual: set<string>, metric: string)
    requires forall c :: c in proj ==> Unsuffixed(c)
    requires forall c :: c in actual ==> Unsuffixed(c)
    ensures Evaluated(proj, actual, metric) <==> metric in proj && metric in actual
  {
    var cols := MergedColumns(proj, actual);
    EndsWith(metric, ProjSuffix);
    EndsWith(metric, ActualSuffix);
    if metric in proj && metric in actual {
      assert metric + ProjSuffix in (set c | c in proj && c in actual :: c + ProjSuffix);
      assert metric + ActualSuffix in (set c | c in proj && c in actual :: c + ActualSuffix);
    }
    if Evaluated(proj, actual, metric) {
      var name := metric + ProjSuffix;
      assert name !in proj && name !in actual;
      if name in (set c | c in proj && c in actual :: c + ProjSuffix) {
        var c :| c in proj && c in actual && c + ProjSuffix == name;
        SuffixCancel(c, metric, ProjSuffix);
      } else {
        assert name in (set c | c in proj && c in actual :: c + ActualSuffix);
        var c :| c in proj && c in actual && c + ActualSuffix == name;
        SuffixesDiffer(metric, c);
        assert false;
      }
    }
  }

  /** The value a merged row holds in a merged column, read back from the
      projection row or the actual row it came from. */
  function MergedValue(proj: set<string>, actual: set<string>, pair: (StatRow, StatRow), col: string): Option<real>
  {
    if col in proj && col !in actual then Value(pair.0, col)
    else if col in actual && col !in proj then Value(pair.1, col)
    else if |col| >= |ProjSuffix| && col[|col| - |ProjSuffix|..] == ProjSuffix
            && col[..|col| - |ProjSuffix|] in proj && col[..|col| - |ProjSuffix|] in actual
    then Value(pair.0, col[..|col| - |ProjSuffix|])
    else if |col| >= |ActualSuffix| && col[|col| - |ActualSuffix|..] == ActualSuffix
            && col[..|col| - |ActualSuffix|] in proj && col[..|col| - |ActualSuffix|] in actual
    then Value(pair.1, col[..|col| - |ActualSuffix|])
    else None
  }

  /** A merged column as a list. */
  function Column(proj: set<string>, actual: set<string>, pairs: seq<(StatRow, StatRow)>, col: string): (vals: seq<Option<real>>)
    ensures |vals| == |pairs|
    ensures forall k :: 0 <= k < |pairs| ==> vals[k] == MergedValue(proj, actual, pairs[k], col)
  {
    seq(|pairs|, k requires 0 <= k < |pairs| => MergedValue(proj, actual, pairs[k], col))
  }

  function Abs(x: real): (a: real)
    ensures a >= 0.0 && (a == 0.0 <==> x == 0.0)
  {
    if x < 0.0 then -x else x
  }

  /** A sum of non-negative terms is non-negative, and zero exactly when
      every term is. */
  lemma {:induction false} SumNonNegative(s: seq<real>)
    requires forall k :: 0 <= k < |s| ==> s[k] >= 0.0
    ensures Sum(s) >= 0.0
    ensures Sum(s) == 0.0 <==> forall k :: 0 <= k < |s| ==> s[k] == 0.0
  {
    if |s| > 0 {
      assert forall k :: 1 <= k < |s| ==> s[k] == s[1..][k - 1];
      SumNonNegative(s[1..]);
    }
  }

  /** `|actual - predicted|` row by row. */
  function AbsoluteErrors(actual: seq<real>, predicted: seq<real>): (e: seq<real>)
    requires |actual| == |predicted|
    ensures |e| == |actual|
    ensures forall k :: 0 <= k < |e| ==> e[k] >= 0.0 && (e[k] == 0.0 <==> actual[k] == predicted[k])
  {
    seq(|actual|, k requires 0 <= k < |actual| => Abs(actual[k] - predicted[k]))
  }

  /** `(actual - predicted)^2` row by row. */
  function SquaredErrors(actual: seq<real>, predicted: seq<real>): (e: seq<real>)
    requires |actual| == |predicted|
    ensures |e| == |actual|
    ensures forall k :: 0 <= k < |e| ==> e[k] >= 0.0 && (e[k] == 0.0 <==> actual[k] == predicted[k])
  {
    var e := seq(|actual|, k requires 0 <= k < |actual| => Square(actual[k] - predicted[k]));
    SquaresSign(actual, predicted, e);
    e
  }

  function Square(x: real): real
  {
    x * x
  }

  /** A square is non-negative, and zero only at zero. */
  lemma SquareSign(x: real)
    ensures Square(x) >= 0.0
    ensures Square(x) == 0.0 <==> x == 0.0
  {
    assert x * x >= 0.0 * x;
    if x != 0.0 {
      assert Square(x) / x == x;
    }
  }

  /** The mean of row errors that vanish exactly on exact predictions is
      non-negative, and zero exactly when every prediction is exact. */
  lemma MeanOfErrors(actual: seq<real>, predicted: seq<real>, e: seq<real>)
    requires |actual| == |predicted| == |e| > 0
    requires forall k :: 0 <= k < |e| ==> e[k] >= 0.0 && (e[k] == 0.0 <==> actual[k] == predicted[k])
    ensures Sum(e) / (|e| as real) >= 0.0
    ensures Sum(e) / (|e| as real) == 0.0 <==> actual == predicted
    ensures Sum(e) / (|e| as real) * (|e| as real) == Sum(e)
  {
    SumNonNegative(e);
    if forall k :: 0 <= k < |e| ==> e[k] == 0.0 {
      assert actual == predicted;
    }
    if actual == predicted {
      assert forall k :: 0 <= k < |e| ==> e[k] == 0.0;
    }
  }

  lemma SquaresSign(actual: seq<real>, predicted: seq<real>, e: seq<real>)
    requires |actual| == |predicted| == |e|
    requires forall k :: 0 <= k < |e| ==> e[k] == Square(actual[k] - predicted[k])
    ensures forall k :: 0 <= k < |e| ==> e[k] >= 0.0 && (e[k] == 0.0 <==> actual[k] == predicted[k])
  {
    forall k | 0 <= k < |e|
      ensures e[k] >= 0.0 && (e[k] == 0.0 <==> actual[k] == predicted[k])
    {
      SquareSign(actual[k] - predicted[k]);
    }
  }

  /** `mean_absolute_error`: non-negative, and zero exactly when every
      prediction is exact. */
  function MeanAbsoluteError(actual: seq<real>, predicted: seq<real>): (mae: real)
    requires |actual| == |predicted| > 0
    ensures mae >= 0.0
    ensures mae == 0.0 <==> actual == predicted
    ensures mae * (|actual| as real) == Sum(AbsoluteErrors(actual, predicted))
  {
    var e := AbsoluteErrors(actual, predicted);
    MeanOfErrors(actual, predicted, e);
    Sum(e) / (|actual| as real)
  }

  /** `mean_squared_error` (the square of the reported RMSE): non-negative,
      and zero exactly when every prediction is exact. */
  function MeanSquaredError(actual: seq<real>, predicted: seq<real>): (mse: real)
    requires |actual| == |predicted| > 0
    ensures mse >= 0.0
    ensures mse == 0.0 <==> actual == predicted
    ensures mse * (|actual| as real) == Sum(SquaredErrors(actual, predicted))
  {
    var e := SquaredErrors(actual, predicted);
    MeanOfErrors(actual, predicted, e);
    Sum(e) / (|actual| as real)
  }

  /** Errors bounded by `b` row by row give a mean absolute error of at
      most `b`. */
  lemma MaeBound(actual: seq<real>, predicted: seq<real>, b: real)
    requires |actual| == |predicted| > 0
    requires forall k :: 0 <= k < |actual| ==> Abs(actual[k] - predicted[k]) <= b
    ensures MeanAbsoluteError(actual, predicted) <= b
  {
    var e := AbsoluteErrors(actual, predicted);
    MeanBounds(e, 0.0, b);
    var n := |actual| as real;
    assert Mean(e).value * n == MeanAbsoluteError(actual, predicted) * n;
  }

  /** Swapping projections and actuals changes neither error. */
  lemma ErrorsSymmetric(actual: seq<real>, predicted: seq<real>)
    requires |actual| == |predicted| > 0
    ensures MeanAbsoluteError(actual, predicted) == MeanAbsoluteError(predicted, actual)
    ensures MeanSquaredError(actual, predicted) == MeanSquaredError(predicted, actual)
  {
    assert AbsoluteErrors(actual, predicted) == AbsoluteErrors(predicted, actual);
    assert SquaredErrors(actual, predicted) == SquaredErrors(predicted, actual);
  }

  datatype Errors = Errors(mae: real, mse: real)

  /** The scoring of a metric fails as the error functions do: on no rows,
      and on a null value. */
  datatype EvalError = NoSamples(metric: string) | MissingValue(metric: string)

  predicate AllPresent(vals: seq<Option<real>>)
  {
    forall k :: 0 <= k < |vals| ==> vals[k].Some?
  }

  function Unwrap(vals: seq<Option<real>>): (r: seq<real>)
    requires AllPresent(vals)
    ensures |r| == |vals| && forall k :: 0 <= k < |vals| ==> vals[k] == Some(r[k])
  {
    seq(|vals|, k requires 0 <= k < |vals| => vals[k].value)
  }

  /** The MAE and MSE of one metric over the merged rows. */
  function Score(proj: set<string>, actual: set<string>, pairs: seq<(StatRow, StatRow)>, metric: string): (r: Result<Errors, EvalError>)
  {
    var ys := Column(proj, actual, pairs, metric + ActualSuffix);
    var ps := Column(proj, actual, pairs, metric + ProjSuffix);
    if |pairs| == 0 then Err(NoSamples(metric))
    else if !(AllPresent(ys) && AllPresent(ps)) then Err(MissingValue(metric))
    else Ok(Errors(MeanAbsoluteError(Unwrap(ys), Unwrap(ps)), MeanSquaredError(Unwrap(ys), Unwrap(ps))))
  }

  /** Scoring fails for want of rows exactly when the join is empty, for a
      null exactly when some value of either column is null, and otherwise
      gives the two errors of the columns. */
  lemma ScoreOutcome(proj: set<string>, actual: set<string>, pairs: seq<(StatRow, StatRow)>, metric: string)
    ensures var r := Score(proj, actual, pairs, metric);
      && (r == Err(NoSamples(metric)) <==> |pairs| == 0)
      && (r == Err(MissingValue(metric)) <==>
            |pairs| > 0
            && !(AllPresent(Column(proj, actual, pairs, metric + ActualSuffix))
                 && AllPresent(Column(proj, actual, pairs, metric + ProjSuffix))))
      && (r.Ok? ==>
            var ys := Unwrap(Column(proj, actual, pairs, metric + ActualSuffix));
            var ps := Unwrap(Column(proj, actual, pairs, metric + ProjSuffix));
            r.value == Errors(MeanAbsoluteError(ys, ps), MeanSquaredError(ys, ps)))
  {
  }

  /** The metrics of a result, in order. */
  function ResultKeys(scores: seq<(string, Errors)>): seq<string>
  {
    seq(|scores|, k requires 0 <= k < |scores| => scores[k].0)
  }

  /** The loop over the metrics: a metric whose columns are missing is
      skipped, and the first metric that cannot be scored stops the loop. */
  function EvaluateMetrics(metrics: seq<string>, proj: set<string>, actual: set<string>, pairs: seq<(StatRow, StatRow)>):
    (r: Result<seq<(string, Errors)>, EvalError>)
    ensures r.Ok? ==> |r.value| <= |metrics|
  {
    if |metrics| == 0 then Ok([])
    else
      var m := metrics[0];
      var rest := EvaluateMetrics(metrics[1..], proj, actual, pairs);
      if !Evaluated(proj, actual, m) then rest
      else match Score(proj, actual, pairs, m)
        case Err(e) => Err(e)
        case Ok(s) =>
          match rest
          case Err(e) => Err(e)
          case Ok(scores) => Ok([(m, s)] + scores)
  }

  /** The loop succeeds exactly when every evaluated metric scores; each
      result is that metric's score, and a failure is the failure of some
      listed metric. */
  lemma {:induction false} EvaluateMetricsOutcome(metrics: seq<string>, proj: set<string>, actual: set<string>, pairs: seq<(StatRow, StatRow)>)
    ensures var r := EvaluateMetrics(metrics, proj, actual, pairs);
      && (r.Ok? ==> forall k :: 0 <= k < |r.value| ==> Score(proj, actual, pairs, r.value[k].0) == Ok(r.value[k].1))
      && (r.Ok? <==> forall k :: 0 <= k < |metrics| && Evaluated(proj, actual, metrics[k]) ==> Score(proj, actual, pairs, metrics[k]).Ok?)
      && (r.Err? ==> exists k :: 0 <= k < |metrics| && Score(proj, actual, pairs, metrics[k]) == Err(r.error))
  {
    if |metrics| > 0 {
      var m := metrics[0];
      var tail := metrics[1..];
      var r := EvaluateMetrics(metrics, proj, actual, pairs);
      var rest := EvaluateMetrics(tail, proj, actual, pairs);
      EvaluateMetricsOutcome(tail, proj, actual, pairs);
      assert forall k :: 1 <= k < |metrics| ==> metrics[k] == tail[k - 1];
      if !Evaluated(proj, actual, m) {
        assert r == rest;
      } else if Score(proj, actual, pairs, m).Err? {
        assert Score(proj, actual, pairs, metrics[0]) == Err(r.error);
      } else if rest.Err? {
        var j :| 0 <= j < |tail| && Score(proj, actual, pairs, tail[j]) == Err(rest.error);
        assert Score(proj, actual, pairs, metrics[j + 1]) == Err(r.error);
      } else {
        assert r.value == [(m, Score(proj, actual, pairs, m).value)] + rest.value;
      }
    }
  }

  /** One step of the loop: a successful evaluation succeeds on the rest
      of the list, and its keys gain the first metric exactly when that
      metric is evaluated. */
  lemma EvaluatedKeysStep(metrics: seq<string>, proj: set<string>, actual: set<string>, pairs: seq<(StatRow, StatRow)>)
    requires |metrics| > 0 && EvaluateMetrics(metrics, proj, actual, pairs).Ok?
    ensures EvaluateMetrics(metrics[1..], proj, actual, pairs).Ok?
    ensures ResultKeys(EvaluateMetrics(metrics[1..], proj, actual, pairs).value) == Filter(metrics[1..], EvaluatedIn(proj, actual))
      ==> ResultKeys(EvaluateMetrics(metrics, proj, actual, pairs).value) == Filter(metrics, EvaluatedIn(proj, actual))
  {
    var m := metrics[0];
    var r := EvaluateMetrics(metrics, proj, actual, pairs);
    var rest := EvaluateMetrics(metrics[1..], proj, actual, pairs);
    if Evaluated(proj, actual, m) {
      assert r.value[1..] == rest.value;
      assert ResultKeys(r.value) == [m] + ResultKeys(rest.value);
    }
  }

  /** The metrics of a successful evaluation are exactly the metrics whose
      columns survive the merge, in the listed order. */
  lemma {:induction false} EvaluatedKeys(metrics: seq<string>, proj: set<string>, actual: set<string>, pairs: seq<(StatRow, StatRow)>)
    requires EvaluateMetrics(metrics, proj, actual, pairs).Ok?
    ensures ResultKeys(EvaluateMetrics(metrics, proj, actual, pairs).value) == Filter(metrics, EvaluatedIn(proj, actual))
  {
    if |metrics| > 0 {
      EvaluatedKeysStep(metrics, proj, actual, pairs);
      EvaluatedKeys(metrics[1..], proj, actual, pairs);
    }
  }

  /** A successful evaluation scores only listed metrics whose columns
      survive the merge, each at most once. */
  lemma ScoredMetrics(metrics: seq<string>, proj: set<string>, actual: set<string>, pairs: seq<(StatRow, StatRow)>)
    requires EvaluateMetrics(metrics, proj, actual, pairs).Ok?
    ensures var scores := EvaluateMetrics(metrics, proj, actual, pairs).value;
      |scores| <= |metrics| && forall k :: 0 <= k < |scores| ==> scores[k].0 in metrics && Evaluated(proj, actual, scores[k].0)
  {
    var scores := EvaluateMetrics(metrics, proj, actual, pairs).value;
    EvaluatedKeys(metrics, proj, actual, pairs);
    var kept := Filter(metrics, EvaluatedIn(proj, actual));
    assert forall k :: 0 <= k < |scores| ==> ResultKeys(scores)[k] == scores[k].0 && kept[k] in kept;
  }

  /** `evaluate_wr_projections`: the listed metrics whose columns survive
      the merge, in order, each with its scores over the joined rows; the
      evaluation fails exactly when one of them cannot be scored, with
      that metric's error. */
  function EvaluateWrProjections(projections: Frame, actualStats: Frame): (r: Result<seq<(string, Errors)>, EvalError>)
    ensures r.Ok? ==> |r.value| <= |Metrics|
    ensures r.Ok? ==> forall k :: 0 <= k < |r.value| ==>
      r.value[k].0 in Metrics && Evaluated(projections.columns, actualStats.columns, r.value[k].0)
    ensures r.Ok? <==> forall m :: m in Metrics && Evaluated(projections.columns, actualStats.columns, m) ==>
      Score(projections.columns, actualStats.columns, Join(projections.rows, actualStats.rows), m).Ok?
    ensures r.Ok? ==> ResultKeys(r.value) == Filter(Metrics, EvaluatedIn(projections.columns, actualStats.columns))
    ensures r.Ok? ==> forall k :: 0 <= k < |r.value| ==>
      Score(projections.columns, actualStats.columns, Join(projections.rows, actualStats.rows), r.value[k].0) == Ok(r.value[k].1)
    ensures r.Err? ==> exists m ::
      m in Metrics && Score(projections.columns, actualStats.columns, Join(projections.rows, actualStats.rows), m) == Err(r.error)
  {
    var pairs := Join(projections.rows, actualStats.rows);
    var r := EvaluateMetrics(Metrics, projections.columns, actualStats.columns, pairs);
    EvaluateMetricsOutcome(Metrics, projections.columns, actualStats.columns, pairs);
    if r.Ok? then
      ScoredMetrics(Metrics, projections.columns, actualStats.columns, pairs);
      EvaluatedKeys(Metrics, projections.columns, actualStats.columns, pairs);
      r
    else r
  }
}
